=== FILE: README.md ===
# Knowde brand scraper: a Dafny model of its data logic

The scraper crawls the Knowde marketplace. It expands category pages into brand
listing pages and collects the brand links. For each brand it reads the Next.js
build token from the brand page, downloads the brand's `_next/data` JSON and stores
it. Later passes turn that JSON into product records, and a query layer answers
summary, detail, search and statistics questions about a brand. Brand work is
handed out through a Redis list and set.

This project models the data logic between the browser and HTTP calls. It proves
properties of that model. The modules are:

| module | file | models |
|---|---|---|
| `Wrappers`, `Json`, `Text`, `PyOps`, `Collect` | wrappers.dfy, json.dfy, text.dfy, pyops.dfy, collect.dfy | the shared vocabulary described below |
| `BrandPayload` | brand_payload.dfy | the shared pieces of a brand payload: `pageProps`, the product sections, and the rebuilding of `properties`/`summary` lists into name → items maps |
| `PageScrape` | page_scrape.dfy | the table and link scrape of a product page, over an abstract page |
| `ProductExtractor` | product_extractor.dfy | `ProductExtractor` (src/processor/product_extractor.py) |
| `SectionExtractors` | section_extractors.dfy | the two extractors under tests/ and their save guards |
| `BrandQuery` | brand_query.dfy | the root `BrandDataProcessor` (brand_data_processor.py) |
| `BrandSearch` | brand_search.dfy | `BrandDataProcessor.search_products` of src/processor/brand_data_processor.py |
| `Crawl` | crawl.dfy | the crawl helpers of combined_brands_parser.py and src/parser/brand_parser.py |
| `TaskQueue` | task_queue.dfy | the brand queue of src/queue/task_queue.py |

The shared vocabulary:
- JSON is an inductive `Json` datatype. A JSON object is a list of key/value pairs. Lookup returns the last pair with the key, as `json.load` keeps the last duplicate.
- `Field(j, key, default)` is `dict.get` on a value already known to be a dict.
- Python's exceptions are a `PyResult` (`KeyError`, `TypeError`, `AttributeError`, `IndexError`).
- `PyOps` gives `.get`, `[]`, `in`, iteration, `len` and `str()` their Python behaviour on each kind of value. Examples: `.get` on a list raises `AttributeError`; iterating a dict yields its keys; `in` on a string is a substring test.
- The `Collect` combinators make the error paths explicit:
  - `CollectUntilError` and `FilterMapUntilError` model a loop inside `try/except` that returns what it built before the error.
  - `MapAll` and `FilterMapAll` model loops with no handler, which succeed entirely or raise.
  - `FindIndex` and `Any` model `break`-style searches and `any(...)`.
  - `Chain` models a sequence of loops that stops at the first failing one.

The outside world enters as parameters:
- A product page is a `Page` value. The browser is a map from URL to page.
- A brand listing site is a map from URL to the hrefs of its "View Brand" anchors.
- Each fetch attempt of a retry loop is a `nat -> …` function. The server's answer to a request is a function of the requested URL.

The two parser files contain the same crawl helpers; one model covers both. The
`Model` table cites one file per member: combined_brands_parser.py for some members
and src/parser/brand_parser.py for the others. The corresponding lines in the other
file are:
- collect: combined_brands_parser.py:66-78 and src/parser/brand_parser.py:51-63
- save: 93-103 and 73-80
- expansion: 118-124 and 93-99
- JSON retry: 135-158 and 103-125
- token: 162-183 and 129-149

The src/ `BrandDataProcessor` has no constructor or storage of its own, so
`BrandSearch` takes the loaded brand JSON as a parameter. A missing or empty file is
`None`.

## Model

| member | source | states |
|---|---|---|
| BrandPayload.NameItemsFold | src/processor/product_extractor.py:141-144 | rebuilding a `[{name, items}]` list succeeds iff every entry is a dict (with the `name` hashable); every entry's name (default `''`) is then a key |
| BrandPayload.NameItemsKeysFromEntries | src/processor/product_extractor.py:141-144 | every key of the rebuilt map is the name of some entry |
| BrandPayload.NameItemsLastWins | src/processor/product_extractor.py:141-144 | an entry with no later entry of the same name determines that key's items (default `[]`): later duplicates overwrite earlier ones |
| BrandPayload.SummaryMap | src/processor/product_extractor.py:146-152 | the summary is rebuilt only when the product has the key; without it the result is `None`; with it, it succeeds exactly when the rebuild does |
| PageScrape.BodyRows | src/processor/product_extractor.py:209-217 | the kept rows are exactly the stripped non-empty rows, none of them empty, no more than the input rows |
| PageScrape.BodyRowsAppend | src/processor/product_extractor.py:209-217 | the rows kept from two runs of rows are those kept from the first followed by those kept from the second |
| PageScrape.BodyRowsOne | src/processor/product_extractor.py:209-217 | one row is kept, its cells stripped, iff it has at least one cell; so with the append lemma the kept rows keep their order and multiplicity |
| PageScrape.ScrapeTables | src/processor/product_extractor.py:194-231 | a table is in the result iff some input table yields it (headers or rows present) |
| PageScrape.ScrapeTablesAppend | src/processor/product_extractor.py:194-231 | the tables recorded from two runs of table elements are those of the first followed by those of the second |
| PageScrape.ScrapeTablesCons | src/processor/product_extractor.py:194-231 | the first table element's record, if any, comes before those of the rest |
| PageScrape.ScrapeTablesOne | src/processor/product_extractor.py:222-231 | one table element is recorded, with its caption name, headers and kept rows, iff it has headers or kept rows; so the tables keep page order and multiplicity |
| PageScrape.AnchorMap | src/processor/product_extractor.py:234-245 | every key is a non-empty stripped text; every anchor with non-empty stripped text is a key |
| PageScrape.AnchorMapKeysFromAnchors | src/processor/product_extractor.py:234-238 | every key comes from some anchor's text |
| PageScrape.AnchorMapLastWins | src/processor/product_extractor.py:234-238 | the last anchor with a given text determines that key's href |
| PageScrape.Scrape | src/processor/product_extractor.py:176-252 | a missing page, a page without tables, or a table without a header row gives empty tables/links/documents; otherwise the result is the recorded tables and the anchor maps of the detail and document links; no kept table is empty, no kept row is empty, and no link or document key is empty |
| PageScrape.ScrapeKeepsContent | src/processor/product_extractor.py:194-245 | every table with headers (from `td`, else `th`) or rows is kept with its caption name, and every anchor with text is kept; conversely every kept table is recorded from some table element and every link or document key is the stripped text of some anchor |
| ProductExtractor.TruthyOnly | src/processor/product_extractor.py:82-93 | the filtered list holds exactly the truthy values of the input, all truthy, no longer than the input |
| ProductExtractor.TruthyOnlyAppend | src/processor/product_extractor.py:82-93 | filtering two lists joined is filtering each and joining the results |
| ProductExtractor.TruthyOnlyOne | src/processor/product_extractor.py:82-93 | one value is kept iff it is truthy; so with the append lemma the filter keeps order and multiplicity |
| ProductExtractor.BlockEntry | src/processor/product_extractor.py:78-93 | a non-dict block raises; a falsy key gives no entry; a block of another type gives no entry; an entry has a truthy, hashable key and truthy values |
| ProductExtractor.FiltersBlockNames | src/processor/product_extractor.py:81-85 | a filters block maps its key to the truthy `filter_name`s of its filters, in filter order (a missing name counts as `None`) |
| ProductExtractor.GroupBlockValues | src/processor/product_extractor.py:86-93 | a group-filter block maps its key to each group's header name followed by its filter names, falsy values dropped, in order |
| ProductExtractor.GroupValuesWellFormed | src/processor/product_extractor.py:88-92 | a well-formed group contributes its header name (when present) then its filter names |
| ProductExtractor.ApplyBlocks | src/processor/product_extractor.py:77-93 | applying blocks keeps every existing key and adds only truthy, hashable keys |
| ProductExtractor.ApplyBlocksStopsAtFailure | src/processor/product_extractor.py:77-97 | the first block that raises ends the loop: the result is what the blocks before it assigned |
| ProductExtractor.ApplyBlocksLastWins | src/processor/product_extractor.py:77-93 | when no block raises, a key holds the values of the last block that assigns it |
| ProductExtractor.ApplyBlocksUnassigned | src/processor/product_extractor.py:77-93 | when no block raises, a key no block assigns is present iff it was before, with its old values |
| ProductExtractor.KeylessBlockSkipped | src/processor/product_extractor.py:79-80 | a block with a falsy key leaves the properties unchanged |
| ProductExtractor.BrandProperties | src/processor/product_extractor.py:68-97 | every brand-property key is truthy and hashable |
| ProductExtractor.BrandPropertiesLastWins | src/processor/product_extractor.py:68-97 | when no block of the found query raises, a key holds the values of the last block that assigns it |
| ProductExtractor.BrandPropertiesOnlyAssigned | src/processor/product_extractor.py:68-97 | when no block raises, a key no block assigns is absent |
| ProductExtractor.ProcessProduct | src/processor/product_extractor.py:99-165 | a falsy product gives `None`; a truthy non-dict raises; a dict gives a record carrying the brand name, the product id, the store URL built from `company_slug` and `slug`, the brand properties, the rebuilt properties, and the summary rebuilt from the product; a truthy dict whose properties and summary can be rebuilt always gives a record; without a driver, tables, links and documents are empty |
| ProductExtractor.FindProductsQuery | src/processor/product_extractor.py:39-44 | the chosen query is the first one whose `state.data` has `products`, every earlier one lacking it; `None` iff none has it |
| ProductExtractor.ExtractProductsFromBrand | src/processor/product_extractor.py:17-66 | no brand data gives no products; never more products than raw products; every product carries the brand name |
| ProductExtractor.ExtractOrdered | src/processor/product_extractor.py:52-55 | the result is exactly the records the raw products are processed to, in order, up to the first product whose processing raises: every kept product lies before that raise, and every product before it that is processed to a record (not `None`) is kept |
| ProductExtractor.ExtractKeepsWellFormed | src/processor/product_extractor.py:52-55 | when every raw product is a well-formed dict, one product comes out per raw product |
| SectionExtractors.CandidatesConcat | tests/extract_test_products.py:18-28 | the visited products are most viewed, then featured, then products, concatenated in that order |
| SectionExtractors.NoPagePropsNoCandidates | tests/test_product_extractor.py:33-43 | a payload that is not a dict or has no `pageProps` yields no products |
| SectionExtractors.BaseRecord | tests/extract_test_products.py:29-57 | building a record succeeds iff the product is a dict whose properties and summary can be rebuilt |
| SectionExtractors.Extras | tests/extract_test_products.py:63-71 | exactly the present additional fields are copied, each with its value |
| SectionExtractors.ScriptRecord | tests/extract_test_products.py:29-71 | a built record carries the product's id, name, properties and summary, `documents` exactly when the product has it, and exactly the additional fields it has, with their values |
| SectionExtractors.ExtractScriptProducts | tests/extract_test_products.py:6-78 | record i is built from product i of the stream; `documents` is set iff present; the extras are exactly the present optional fields; a shorter result stops at a product whose record raises |
| SectionExtractors.ExtractClassProducts | tests/test_product_extractor.py:20-76 | record i is built from product i of the stream and carries the brand name; a shorter result stops at a product whose record raises |
| SectionExtractors.ExtractKeepsAll | tests/extract_test_products.py:27-73 | when every product can be built, nothing is dropped |
| SectionExtractors.SaveScriptProducts | tests/extract_test_products.py:116-121 | earlier files are kept; every record with a truthy id is written under it; nothing else is written |
| SectionExtractors.SaveScriptProductsLastWins | tests/extract_test_products.py:116-121 | the file under an id holds the last record written with that id |
| SectionExtractors.SaveScriptProductsUnwritten | tests/extract_test_products.py:116-121 | an id no record is written under keeps the file it had before, or stays absent |
| SectionExtractors.FalsyIdNotSaved | tests/extract_test_products.py:117 | a record with a falsy id is not written |
| SectionExtractors.SaveProduct | tests/test_product_extractor.py:78-92 | a falsy record, or one without `id` or `brand`, writes nothing; a write is under the string brand and `<id>.json` |
| SectionExtractors.SaveProductWrites | tests/test_product_extractor.py:84-92 | a dict record with both keys and a string brand is written under its brand and id |
| BrandQuery.FamilyItemsOf | brand_data_processor.py:139-141 | a property named `Product Families` contributes the iteration of its `items` (default `[]`), any other property nothing; it raises only when it is not a dict or those items cannot be iterated |
| BrandQuery.FamilyItems | brand_data_processor.py:138-141 | a product's family items are exactly the items of its `Product Families` properties |
| BrandQuery.AllFamilyItems | brand_data_processor.py:137-141 | the collected items are exactly the family items of some product, all hashable (a set update of an unhashable item raises); they are collected iff every product's family items can be read and all of them are hashable |
| BrandQuery.UniqueCategoriesOf | brand_data_processor.py:133-142 | the unique categories are exactly the family items of the products; they are computed exactly when every item can be collected |
| BrandQuery.WebsiteEmptyLinksRaises | brand_data_processor.py:40 | as written, an empty `social_links` list makes the summary raise `IndexError` |
| BrandQuery.Website | brand_data_processor.py:40 | the website is the first social link's `url`, `None` when the key is missing or the list empty; it agrees with the code whenever the list is not empty |
| BrandQuery.GetBrandSummary | brand_data_processor.py:19-42 | no data gives `None`; loaded data gives a summary iff the products, their count, their unique categories and the website can all be computed; the summary counts the most-viewed products, lists their unique categories and carries the company name, description, website and `hq_address` location |
| BrandQuery.ProductDetailsIn | brand_data_processor.py:53-62 | the details are those of the first product whose `str(id)` equals the requested id, with its `id`, `name`, `description` (default `None`), `properties` and `summary` (default `[]`); `None` iff every product is a dict and none matches; it raises iff a non-dict product comes before every match |
| BrandQuery.GetProductDetails | brand_data_processor.py:44-62 | no data gives `None`; otherwise, when the most-viewed products can be listed, the result is exactly the lookup over them |
| BrandQuery.Matches | brand_data_processor.py:77-92 | a product matches iff the category is among its family items (when given) and the lowered keyword is in its lowered name or description (when given); no filters accept everything; the test raises iff the family items cannot be read (category given), or (keyword given) the product is not a dict, its name is not a string, or the name misses the keyword and the description is not a string |
| BrandQuery.LowerIdempotent | brand_data_processor.py:87-88 | lowering the keyword again on each iteration does not change it |
| BrandQuery.ShortDescription | brand_data_processor.py:98 | a falsy description gives `''`; a string description gives its first 100 characters followed by `...`; a truthy non-string raises |
| BrandQuery.SearchRecordOf | brand_data_processor.py:95-100 | a record is built iff its short description and categories can be computed; it carries the product's id and name and exactly those two values |
| BrandQuery.CategoriesWithoutFamiliesRaises | brand_data_processor.py:99 | as written, a product with properties but no `Product Families` property makes the search raise `IndexError` |
| BrandQuery.Categories | brand_data_processor.py:99 | the categories are the first `Product Families` items list, `[]` when there are no properties or no such list; they agree with the code whenever it succeeds |
| BrandQuery.Step | brand_data_processor.py:77-100 | a product yields a record iff it passes both filters and its record can be built; the step succeeds iff the filters do not raise and, for a product they accept, the product is a dict whose record can be built; with no filters it succeeds iff the record can be built, and then yields it |
| BrandQuery.SearchIn | brand_data_processor.py:77-102 | the search loop succeeds iff no product's step raises |
| BrandQuery.SearchProducts | brand_data_processor.py:64-102 | no data gives `[]`; otherwise, when the most-viewed products can be listed, the result is exactly the search over them |
| BrandQuery.SearchExact | brand_data_processor.py:77-100 | the result is, in input order, the records of exactly the products both filters accept; every accepted product's index is among the kept indices |
| BrandQuery.SearchUnfilteredKeepsAll | brand_data_processor.py:77-100 | with no category and no keyword the search succeeds iff every product is a dict whose record can be built, and then every product's record is returned, in order |
| BrandQuery.Tally | brand_data_processor.py:116-123 | the distribution has exactly the categories as keys, each mapped to its number of occurrences |
| BrandQuery.CountWhere | brand_data_processor.py:129-130 | a count of products never exceeds the number of products, and raises iff some test raises |
| BrandQuery.StatisticsOf | brand_data_processor.py:112-131 | the total is the product count; the category count is the number of distinct categories; the distribution keys are exactly the collected family items, each with a positive count equal to its occurrences; both flags count at most the products; the statistics are computed iff the family items can be collected and both flag counts succeed |
| BrandQuery.CategoryTally | brand_data_processor.py:115-123 | the set's size is the number of distribution keys; a key is a collected item and its count is its number of occurrences, never zero |
| BrandQuery.StatisticsCategories | brand_data_processor.py:118-123 | a category is in the distribution iff it is a `Product Families` item of some product |
| BrandQuery.GetBrandStatistics | brand_data_processor.py:104-131 | no data gives `None`; otherwise statistics are returned iff the most-viewed products can be listed and their statistics computed, and they are those statistics |
| BrandQuery.StatisticsCountsSum | brand_data_processor.py:118-123 | each category's count is the sum over products of its occurrences in each product |
| BrandSearch.CandidatesAgree | src/processor/brand_data_processor.py:24-36 | the searched products are the same three sections, in the same order, as the extractors' stream |
| BrandSearch.NameIn | src/processor/brand_data_processor.py:89 | the membership test raises iff the property is not a dict; otherwise it holds iff the property's `name` is a string among the names |
| BrandSearch.NamedItemsOf | src/processor/brand_data_processor.py:88-90 | a property with one of the names contributes its items; any other dict contributes nothing; it raises iff the property is not a dict or is named and its items cannot be iterated |
| BrandSearch.ItemsWhere | src/processor/brand_data_processor.py:86-97 | collecting items raises iff the properties cannot be listed, some property is not a dict, or a named property's items cannot be iterated |
| BrandSearch.ItemsWhereExact | src/processor/brand_data_processor.py:86-97 | an item is collected iff it belongs to a property whose name is in the given list |
| BrandSearch.LowerAll | src/processor/brand_data_processor.py:49 | lowering a list succeeds iff every item is a string, giving each item lowered |
| BrandSearch.PropHasCategoryRaises | src/processor/brand_data_processor.py:47-51 | the per-property test raises iff the property is not a dict, or is one of the three groups and its items cannot be iterated or hold a non-string |
| BrandSearch.CategoryMatch | src/processor/brand_data_processor.py:43-58 | the category matches iff its lowered form is a lowered item of a `Product Families`, `Categories` or `Applications` property, or a lowered entry of `categories`; the test raises iff the properties cannot be listed, a property the loop reaches before a match raises, or the `categories` list cannot be iterated or holds a non-string |
| BrandSearch.JoinJson | src/processor/brand_data_processor.py:70-71 | joining succeeds iff every part is a string |
| BrandSearch.PropNamesText | src/processor/brand_data_processor.py:70 | joining the property names raises iff the properties cannot be listed, some property is not a dict, or some `name` (default `''`) is not a string |
| BrandSearch.PropItemsText | src/processor/brand_data_processor.py:71 | joining the property items raises iff the properties cannot be listed, or some property's items cannot be iterated or hold a non-string |
| BrandSearch.KeywordMatch | src/processor/brand_data_processor.py:60-79 | the keyword matches iff its lowered form is in the lowered name, description or summary (when strings), the joined property names, or the joined property items; it raises iff the product is not a dict or either join raises |
| BrandSearch.KeywordInPropertyName | src/processor/brand_data_processor.py:65-77 | a keyword found in one property's name is found by the search |
| BrandSearch.HitOf | src/processor/brand_data_processor.py:82-105 | a hit is built iff the product is a dict whose properties are all dicts and whose named properties have iterable items; it carries the product's id, name and description, one entry per property, the items of `Product Families`/`Categories` properties and those of `Applications` properties |
| BrandSearch.Step | src/processor/brand_data_processor.py:40-105 | a product yields a hit iff both filters accept it; the step succeeds iff each given filter does not raise and, for an accepted product, the hit can be built; with no filters it succeeds iff the hit can be built, and then yields it |
| BrandSearch.SearchIn | src/processor/brand_data_processor.py:40-107 | the search loop succeeds iff no product's step raises |
| BrandSearch.SearchProducts | src/processor/brand_data_processor.py:4-107 | no data gives `[]`; otherwise, when the three sections can be read, the result is exactly the search over them |
| BrandSearch.SearchExact | src/processor/brand_data_processor.py:40-105 | the result is, in input order, the hits of exactly the accepted products; every accepted product's index is among the kept indices |
| BrandSearch.SearchUnfilteredKeepsAll | src/processor/brand_data_processor.py:40-105 | with no filters the search succeeds iff every product's hit can be built, and then every product's hit is returned, in order |
| Crawl.ExpandCategory | combined_brands_parser.py:119-124 | a category expands to 10 URLs: `<href>/brands`, then `<href>/brands/2` … `<href>/brands/10` |
| Crawl.ExpandCategoryDistinct | src/parser/brand_parser.py:96-98 | the 10 listing URLs of a category are pairwise different |
| Crawl.ExtractCategoryLinks | src/parser/brand_parser.py:93-99 | the listing pages are the expansions of the categories, 10 per category, in category order |
| Crawl.CollectUniqueBrandLinks | combined_brands_parser.py:66-78 | the collected links have no duplicates, and a link is collected iff it is an anchor href on one of the listing pages that loaded |
| Crawl.FindToken | combined_brands_parser.py:170-176 | a token found in a script URL is exactly 40 lowercase hex digits |
| Crawl.FindTokenLeftmost | combined_brands_parser.py:170-176 | the token is the capture of the leftmost `/_next/static/<40 hex>/` match; `None` iff the URL has no match |
| Crawl.FindTokenExample | combined_brands_parser.py:170-176 | a script URL of the form `/_next/static/<token>/…` yields its token |
| Crawl.ScanScripts | src/parser/brand_parser.py:139-143 | a token found among a page's script URLs is exactly 40 lowercase hex digits |
| Crawl.ScanScriptsFirst | src/parser/brand_parser.py:139-143 | the token comes from the first script `src` that has one, no earlier `src` having one; `None` iff none does |
| Crawl.FirstFound | src/parser/brand_parser.py:129-149 | the attempt that ends the loop is the first, in order, to find a token; every earlier attempt failed or found none; no attempt ends it iff none of the `max_retries` attempts finds one |
| Crawl.HashFromBrandPage | combined_brands_parser.py:160-183 | a found token is 40 lowercase hex digits and is the token of an attempt before which every attempt raised or found none; `None` iff none of the attempts finds one |
| Crawl.BrandPath | combined_brands_parser.py:141 | `split('knowde.com')[1]` raises iff the URL does not contain the domain; otherwise it is the text after the first occurrence up to the next one or the end, and does not contain the domain |
| Crawl.BrandPathExample | src/parser/brand_parser.py:109 | for `https://www.knowde.com/stores/acme` the path is `/stores/acme` |
| Crawl.AttemptOutcome | src/parser/brand_parser.py:104-123 | an attempt without a token ends the loop; it returns data iff it gets a 200 response with a JSON body to the URL `https://www.knowde.com/_next/data/<token><path>.json`, and then returns that body; a URL without the domain makes it retry |
| Crawl.GetJsonDataForBrand | combined_brands_parser.py:135-158 | at most `max_retries` attempts; data comes from the last attempt, all earlier ones having been retried; `None` comes from a missing token, right away, or from running out of attempts |
| Crawl.LastSegment | src/parser/brand_parser.py:79 | the brand name is the text after the URL's last `/` (the whole URL when there is none) |
| Crawl.ProcessBrands | combined_brands_parser.py:93-103 | earlier brands are kept; each brand with truthy JSON is stored under its last URL segment; a stored value is truthy unless it was there before |
| Crawl.ProcessBrandsLastWins | combined_brands_parser.py:93-103 | a name holds the JSON of the last brand saved under it: a later save overwrites an earlier one |
| Crawl.ProcessBrandsUnwritten | combined_brands_parser.py:93-103 | a name no brand is saved under is present iff it was before, with its old value |
| Crawl.ProcessBrandsAddsOnlySaved | combined_brands_parser.py:93-103 | every name that was not there before is the last URL segment of a brand whose JSON was truthy |
| TaskQueue.Enqueue | src/queue/task_queue.py:65-69 | a brand is appended to the tail iff it is not processed, otherwise the state is unchanged; the processed set is unchanged |
| TaskQueue.Dequeue | src/queue/task_queue.py:71-77 | an empty queue gives `None` and no change; otherwise the head is removed; a non-empty head is returned and marked processed; an empty name is dropped without being returned or marked |
| TaskQueue.Run | src/queue/task_queue.py:65-77 | over any sequence of calls the processed set only grows, and it grows only when some call is a dequeue |
| TaskQueue.RunAddsOnlyDequeuedHeads | src/queue/task_queue.py:71-76 | every brand the calls add to the processed set was at the head of the queue when one of the calls, a dequeue, popped it |
| TaskQueue.ProcessedBrandNeverRequeued | src/queue/task_queue.py:67-68 | once processed, a brand's enqueue is a no-op after any further calls |
| TaskQueue.DuplicateEnqueue | src/queue/task_queue.py:67-68 | an unprocessed brand enqueued twice is in the queue twice |
| TaskQueue.EnqueueKeepsHead | src/queue/task_queue.py:68-73 | enqueueing into a non-empty queue does not change what the next dequeue returns |
| TaskQueue.EnqueueAllAppends | src/queue/task_queue.py:67-68 | enqueueing unprocessed brands appends them in order |
| TaskQueue.DrainAllReturnsQueue | src/queue/task_queue.py:73-77 | successive dequeues return the queue's entries in order |
| TaskQueue.Fifo | src/queue/task_queue.py:68-76 | brands come out in the order they were enqueued, after the entries already waiting |

## Left out

- Browser automation, HTTP sessions, timeouts, headers and the stealth setup are not modelled. Pages, anchors and responses are parameters.
- Storage I/O is not modelled: file reads and writes, `BrandStorage`, directory creation, `json.dump` formatting, and `_save_product` of src/processor/product_extractor.py. Saves are map updates.
- The rq job methods of src/queue/task_queue.py are not modelled: `enqueue_brand_processing`, `enqueue_product_extraction`, job status, and clearing or requeueing failed jobs. Redis byte decoding is not modelled either; names are strings.
- Logging (`print`), random delays and the main/script wiring are not modelled.
- The FastAPI endpoints, service wrappers, authentication, scripts and main.py are not modelled. They only wire the modelled parts to the network and storage.
- `Text.Lower` and `Text.Strip` are ASCII-only. Python's Unicode case mapping and whitespace set are wider.
- `str()` of lists and dicts is not modelled faithfully: `repr` escaping and float formatting are not modelled. JSON numbers are integers; floats are left out.
- Python's `True == 1` aliasing of dict keys is not modelled. Dict key order is not modelled either; maps are unordered.
- The modelled error cases give the kind of exception only where one kind is possible. Where a value can raise more than one kind, the model says that it raises, not which kind.
- Crawl.CollectUniqueBrandLinks: a page that raises partway through its anchors (a stale element) is treated like a page that did not load. Hrefs read before the error are not kept.
- Crawl.ProcessBrands: the links are iterated in the order given. A Python set's iteration order is not modelled. Save errors, which the loop catches, are not modelled.
- Crawl.GetJsonDataForBrand: a brand URL that is `None` is not modelled. The links loaded from storage are strings.
- ProductExtractor.ExtractProductsFromBrand: storage failures are not modelled, and the per-product file write is not modelled.
- BrandQuery.GetBrandSummary: uses the corrected `BrandQuery.Website` (see Findings). Where the code at brand_data_processor.py:40 raises `IndexError` for an empty `social_links` list, the model returns a summary whose website is `None`.
- BrandQuery.Step: uses the corrected `BrandQuery.Categories` (see Findings). Where the code at brand_data_processor.py:99 raises `IndexError` for a product with properties but no `Product Families` property, the model builds a record with categories `[]`. BrandQuery.SearchProducts, BrandQuery.SearchExact and BrandQuery.SearchUnfilteredKeepsAll inherit this through Step.
- BrandQuery.StatisticsOf: the flags `has_specifications` and `has_applications` are stated only as bounds on the product count. BrandQuery.CountWhere states when they raise.

## Findings

| source | as written | input that shows it | evidently intended | confidence | as-written member | corrected member |
|---|---|---|---|---|---|---|
| brand_data_processor.py:99 | `[…][0]` takes the first `Product Families` items list of a product that has properties | a product whose only property is named `Applications` | `[]` when the product has no `Product Families` property | high; not executed | BrandQuery.CategoriesWithoutFamiliesRaises | BrandQuery.Categories |
| brand_data_processor.py:40 | `get('social_links', [{}])[0]` indexes the social links | a brand whose `social_links` is `[]` | `None` when there is no social link | high; not executed | BrandQuery.WebsiteEmptyLinksRaises | BrandQuery.Website |

Each finding's as-written code is modelled: `BrandQuery.CategoriesAsWritten` and
`BrandQuery.WebsiteAsWritten`. The search and the summary use the corrected
definitions.

=== FILE: brand_payload.dfy ===
/** Shapes shared by every consumer of a stored brand payload: the `pageProps`
    object, its three product sections, and the name→items lists used for product
    `properties` and `summary`. */
module BrandPayload {
  import opened Wrappers
  import opened Json
  import opened PyOps

  /** `if not brand_data`: a missing file and a falsy document are both "no data". */
  predicate Loaded(brandData: Option<Json>) {
    brandData.Some? && Truthy(brandData.value)
  }

  const EmptyObj: Json := JObj([])
  const EmptyArr: Json := JArr([])

  /** The product sections, in the order every consumer visits them. */
  const MostViewed := "most_viewed_products"
  const Featured := "featured_products"
  const ProductsKey := "products"

  /** `brand_data.get('pageProps', {})`. */
  function PageProps(brandData: Json): PyResult<Json> {
    Get(brandData, "pageProps", EmptyObj)
  }

  /** `page_props.get(section, {}).get('data', [])`. */
  function SectionData(pageProps: Json, section: string): PyResult<Json> {
    var s :- Get(pageProps, section, EmptyObj);
    Get(s, "data", EmptyArr)
  }

  /** `e.get('name', '')` and `e.get('items', [])` of a name/items entry. */
  function EntryName(e: Json): Json {
    Field(e, "name", JStr(""))
  }

  function EntryItems(e: Json): Json {
    Field(e, "items", EmptyArr)
  }

  /** An entry the loop can store: a dict whose name is hashable. */
  predicate EntryOk(e: Json) {
    e.JObj? && Hashable(EntryName(e))
  }

  /** No entry after position `i` carries the same name. */
  predicate LastWithName(es: seq<Json>, i: int)
    requires 0 <= i < |es|
  {
    forall j :: i < j < |es| ==> EntryName(es[j]) != EntryName(es[i])
  }

  /** `for e in es: d[e.get('name', '')] = e.get('items', [])`, starting from an empty dict.
      It raises exactly when some entry is not a dict or has an unhashable name. */
  function NameItemsFold(es: seq<Json>): (r: PyResult<map<Json, Json>>)
    ensures r.Success? <==> forall i :: 0 <= i < |es| ==> EntryOk(es[i])
    ensures r.Success? ==> forall i :: 0 <= i < |es| ==> EntryName(es[i]) in r.value
    decreases |es|
  {
    if |es| == 0 then Success(map[])
    else
      var n := |es| - 1;
      var init := es[..n];
      var e := es[n];
      match NameItemsFold(init)
      case Failure(err) =>
        assert !EntryOk(init[FirstBadEntry(init)]);
        Failure(err)
      case Success(rest) =>
        if !e.JObj? then Failure(AttributeError)
        else if !Hashable(EntryName(e)) then Failure(TypeError)
        else
          var m := rest[EntryName(e) := EntryItems(e)];
          assert forall i :: 0 <= i < n ==> EntryOk(es[i]) && EntryName(es[i]) in m by {
            forall i | 0 <= i < n ensures EntryOk(es[i]) && EntryName(es[i]) in m {
              assert init[i] == es[i];
            }
          }
          Success(m)
  }

  /** The position of an entry the loop cannot store, when there is one. */
  ghost function FirstBadEntry(es: seq<Json>): (i: nat)
    requires exists i :: 0 <= i < |es| && !EntryOk(es[i])
    ensures i < |es| && !EntryOk(es[i])
  {
    var i :| 0 <= i < |es| && !EntryOk(es[i]); i
  }

  /** Every key of the built dict is the name of some entry. */
  lemma {:induction false} NameItemsKeysFromEntries(es: seq<Json>, k: Json)
    requires NameItemsFold(es).Success? && k in NameItemsFold(es).value
    ensures exists i :: 0 <= i < |es| && EntryName(es[i]) == k
    decreases |es|
  {
    var n := |es| - 1;
    var init := es[..n];
    assert NameItemsFold(es).value == NameItemsFold(init).value[EntryName(es[n]) := EntryItems(es[n])];
    if k != EntryName(es[n]) {
      NameItemsKeysFromEntries(init, k);
      var i :| 0 <= i < |init| && EntryName(init[i]) == k;
      assert es[i] == init[i];
    }
  }

  /** A name that occurs more than once holds the items of its last entry. */
  lemma {:induction false} NameItemsLastWins(es: seq<Json>, i: int)
    requires NameItemsFold(es).Success?
    requires 0 <= i < |es| && LastWithName(es, i)
    ensures NameItemsFold(es).value[EntryName(es[i])] == EntryItems(es[i])
    decreases |es|
  {
    var n := |es| - 1;
    var init := es[..n];
    assert NameItemsFold(es).value == NameItemsFold(init).value[EntryName(es[n]) := EntryItems(es[n])];
    if i < n {
      assert init[i] == es[i];
      forall j | i < j < n ensures EntryName(init[j]) != EntryName(init[i]) {
        assert init[j] == es[j];
      }
      NameItemsLastWins(init, i);
    }
  }

  /** The same loop over whatever `product.get(key, [])` holds; iterating a non-iterable raises. */
  function NameItemsMap(entries: Json): PyResult<map<Json, Json>> {
    var es :- Iter(entries);
    NameItemsFold(es)
  }

  /** `product['summary']` rebuilt as a name→items dict, only when the key is present. */
  function SummaryMap(product: Json): (r: PyResult<Option<map<Json, Json>>>)
    requires product.JObj?
    ensures r.Success? && r.value.Some? ==> HasKey(product, "summary")
    ensures !HasKey(product, "summary") ==> r == Success(None)
    ensures HasKey(product, "summary") ==> (r.Success? <==> NameItemsMap(Field(product, "summary", EmptyArr)).Success?)
    ensures r.Success? && HasKey(product, "summary") ==> r.value == Some(NameItemsMap(Field(product, "summary", EmptyArr)).value)
  {
    if HasKey(product, "summary") then
      var m :- NameItemsMap(Field(product, "summary", EmptyArr));
      Success(Some(m))
    else Success(None)
  }
}

=== FILE: brand_query.dfy ===
/** The query and statistics layer over one stored brand (brand_data_processor.py at the
    repository root): a summary, one product's details, a category/keyword search and
    category statistics, all over the `most_viewed_products` section. None of these
    methods catches exceptions, so every operation returns a `PyResult`. */
module BrandQuery {
  import opened Wrappers
  import opened Json
  import opened Text
  import opened PyOps
  import opened Collect
  import opened BrandPayload

  const ProductFamilies := "Product Families"

  /** The products every method of this layer looks at. */
  function MostViewedProducts(brandData: Json): PyResult<Json> {
    var pageProps :- PageProps(brandData);
    SectionData(pageProps, MostViewed)
  }

  // ---------------------------------------------------------------------------
  // Product Families items
  // ---------------------------------------------------------------------------

  /** The items a property contributes as categories: its `items` when it is named
      `Product Families`, nothing otherwise. */
  function FamilyItemsOf(prop: Json): (r: PyResult<seq<Json>>)
    ensures r.Success? <==> prop.JObj? && (Field(prop, "name", JNull) == JStr(ProductFamilies) ==> Iter(Field(prop, "items", EmptyArr)).Success?)
    ensures r.Success? && Field(prop, "name", JNull) != JStr(ProductFamilies) ==> r.value == []
    ensures r.Success? && Field(prop, "name", JNull) == JStr(ProductFamilies) ==> r == Iter(Field(prop, "items", EmptyArr))
  {
    var name :- Get(prop, "name", JNull);
    if name == JStr(ProductFamilies) then Iter(Field(prop, "items", EmptyArr)) else Success([])
  }

  /** The properties of a product, as a loop visits them. */
  function Properties(product: Json): PyResult<seq<Json>> {
    var props :- Get(product, "properties", EmptyArr);
    Iter(props)
  }

  /** `x` is one of the `Product Families` items of property `prop`. */
  predicate IsFamilyItemOf(prop: Json, x: Json) {
    FamilyItemsOf(prop).Success? && x in FamilyItemsOf(prop).value
  }

  /** Every `Product Families` item of a product, property by property. */
  function FamilyItems(product: Json): (r: PyResult<seq<Json>>)
    ensures r.Success? <==> (Properties(product).Success?
      && forall i :: 0 <= i < |Properties(product).value| ==> FamilyItemsOf(Properties(product).value[i]).Success?)
    ensures r.Success? ==> forall x :: x in r.value <==>
      exists i :: 0 <= i < |Properties(product).value| && IsFamilyItemOf(Properties(product).value[i], x)
  {
    var ps :- Properties(product);
    var lists :- MapAll(ps, FamilyItemsOf);
    Success(Concat(lists))
  }

  /** `x` is one of the `Product Families` items of `product`. */
  predicate IsFamilyItem(product: Json, x: Json) {
    FamilyItems(product).Success? && x in FamilyItems(product).value
  }

  /** All `Product Families` items across the products, product by product; adding them
      to a set or using them as dict keys raises on an unhashable item. (When two
      exceptions are possible, which one is raised is not modelled.) */
  function AllFamilyItems(products: seq<Json>): (r: PyResult<seq<Json>>)
    ensures r.Success? ==> forall i :: 0 <= i < |products| ==> FamilyItems(products[i]).Success?
    ensures r.Success? ==> forall x :: x in r.value <==> exists i :: 0 <= i < |products| && IsFamilyItem(products[i], x)
    ensures r.Success? ==> forall k :: 0 <= k < |r.value| ==> Hashable(r.value[k])
    ensures r.Success? <==> (forall i :: 0 <= i < |products| ==> FamilyItems(products[i]).Success?) && FamilyItemsHashable(products)
  {
    var lists :- MapAll(products, FamilyItems);
    var all := Concat(lists);
    ConcatHashable(products, lists);
    if forall k :: 0 <= k < |all| ==> Hashable(all[k]) then Success(all) else Failure(TypeError)
  }

  /** Every `Product Families` item of every product is hashable. */
  ghost predicate FamilyItemsHashable(products: seq<Json>) {
    forall i, x :: 0 <= i < |products| && IsFamilyItem(products[i], x) ==> Hashable(x)
  }

  /** The concatenated items are all hashable exactly when every product's items are. */
  lemma ConcatHashable(products: seq<Json>, lists: seq<seq<Json>>)
    requires MapAll(products, FamilyItems) == Success(lists)
    ensures (forall k :: 0 <= k < |Concat(lists)| ==> Hashable(Concat(lists)[k])) <==> FamilyItemsHashable(products)
  {
    ConcatHashableParts(lists);
    forall i, x | 0 <= i < |products| ensures IsFamilyItem(products[i], x) <==> x in lists[i] {
      assert FamilyItems(products[i]) == Success(lists[i]);
    }
  }

  /** A concatenation is all hashable exactly when each of its parts is. */
  lemma ConcatHashableParts(lists: seq<seq<Json>>)
    ensures (forall k :: 0 <= k < |Concat(lists)| ==> Hashable(Concat(lists)[k])) <==>
      (forall i, x :: 0 <= i < |lists| && x in lists[i] ==> Hashable(x))
  {
    var all := Concat(lists);
    if forall k :: 0 <= k < |all| ==> Hashable(all[k]) {
      forall i, x | 0 <= i < |lists| && x in lists[i] ensures Hashable(x) {
        assert x in all;
      }
    } else {
      var k :| 0 <= k < |all| && !Hashable(all[k]);
      assert all[k] in all;
    }
  }

  /** `_get_unique_categories`: the set of every `Product Families` item. */
  function UniqueCategoriesOf(products: seq<Json>): (r: PyResult<set<Json>>)
    ensures r.Success? ==> forall x :: x in r.value <==> exists i :: 0 <= i < |products| && IsFamilyItem(products[i], x)
    ensures r.Success? ==> forall x :: x in r.value ==> Hashable(x)
    ensures r.Success? <==> AllFamilyItems(products).Success?
  {
    var all :- AllFamilyItems(products);
    Success(set x | x in all)
  }

  function UniqueCategories(products: Json): PyResult<set<Json>> {
    var ps :- Iter(products);
    UniqueCategoriesOf(ps)
  }

  // ---------------------------------------------------------------------------
  // Summary
  // ---------------------------------------------------------------------------

  datatype BrandSummary = BrandSummary(
    name: Json,
    description: Json,
    totalProducts: nat,
    categories: set<Json>,
    website: Json,
    location: Json)

  /** `x[0]` for the value of `social_links`. */
  function Index0(j: Json): PyResult<Json> {
    match j
    case JArr(a) => if |a| == 0 then Failure(IndexError) else Success(a[0])
    case JStr(s) => if |s| == 0 then Failure(IndexError) else Success(JStr([s[0]]))
    case JObj(_) => Failure(KeyError)
    case _ => Failure(TypeError)
  }

  /** `company_info.get('social_links', [{}])[0].get('url')` as written: an empty
      `social_links` list raises. */
  function WebsiteAsWritten(companyInfo: Json): PyResult<Json>
    requires companyInfo.JObj?
  {
    var first :- Index0(Field(companyInfo, "social_links", JArr([EmptyObj])));
    Get(first, "url", JNull)
  }

  /** The brand page with an empty `social_links` list makes the summary raise. */
  lemma WebsiteEmptyLinksRaises()
    ensures WebsiteAsWritten(JObj([("social_links", JArr([]))])) == Failure(IndexError)
  {
  }

  /** The website as evidently intended: the first social link's `url`, or `None` when
      there is no link, whether the key is missing or the list is empty. */
  function Website(companyInfo: Json): (r: PyResult<Json>)
    requires companyInfo.JObj?
    ensures var links := Field(companyInfo, "social_links", JArr([EmptyObj]));
      links.JArr? && (forall k :: 0 <= k < |links.items| ==> links.items[k].JObj?) ==>
        r == Success(if |links.items| == 0 then JNull else Field(links.items[0], "url", JNull))
    ensures !HasKey(companyInfo, "social_links") ==> r == Success(JNull)
    ensures Field(companyInfo, "social_links", JArr([EmptyObj])) != JArr([]) ==> r == WebsiteAsWritten(companyInfo)
  {
    var links := Field(companyInfo, "social_links", JArr([EmptyObj]));
    if links == JArr([]) then Success(JNull) else WebsiteAsWritten(companyInfo)
  }

  /** `get_brand_summary`: `None` without data; otherwise the company fields, the number of
      most-viewed products and their unique categories. Loaded data always gives a summary
      unless one of the steps raises. */
  function GetBrandSummary(brandData: Option<Json>): (r: PyResult<Option<BrandSummary>>)
    ensures !Loaded(brandData) ==> r == Success(None)
    ensures Loaded(brandData) ==>
      var companyInfo := Field(brandData.value, "pageProps", EmptyObj);
      var products := MostViewedProducts(brandData.value);
      (r.Success? <==> (products.Success? && Len(products.value).Success? && UniqueCategories(products.value).Success?
                        && Website(companyInfo).Success?))
    ensures Loaded(brandData) && r.Success? ==> r.value.Some?
    ensures r.Success? && r.value.Some? ==>
      var companyInfo := Field(brandData.value, "pageProps", EmptyObj);
      var products := MostViewedProducts(brandData.value);
      var summary := r.value.value;
      && products.Success?
      && Len(products.value) == Success(summary.totalProducts)
      && UniqueCategories(products.value) == Success(summary.categories)
      && summary.name == Field(companyInfo, "name", JNull)
      && summary.description == Field(companyInfo, "description", JNull)
      && Website(companyInfo) == Success(summary.website)
      && summary.location == Field(companyInfo, "hq_address", JNull)
  {
    if !Loaded(brandData) then Success(None)
    else
      var companyInfo :- PageProps(brandData.value);
      var products :- SectionData(companyInfo, MostViewed);
      var total :- Len(products);
      var categories :- UniqueCategories(products);
      var website :- Website(companyInfo);
      Success(Some(BrandSummary(
        name := Field(companyInfo, "name", JNull),
        description := Field(companyInfo, "description", JNull),
        totalProducts := total,
        categories := categories,
        website := website,
        location := Field(companyInfo, "hq_address", JNull))))
  }

  // ---------------------------------------------------------------------------
  // Product details
  // ---------------------------------------------------------------------------

  /** The most-viewed products as the loops visit them. */
  function MostViewedList(brandData: Json): PyResult<seq<Json>> {
    var products :- MostViewedProducts(brandData);
    Iter(products)
  }

  datatype ProductDetails = ProductDetails(id: Json, name: Json, description: Json, properties: Json, summary: Json)

  /** `str(product.get('id')) == product_id`. */
  function IdMatches(productId: string): Json -> PyResult<bool> {
    p => (var id :- Get(p, "id", JNull); Success(Str(id) == productId))
  }

  /** Whether product `p` is a dict whose id, as a string, is `productId`. */
  predicate HasId(p: Json, productId: string) {
    p.JObj? && Str(Field(p, "id", JNull)) == productId
  }

  /** The details dict of a matching product: `id`, `name` and `description` default to
      `None`, `properties` and `summary` to an empty list. */
  function DetailsOf(p: Json): (d: ProductDetails)
    ensures d.id == Field(p, "id", JNull) && d.name == Field(p, "name", JNull) && d.description == Field(p, "description", JNull)
    ensures d.properties == Field(p, "properties", EmptyArr) && d.summary == Field(p, "summary", EmptyArr)
  {
    ProductDetails(
      id := Field(p, "id", JNull),
      name := Field(p, "name", JNull),
      description := Field(p, "description", JNull),
      properties := Field(p, "properties", EmptyArr),
      summary := Field(p, "summary", EmptyArr))
  }

  /** The id test raises exactly on a non-dict product and otherwise tells whether the
      product's id matches. */
  lemma IdMatchesIs(productId: string, p: Json)
    ensures IdMatches(productId)(p) == if p.JObj? then Success(HasId(p, productId)) else Failure(AttributeError)
  {
  }

  /** The id test on each product of a list. */
  lemma IdScan(ps: seq<Json>, productId: string)
    ensures forall i :: 0 <= i < |ps| ==>
      IdMatches(productId)(ps[i]) == if ps[i].JObj? then Success(HasId(ps[i], productId)) else Failure(AttributeError)
  {
    forall i | 0 <= i < |ps|
      ensures IdMatches(productId)(ps[i]) == if ps[i].JObj? then Success(HasId(ps[i], productId)) else Failure(AttributeError)
    {
      IdMatchesIs(productId, ps[i]);
    }
  }

  /** Some product that is not a dict comes before every product whose id matches. */
  predicate RaisesBeforeMatch(ps: seq<Json>, productId: string) {
    exists j :: 0 <= j < |ps| && !ps[j].JObj? && forall k :: 0 <= k < j ==> ps[k].JObj? && !HasId(ps[k], productId)
  }

  /** The loop of `get_product_details`: the first product whose id matches, `None` when
      none does; a non-dict product before the match raises. */
  function ProductDetailsIn(ps: seq<Json>, productId: string): (r: PyResult<Option<ProductDetails>>)
    ensures r.Success? && r.value.Some? ==>
      exists i :: (0 <= i < |ps| && HasId(ps[i], productId) && r.value.value == DetailsOf(ps[i])
        && forall j :: 0 <= j < i ==> ps[j].JObj? && !HasId(ps[j], productId))
    ensures r == Success(None) <==> forall j :: 0 <= j < |ps| ==> ps[j].JObj? && !HasId(ps[j], productId)
    ensures r.Failure? <==> RaisesBeforeMatch(ps, productId)
  {
    IdScan(ps, productId);
    FindIndexClassified(ps, IdMatches(productId), (p: Json) => p.JObj?, p => HasId(p, productId));
    var found :- FindIndex(ps, IdMatches(productId));
    match found
    case None => Success(None)
    case Some(i) => Success(Some(DetailsOf(ps[i])))
  }

  /** `get_product_details`. */
  function GetProductDetails(brandData: Option<Json>, productId: string): (r: PyResult<Option<ProductDetails>>)
    ensures !Loaded(brandData) ==> r == Success(None)
    ensures Loaded(brandData) && r.Success? ==>
      MostViewedList(brandData.value).Success? && r == ProductDetailsIn(MostViewedList(brandData.value).value, productId)
    ensures Loaded(brandData) && MostViewedList(brandData.value).Success? ==>
      r == ProductDetailsIn(MostViewedList(brandData.value).value, productId)
  {
    if !Loaded(brandData) then Success(None)
    else
      var ps :- MostViewedList(brandData.value);
      ProductDetailsIn(ps, productId)
  }

  // ---------------------------------------------------------------------------
  // Search
  // ---------------------------------------------------------------------------

  datatype SearchRecord = SearchRecord(id: Json, name: Json, shortDescription: string, categories: Json)

  /** Python truthiness of an optional string argument. */
  predicate Given(arg: Option<string>) {
    arg.Some? && |arg.value| > 0
  }

  /** What the category filter accepts, stated without the exceptions: exact,
      case-sensitive membership among the `Product Families` items. */
  predicate CategoryOk(product: Json, category: Option<string>) {
    !Given(category) || IsFamilyItem(product, JStr(category.value))
  }

  /** `x` is a string containing the lowered keyword once lowered itself. */
  predicate ContainsLowered(x: Json, kw: string) {
    x.JStr? && IsSubstring(Lower(kw), Lower(x.s))
  }

  /** What the keyword filter accepts: the lowered keyword occurs in the lowered name or
      the lowered description. */
  predicate KeywordOk(product: Json, keyword: Option<string>) {
    !Given(keyword)
    || ContainsLowered(Field(product, "name", JStr("")), keyword.value)
    || ContainsLowered(Field(product, "description", JStr("")), keyword.value)
  }

  /** The two filters, evaluated as the loop does: the category filter only for a given
      category, the keyword filter only for a given keyword, `name` before `description`. */
  function Matches(product: Json, category: Option<string>, keyword: Option<string>): (r: PyResult<bool>)
    ensures r.Success? ==> (r.value <==> CategoryOk(product, category) && KeywordOk(product, keyword))
    ensures !Given(category) && !Given(keyword) ==> r == Success(true)
    ensures r.Success? <==> ((Given(category) ==> FamilyItems(product).Success?)
      && (Given(keyword) ==> (product.JObj? && Field(product, "name", JStr("")).JStr?
            && (ContainsLowered(Field(product, "name", JStr("")), keyword.value) || Field(product, "description", JStr("")).JStr?))))
  {
    var catOk :- if Given(category) then
        (var items :- FamilyItems(product); Success(JStr(category.value) in items))
      else Success(true);
    var kwOk :- if Given(keyword) then
        (var kw := Lower(keyword.value);
         var nameField :- Get(product, "name", JStr(""));
         var name :- LowerJson(nameField);
         if IsSubstring(kw, name) then Success(true)
         else
           var desc :- LowerJson(Field(product, "description", JStr("")));
           Success(IsSubstring(kw, desc)))
      else Success(true);
    Success(catOk && kwOk)
  }

  /** The loop lowers the keyword again on every product; lowering is idempotent, so
      lowering it once is the same. */
  lemma LowerIdempotent(s: string)
    ensures Lower(Lower(s)) == Lower(s)
  {
  }

  /** `description[:100] + '...'` for a truthy description, `''` for a falsy one; a
      truthy non-string cannot be sliced and concatenated and raises. */
  function ShortDescription(product: Json): (r: PyResult<string>)
    requires product.JObj?
    ensures !Truthy(Field(product, "description", JNull)) ==> r == Success("")
    ensures Truthy(Field(product, "description", JNull)) ==> (r.Success? <==> Field(product, "description", JNull).JStr?)
    ensures r.Success? && Truthy(Field(product, "description", JNull)) ==>
      var d := Field(product, "description", JNull).s;
      && |r.value| == (if |d| < 100 then |d| else 100) + 3
      && r.value[|r.value| - 3..] == "..."
      && IsPrefix(r.value[..|r.value| - 3], d)
  {
    var d := Field(product, "description", JNull);
    if !Truthy(d) then Success("")
    else if d.JStr? then Success(d.s[..if |d.s| < 100 then |d.s| else 100] + "...")
    else Failure(TypeError)
  }

  /** The `items` of property `prop` when it is named `Product Families`. */
  function FamilyListOf(prop: Json): PyResult<Option<Json>> {
    var name :- Get(prop, "name", JNull);
    Success(if name == JStr(ProductFamilies) then Some(Field(prop, "items", EmptyArr)) else None)
  }

  /** `[prop.get('items', []) for prop in props if prop.get('name') == 'Product Families']`. */
  function FamilyItemLists(product: Json): PyResult<seq<Json>> {
    var ps :- Properties(product);
    FilterMapAll(ps, FamilyListOf)
  }

  /** The `categories` of a search record as written: the first `Product Families`
      property's items when the product has properties, which raises when none of them
      is named `Product Families`. */
  function CategoriesAsWritten(product: Json): PyResult<Json>
    requires product.JObj?
  {
    if !Truthy(Field(product, "properties", JNull)) then Success(EmptyArr)
    else
      var lists :- FamilyItemLists(product);
      if |lists| == 0 then Failure(IndexError) else Success(lists[0])
  }

  /** A product whose only property is not `Product Families` makes the whole search raise. */
  lemma CategoriesWithoutFamiliesRaises()
    ensures CategoriesAsWritten(JObj([("properties", JArr([JObj([("name", JStr("Applications"))])]))])) == Failure(IndexError)
  {
    var prop := JObj([("name", JStr("Applications"))]);
    var p := JObj([("properties", JArr([prop]))]);
    assert Properties(p) == Success([prop]);
    assert FamilyListOf(prop) == Success(None);
    assert FamilyItemLists(p) == Success([]);
  }

  /** `categories` as evidently intended: the first `Product Families` property's items,
      or an empty list when the product has none. */
  function Categories(product: Json): (r: PyResult<Json>)
    requires product.JObj?
    ensures FamilyItemLists(product).Success? ==> r.Success?
    ensures !Truthy(Field(product, "properties", JNull)) ==> r == Success(EmptyArr)
    ensures r.Success? && Truthy(Field(product, "properties", JNull)) ==>
      FamilyItemLists(product).Success? &&
      r.value == if |FamilyItemLists(product).value| == 0 then EmptyArr else FamilyItemLists(product).value[0]
    ensures CategoriesAsWritten(product).Success? ==> r == CategoriesAsWritten(product)
  {
    if !Truthy(Field(product, "properties", JNull)) then Success(EmptyArr)
    else
      var lists :- FamilyItemLists(product);
      if |lists| == 0 then Success(EmptyArr) else Success(lists[0])
  }

  function SearchRecordOf(product: Json): (r: PyResult<SearchRecord>)
    requires product.JObj?
    ensures r.Success? <==> ShortDescription(product).Success? && Categories(product).Success?
    ensures r.Success? ==> r.value.id == Field(product, "id", JNull) && r.value.name == Field(product, "name", JNull)
    ensures r.Success? ==> Success(r.value.shortDescription) == ShortDescription(product) && Success(r.value.categories) == Categories(product)
  {
    var short :- ShortDescription(product);
    var categories :- Categories(product);
    Success(SearchRecord(Field(product, "id", JNull), Field(product, "name", JNull), short, categories))
  }

  /** One iteration of the search loop: filters first, then the record of a match. */
  function Step(product: Json, category: Option<string>, keyword: Option<string>): (r: PyResult<Option<SearchRecord>>)
    ensures r.Success? && r.value.Some? ==>
      product.JObj? && CategoryOk(product, category) && KeywordOk(product, keyword) && SearchRecordOf(product) == Success(r.value.value)
    ensures r.Success? && CategoryOk(product, category) && KeywordOk(product, keyword) ==> r.value.Some?
    ensures !Given(category) && !Given(keyword) && r.Success? ==> r.value.Some?
    ensures r.Success? <==> (Matches(product, category, keyword).Success?
      && (CategoryOk(product, category) && KeywordOk(product, keyword) ==> product.JObj? && SearchRecordOf(product).Success?))
    ensures !Given(category) && !Given(keyword) ==> (r.Success? <==> product.JObj? && SearchRecordOf(product).Success?)
  {
    var m :- Matches(product, category, keyword);
    if !m then Success(None)
    else if !product.JObj? then Failure(AttributeError)
    else
      var rec :- SearchRecordOf(product);
      Success(Some(rec))
  }

  function SearchStep(category: Option<string>, keyword: Option<string>): Json -> PyResult<Option<SearchRecord>> {
    product => Step(product, category, keyword)
  }

  /** The search loop over the products: all-or-nothing, since nothing is caught. */
  function SearchIn(ps: seq<Json>, category: Option<string>, keyword: Option<string>): (r: PyResult<seq<SearchRecord>>)
    ensures r.Success? <==> forall i :: 0 <= i < |ps| ==> Step(ps[i], category, keyword).Success?
  {
    FilterMapAll(ps, SearchStep(category, keyword))
  }

  /** `search_products`. */
  function SearchProducts(brandData: Option<Json>, category: Option<string>, keyword: Option<string>)
    : (r: PyResult<seq<SearchRecord>>)
    ensures !Loaded(brandData) ==> r == Success([])
    ensures Loaded(brandData) && r.Success? ==>
      MostViewedList(brandData.value).Success? && r == SearchIn(MostViewedList(brandData.value).value, category, keyword)
    ensures Loaded(brandData) && MostViewedList(brandData.value).Success? ==>
      r == SearchIn(MostViewedList(brandData.value).value, category, keyword)
  {
    if !Loaded(brandData) then Success([])
    else
      var ps :- MostViewedList(brandData.value);
      SearchIn(ps, category, keyword)
  }

  /** The search returns exactly the records of the products both filters accept, in
      input order. */
  lemma SearchExact(ps: seq<Json>, category: Option<string>, keyword: Option<string>) returns (idx: seq<nat>)
    requires SearchIn(ps, category, keyword).Success?
    ensures forall i :: 0 <= i < |ps| && CategoryOk(ps[i], category) && KeywordOk(ps[i], keyword) ==> i in idx
    ensures var r := SearchIn(ps, category, keyword).value;
      && |idx| == |r|
      && (forall k :: 0 <= k < |idx| ==> (idx[k] < |ps| && ps[idx[k]].JObj?
            && CategoryOk(ps[idx[k]], category) && KeywordOk(ps[idx[k]], keyword)
            && SearchRecordOf(ps[idx[k]]) == Success(r[k])))
      && (forall k, l :: 0 <= k < l < |idx| ==> idx[k] < idx[l])
      && (forall i :: 0 <= i < |ps| && CategoryOk(ps[i], category) && KeywordOk(ps[i], keyword) ==>
            ps[i].JObj? && SearchRecordOf(ps[i]).Success? && SearchRecordOf(ps[i]).value in r)
  {
    var f := SearchStep(category, keyword);
    idx := FilterMapUntilErrorOrdered(ps, f);
    var r := SearchIn(ps, category, keyword).value;
    forall k | 0 <= k < |idx|
      ensures idx[k] < |ps| && ps[idx[k]].JObj? && CategoryOk(ps[idx[k]], category) && KeywordOk(ps[idx[k]], keyword)
        && SearchRecordOf(ps[idx[k]]) == Success(r[k])
    {
      assert Step(ps[idx[k]], category, keyword) == Success(Some(r[k]));
    }
    forall i | 0 <= i < |ps| && CategoryOk(ps[i], category) && KeywordOk(ps[i], keyword)
      ensures ps[i].JObj? && SearchRecordOf(ps[i]).Success? && SearchRecordOf(ps[i]).value in r
    {
      assert f(ps[i]) == Step(ps[i], category, keyword);
      FilterMapUntilErrorComplete(ps, f, i);
    }
    assert forall i :: 0 <= i < |ps| && CategoryOk(ps[i], category) && KeywordOk(ps[i], keyword) ==> f(ps[i]) == Step(ps[i], category, keyword);
  }

  /** With neither a category nor a keyword, the search succeeds exactly when every
      product is a dict whose record can be built, and then every product is returned, in
      order. */
  lemma SearchUnfilteredKeepsAll(ps: seq<Json>)
    ensures SearchIn(ps, None, None).Success? <==> forall i :: 0 <= i < |ps| ==> ps[i].JObj? && SearchRecordOf(ps[i]).Success?
    ensures SearchIn(ps, None, None).Success? ==>
      var r := SearchIn(ps, None, None).value;
      |r| == |ps| && forall i :: 0 <= i < |ps| ==> ps[i].JObj? && Success(r[i]) == SearchRecordOf(ps[i])
  {
    if !SearchIn(ps, None, None).Success? {
      return;
    }
    var f := SearchStep(None, None);
    forall i | 0 <= i < |ps| ensures f(ps[i]).Success? && f(ps[i]).value.Some? {
      assert f(ps[i]) == Step(ps[i], None, None);
    }
    FilterMapUntilErrorTotal(ps, f);
    var r := SearchIn(ps, None, None).value;
    forall i | 0 <= i < |ps| ensures ps[i].JObj? && r[i].id == Field(ps[i], "id", JNull) {
      assert Step(ps[i], None, None) == Success(Some(r[i]));
    }
  }

  // ---------------------------------------------------------------------------
  // Statistics
  // ---------------------------------------------------------------------------

  datatype Stats = Stats(
    totalProducts: nat,
    categoriesCount: nat,
    distribution: map<Json, nat>,
    hasSpecifications: nat,
    hasApplications: nat)

  /** `categories_distribution[c] = categories_distribution.get(c, 0) + 1` over the items. */
  function Tally(items: seq<Json>): (m: map<Json, nat>)
    ensures forall c :: c in m <==> c in items
    ensures forall c :: c in m ==> m[c] == Count(items, c)
    decreases |items|
  {
    if |items| == 0 then map[]
    else
      var rest := Tally(items[1..]);
      assert forall c :: c in items <==> c == items[0] || c in items[1..];
      rest[items[0] := (if items[0] in rest then rest[items[0]] else 0) + 1]
  }

  /** `x.get('name') == name`. */
  function NameIs(name: string): Json -> PyResult<bool> {
    x => (var n :- Get(x, "name", JNull); Success(n == JStr(name)))
  }

  /** `any(x.get('name') == name for x in p.get(key, []))`. */
  function HasNamed(key: string, name: string): Json -> PyResult<bool> {
    p => (
      var coll :- Get(p, key, EmptyArr);
      var xs :- Iter(coll);
      Any(xs, NameIs(name)))
  }

  /** `sum(1 for p in products if test(p))`. */
  function CountWhere(ps: seq<Json>, test: Json -> PyResult<bool>): (r: PyResult<nat>)
    ensures r.Success? ==> r.value <= |ps|
    ensures r.Success? <==> forall i :: 0 <= i < |ps| ==> test(ps[i]).Success?
  {
    var bs :- MapAll(ps, test);
    Success(Count(bs, true))
  }

  /** The statistics loop over the products. */
  function StatisticsOf(ps: seq<Json>): (r: PyResult<Stats>)
    ensures r.Success? ==>
      var s := r.value;
      && AllFamilyItems(ps).Success?
      && s.totalProducts == |ps|
      && s.categoriesCount == |s.distribution.Keys|
      && s.hasSpecifications <= s.totalProducts
      && s.hasApplications <= s.totalProducts
      && (forall c :: c in s.distribution <==> c in AllFamilyItems(ps).value)
      && (forall c :: c in s.distribution ==> s.distribution[c] == Count(AllFamilyItems(ps).value, c) && s.distribution[c] > 0)
    ensures r.Success? <==> (AllFamilyItems(ps).Success?
                             && CountWhere(ps, HasNamed("summary", "Features")).Success?
                             && CountWhere(ps, HasNamed("properties", "Applications")).Success?)
  {
    var all :- AllFamilyItems(ps);
    var (count, distribution) := CategoryTally(all);
    var specs :- CountWhere(ps, HasNamed("summary", "Features"));
    var apps :- CountWhere(ps, HasNamed("properties", "Applications"));
    Success(Stats(|ps|, count, distribution, specs, apps))
  }

  /** The category set's size and the distribution of the collected family items. */
  function CategoryTally(all: seq<Json>): (r: (nat, map<Json, nat>))
    ensures r.0 == |r.1.Keys|
    ensures forall c :: c in r.1 <==> c in all
    ensures forall c :: c in r.1 ==> r.1[c] == Count(all, c) && r.1[c] > 0
  {
    var distribution := Tally(all);
    var categories := set x | x in all;
    assert categories == distribution.Keys;
    (|categories|, distribution)
  }

  /** The distribution's categories are exactly the family items of the products. */
  lemma StatisticsCategories(ps: seq<Json>, c: Json)
    requires StatisticsOf(ps).Success?
    ensures c in StatisticsOf(ps).value.distribution <==> exists i :: 0 <= i < |ps| && IsFamilyItem(ps[i], c)
  {
  }

  /** `get_brand_statistics`. */
  function GetBrandStatistics(brandData: Option<Json>): (r: PyResult<Option<Stats>>)
    ensures !Loaded(brandData) ==> r == Success(None)
    ensures Loaded(brandData) && r.Success? ==>
      MostViewedList(brandData.value).Success? && StatisticsOf(MostViewedList(brandData.value).value).Success?
      && r.value == Some(StatisticsOf(MostViewedList(brandData.value).value).value)
    ensures Loaded(brandData) ==>
      (r.Success? <==> MostViewedList(brandData.value).Success? && StatisticsOf(MostViewedList(brandData.value).value).Success?)
  {
    if !Loaded(brandData) then Success(None)
    else
      var ps :- MostViewedList(brandData.value);
      var stats :- StatisticsOf(ps);
      Success(Some(stats))
  }

  /** Each count is the number of times the category occurs across the products, the
      per-product counts summed. */
  lemma {:induction false} StatisticsCountsSum(ps: seq<Json>, c: Json)
    requires MapAll(ps, FamilyItems).Success?
    ensures Count(Concat(MapAll(ps, FamilyItems).value), c) == SumCounts(ps, c)
    decreases |ps|
  {
    if |ps| > 0 {
      var lists := MapAll(ps, FamilyItems).value;
      var restLists := MapAll(ps[1..], FamilyItems).value;
      assert lists == [FamilyItems(ps[0]).value] + restLists;
      assert Concat(lists) == lists[0] + Concat(restLists);
      CountAppend(lists[0], Concat(restLists), c);
      StatisticsCountsSum(ps[1..], c);
    }
  }

  /** The occurrences of `c` in each product's `Product Families` items, summed. */
  function SumCounts(ps: seq<Json>, c: Json): nat
    requires forall i :: 0 <= i < |ps| ==> FamilyItems(ps[i]).Success?
    decreases |ps|
  {
    if |ps| == 0 then 0 else Count(FamilyItems(ps[0]).value, c) + SumCounts(ps[1..], c)
  }

  lemma {:induction false} CountAppend(a: seq<Json>, b: seq<Json>, c: Json)
    ensures Count(a + b, c) == Count(a, c) + Count(b, c)
    decreases |a|
  {
    if |a| == 0 {
      assert a + b == b;
    } else {
      assert (a + b)[0] == a[0];
      assert (a + b)[1..] == a[1..] + b;
      CountAppend(a[1..], b, c);
    }
  }
}

=== FILE: brand_search.dfy ===
/** The product search of src/processor/brand_data_processor.py: candidates from all
    three product sections, a case-insensitive category filter over three property
    groups and the flat `categories` list, and a case-insensitive keyword filter over
    several text fields. Nothing is caught, so the search returns a `PyResult`. */
module BrandSearch {
  import opened Wrappers
  import opened Json
  import opened Text
  import opened PyOps
  import opened Collect
  import opened BrandPayload
  import SectionExtractors

  /** The property names whose items count as categories for matching. */
  const MatchNames: seq<string> := ["Product Families", "Categories", "Applications"]
  /** The property names whose items are reported as `categories`. */
  const CategoryNames: seq<string> := ["Product Families", "Categories"]
  const ApplicationNames: seq<string> := ["Applications"]

  /** `most_viewed ++ featured ++ products`; each section is looked up and appended in
      turn, and a section that cannot be iterated raises. */
  function Candidates(brandData: Json): PyResult<seq<Json>> {
    var pageProps :- PageProps(brandData);
    var mv :- SectionData(pageProps, MostViewed);
    var a :- Iter(mv);
    var fe :- SectionData(pageProps, Featured);
    var b :- Iter(fe);
    var pr :- SectionData(pageProps, ProductsKey);
    var c :- Iter(pr);
    Success(a + b + c)
  }

  /** Whenever this search finds its candidates, they are the same products, in the same
      order, as the three-section stream of the standalone extractors. */
  lemma CandidatesAgree(brandData: Json)
    requires Candidates(brandData).Success?
    ensures Candidates(brandData).value == SectionExtractors.Candidates(brandData)
  {
    var pp := PageProps(brandData).value;
    var a := Iter(SectionData(pp, MostViewed).value).value;
    var b := Iter(SectionData(pp, Featured).value).value;
    var c := Iter(SectionData(pp, ProductsKey).value).value;
    var parts := [Partial(a, true), Partial(b, true), Partial(c, true)];
    assert SectionExtractors.Candidates(brandData) == Chain(parts).items;
    assert seq(|parts|, i requires 0 <= i < |parts| => parts[i].items) == [a, b, c];
    ConcatThree(a, b, c);
  }

  // ---------------------------------------------------------------------------
  // Property helpers
  // ---------------------------------------------------------------------------

  function Properties(product: Json): PyResult<seq<Json>> {
    var props :- Get(product, "properties", EmptyArr);
    Iter(props)
  }

  /** `prop` is a dict whose `name` is a string in `names`. */
  predicate NamedProp(prop: Json, names: seq<string>) {
    prop.JObj? && Field(prop, "name", JNull).JStr? && Field(prop, "name", JNull).s in names
  }

  /** `prop.get('name') in names`. */
  function NameIn(names: seq<string>, prop: Json): (r: PyResult<bool>)
    ensures r.Success? <==> prop.JObj?
    ensures r.Success? ==> (r.value <==> NamedProp(prop, names))
  {
    var n :- Get(prop, "name", JNull);
    Success(n.JStr? && n.s in names)
  }

  /** A property's items, as `for item in prop.get('items', [])` visits them. */
  function ItemsOf(prop: Json): PyResult<seq<Json>> {
    var items :- Get(prop, "items", EmptyArr);
    Iter(items)
  }

  /** The items property `prop` contributes: its items when its name is in `names`. */
  function NamedItemsOf(names: seq<string>, prop: Json): (r: PyResult<seq<Json>>)
    ensures r.Success? <==> prop.JObj? && (NamedProp(prop, names) ==> ItemsOf(prop).Success?)
    ensures NamedProp(prop, names) ==> r == ItemsOf(prop)
    ensures prop.JObj? && !NamedProp(prop, names) ==> r == Success([])
  {
    var named :- NameIn(names, prop);
    if named then ItemsOf(prop) else Success([])
  }

  function NamedItems(names: seq<string>): Json -> PyResult<seq<Json>> {
    prop => NamedItemsOf(names, prop)
  }

  /** The properties of `product` can be listed, each is a dict, and each whose name is
      in `names` has iterable items. */
  predicate ItemsReadable(names: seq<string>, product: Json) {
    && Properties(product).Success?
    && forall i :: 0 <= i < |Properties(product).value| ==>
         Properties(product).value[i].JObj? && (NamedProp(Properties(product).value[i], names) ==> ItemsOf(Properties(product).value[i]).Success?)
  }

  /** The items of the properties whose name is in `names`, property by property; it
      raises exactly when some property is not a dict or a named one has items that cannot
      be iterated. */
  function ItemsWhere(names: seq<string>, product: Json): (r: PyResult<seq<Json>>)
    ensures r.Success? <==> ItemsReadable(names, product)
  {
    var ps :- Properties(product);
    var lists :- MapAll(ps, NamedItems(names));
    Success(Concat(lists))
  }

  /** `x` is an item of a property of `product` whose name is in `names`. */
  predicate ItemOfNamed(product: Json, names: seq<string>, x: Json) {
    && Properties(product).Success?
    && exists i :: (0 <= i < |Properties(product).value| && NamedProp(Properties(product).value[i], names)
         && ItemsOf(Properties(product).value[i]).Success? && x in ItemsOf(Properties(product).value[i]).value)
  }

  /** The collected items are exactly the items of the properties named in `names`. */
  lemma ItemsWhereExact(names: seq<string>, product: Json, x: Json)
    requires ItemsWhere(names, product).Success?
    ensures x in ItemsWhere(names, product).value <==> ItemOfNamed(product, names, x)
  {
    var ps := Properties(product).value;
    var g := NamedItems(names);
    var lists := MapAll(ps, g).value;
    assert ItemsWhere(names, product).value == Concat(lists);
    if x in Concat(lists) {
      var i :| 0 <= i < |lists| && x in lists[i];
      assert g(ps[i]) == Success(lists[i]);
      assert NamedProp(ps[i], names) && ItemsOf(ps[i]) == Success(lists[i]);
    }
    if ItemOfNamed(product, names, x) {
      var i :| 0 <= i < |ps| && NamedProp(ps[i], names) && ItemsOf(ps[i]).Success? && x in ItemsOf(ps[i]).value;
      assert g(ps[i]) == Success(lists[i]);
      assert x in lists[i];
    }
  }

  /** `[s.lower() for s in xs]`: every element must be a string. */
  function LowerAll(xs: seq<Json>): (r: PyResult<seq<string>>)
    ensures r.Success? <==> forall k :: 0 <= k < |xs| ==> xs[k].JStr?
    ensures r.Success? ==> |r.value| == |xs| && forall k :: 0 <= k < |xs| ==> r.value[k] == Lower(xs[k].s)
  {
    MapAll(xs, LowerJson)
  }

  // ---------------------------------------------------------------------------
  // Category filter
  // ---------------------------------------------------------------------------

  /** The test inside the properties loop: a property of one of the three groups whose
      lowered items include the lowered category (all its items must be strings). */
  function PropHasCategory(lc: string): Json -> PyResult<bool> {
    prop => (
      var named :- NameIn(MatchNames, prop);
      if !named then Success(false)
      else
        var items :- ItemsOf(prop);
        var lowered :- LowerAll(items);
        Success(lc in lowered))
  }

  /** Every item of property `prop` is a string. */
  predicate StringItems(prop: Json) {
    ItemsOf(prop).Success? && forall k :: 0 <= k < |ItemsOf(prop).value| ==> ItemsOf(prop).value[k].JStr?
  }

  /** The test inside the properties loop raises exactly on a property that is not a dict,
      or on one of the three groups whose items are not all strings. */
  lemma PropHasCategoryRaises(lc: string, prop: Json)
    ensures PropHasCategory(lc)(prop).Success? <==> prop.JObj? && (NamedProp(prop, MatchNames) ==> StringItems(prop))
  {
  }

  /** The flat `categories` list can be iterated and holds only strings. */
  predicate FlatCategoriesReadable(product: Json) {
    var flat := Iter(Field(product, "categories", EmptyArr));
    flat.Success? && forall k :: 0 <= k < |flat.value| ==> flat.value[k].JStr?
  }

  /** The category test, stated without the exceptions: some property of the three groups
      has an item equal to the category up to case, or so does the flat `categories` list. */
  predicate CategoryOk(product: Json, category: string) {
    var lc := Lower(category);
    var flat := Iter(Field(product, "categories", EmptyArr));
    (Properties(product).Success? && exists i :: (0 <= i < |Properties(product).value| &&
       PropHasCategory(lc)(Properties(product).value[i]) == Success(true)))
    || (flat.Success? && exists k :: (0 <= k < |flat.value| && flat.value[k].JStr? && Lower(flat.value[k].s) == lc))
  }

  /** The category filter: the properties loop (breaking at the first match), then the flat
      `categories` list, which is lowered whether or not a property matched. */
  function CategoryMatch(product: Json, category: string): (r: PyResult<bool>)
    ensures r.Success? ==> (r.value <==> CategoryOk(product, category))
    ensures r.Success? <==> (Properties(product).Success? && ScanSucceeds(Properties(product).value, PropHasCategory(Lower(category)))
      && FlatCategoriesReadable(product))
  {
    var lc := Lower(category);
    var ps :- Properties(product);
    var inProps :- Any(ps, PropHasCategory(lc));
    // `product` is a dict by now, so reading `categories` cannot raise.
    var cs :- Iter(Field(product, "categories", EmptyArr));
    var lowered :- LowerAll(cs);
    Success(inProps || lc in lowered)
  }

  // ---------------------------------------------------------------------------
  // Keyword filter
  // ---------------------------------------------------------------------------

  /** `sep.join(xs)`: every element must be a string. */
  function JoinJson(sep: string, xs: seq<Json>): (r: PyResult<string>)
    ensures r.Success? <==> forall k :: 0 <= k < |xs| ==> xs[k].JStr?
  {
    if forall k :: 0 <= k < |xs| ==> xs[k].JStr? then Success(Join(sep, seq(|xs|, k requires 0 <= k < |xs| => xs[k].s)))
    else Failure(TypeError)
  }

  /** `' '.join([prop.get('name', '') for prop in props])`. */
  function PropNamesText(product: Json): (r: PyResult<string>)
    ensures r.Success? <==> (Properties(product).Success? && forall i :: 0 <= i < |Properties(product).value| ==>
      Properties(product).value[i].JObj? && Field(Properties(product).value[i], "name", JStr("")).JStr?)
  {
    var ps :- Properties(product);
    var names :- MapAll(ps, (prop: Json) => Get(prop, "name", JStr("")));
    JoinJson(" ", names)
  }

  /** `' '.join([item for prop in props for item in prop.get('items', [])])`. */
  function PropItemsText(product: Json): (r: PyResult<string>)
    ensures r.Success? <==> (Properties(product).Success? && forall i :: 0 <= i < |Properties(product).value| ==>
      StringItems(Properties(product).value[i]))
  {
    var ps :- Properties(product);
    var lists :- MapAll(ps, ItemsOf);
    ConcatAllStrings(ps, lists);
    JoinJson(" ", Concat(lists))
  }

  /** The joined items are all strings exactly when every property's items are. */
  lemma ConcatAllStrings(ps: seq<Json>, lists: seq<seq<Json>>)
    requires MapAll(ps, ItemsOf) == Success(lists)
    ensures (forall k :: 0 <= k < |Concat(lists)| ==> Concat(lists)[k].JStr?) <==> forall i :: 0 <= i < |ps| ==> StringItems(ps[i])
  {
    var all := Concat(lists);
    if forall k :: 0 <= k < |all| ==> all[k].JStr? {
      forall i | 0 <= i < |ps| ensures StringItems(ps[i]) {
        assert ItemsOf(ps[i]) == Success(lists[i]);
        forall k | 0 <= k < |lists[i]| ensures lists[i][k].JStr? {
          assert lists[i][k] in all;
        }
      }
    } else {
      var k :| 0 <= k < |all| && !all[k].JStr?;
      assert all[k] in all;
      var i :| 0 <= i < |lists| && all[k] in lists[i];
      assert ItemsOf(ps[i]) == Success(lists[i]);
      assert !StringItems(ps[i]);
    }
  }

  /** `x` is a string containing `kw` once both are lowered. */
  predicate ContainsLowered(x: Json, kw: string) {
    x.JStr? && IsSubstring(Lower(kw), Lower(x.s))
  }

  /** The keyword filter. The five searchable fields are all built first (the two joins
      raise on a non-string name or item); then a field matches when it is a string that
      contains the keyword, case-insensitively; non-string fields are skipped. */
  function KeywordMatch(product: Json, keyword: string): (r: PyResult<bool>)
    ensures r.Success? <==> product.JObj? && PropNamesText(product).Success? && PropItemsText(product).Success?
    ensures r.Success? ==> (r.value <==>
      || ContainsLowered(Field(product, "name", JStr("")), keyword)
      || ContainsLowered(Field(product, "description", JStr("")), keyword)
      || ContainsLowered(Field(product, "summary", JStr("")), keyword)
      || IsSubstring(Lower(keyword), Lower(PropNamesText(product).value))
      || IsSubstring(Lower(keyword), Lower(PropItemsText(product).value)))
  {
    var name :- Get(product, "name", JStr(""));
    var names :- PropNamesText(product);
    var items :- PropItemsText(product);
    Success(
      || ContainsLowered(name, keyword)
      || ContainsLowered(Field(product, "description", JStr("")), keyword)
      || ContainsLowered(Field(product, "summary", JStr("")), keyword)
      || ContainsLowered(JStr(names), keyword)
      || ContainsLowered(JStr(items), keyword))
  }

  /** A keyword inside one property name (or item) is inside the joined text. */
  lemma {:induction false} SubstringOfJoin(needle: string, sep: string, parts: seq<string>, i: nat)
    requires i < |parts| && IsSubstring(needle, parts[i])
    ensures IsSubstring(needle, Join(sep, parts))
    decreases |parts|
  {
    if |parts| == 1 {
    } else if i == 0 {
      SubstringOfPrefix(needle, parts[0], sep + Join(sep, parts[1..]));
      assert parts[0] + (sep + Join(sep, parts[1..])) == Join(sep, parts);
    } else {
      SubstringOfJoin(needle, sep, parts[1..], i - 1);
      SubstringOfSuffix(needle, parts[0] + sep, Join(sep, parts[1..]));
      assert (parts[0] + sep) + Join(sep, parts[1..]) == Join(sep, parts);
    }
  }

  lemma {:induction false} SubstringOfPrefix(needle: string, a: string, b: string)
    requires IsSubstring(needle, a)
    ensures IsSubstring(needle, a + b)
    decreases |a|
  {
    if IsPrefix(needle, a) {
      assert (a + b)[..|needle|] == a[..|needle|];
    } else {
      SubstringOfPrefix(needle, a[1..], b);
      assert (a + b)[1..] == a[1..] + b;
    }
  }

  lemma {:induction false} SubstringOfSuffix(needle: string, a: string, b: string)
    requires IsSubstring(needle, b)
    ensures IsSubstring(needle, a + b)
    decreases |a|
  {
    if |a| == 0 {
      assert a + b == b;
    } else {
      SubstringOfSuffix(needle, a[1..], b);
      assert (a + b)[1..] == a[1..] + b;
    }
  }

  /** Lowering a joined text lowers each part. */
  lemma {:induction false} LowerJoin(sep: string, parts: seq<string>)
    ensures Lower(Join(sep, parts)) == Join(Lower(sep), seq(|parts|, k requires 0 <= k < |parts| => Lower(parts[k])))
    decreases |parts|
  {
    var lowered := seq(|parts|, k requires 0 <= k < |parts| => Lower(parts[k]));
    if |parts| >= 2 {
      LowerJoin(sep, parts[1..]);
      assert seq(|parts[1..]|, k requires 0 <= k < |parts[1..]| => Lower(parts[1..][k])) == lowered[1..];
      LowerAppend(parts[0] + sep, Join(sep, parts[1..]));
      LowerAppend(parts[0], sep);
    }
  }

  lemma LowerAppend(a: string, b: string)
    ensures Lower(a + b) == Lower(a) + Lower(b)
  {
  }

  /** A property whose name contains the keyword, ignoring case, makes the keyword filter
      accept the product, whatever its other fields hold. */
  lemma KeywordInPropertyName(product: Json, keyword: string, i: nat)
    requires KeywordMatch(product, keyword).Success?
    requires i < |Properties(product).value|
    requires ContainsLowered(Field(Properties(product).value[i], "name", JStr("")), keyword)
    ensures KeywordMatch(product, keyword).value
  {
    var ps := Properties(product).value;
    var names := MapAll(ps, (prop: Json) => Get(prop, "name", JStr(""))).value;
    var strs := seq(|names|, k requires 0 <= k < |names| => names[k].s);
    assert names[i] == Field(ps[i], "name", JStr(""));
    var lowered := seq(|strs|, k requires 0 <= k < |strs| => Lower(strs[k]));
    SubstringOfJoin(Lower(keyword), Lower(" "), lowered, i);
    LowerJoin(" ", strs);
  }

  // ---------------------------------------------------------------------------
  // The search
  // ---------------------------------------------------------------------------

  /** One output record. */
  datatype Hit = Hit(
    id: Json,
    name: Json,
    description: Json,
    categories: seq<Json>,
    applications: seq<Json>,
    properties: seq<(Json, Json)>)

  /** `{'name': prop.get('name'), 'items': prop.get('items', [])}`. */
  function PropertyEntry(prop: Json): PyResult<(Json, Json)> {
    var n :- Get(prop, "name", JNull);
    Success((n, Field(prop, "items", EmptyArr)))
  }

  /** The record of a matching product. */
  function HitOf(product: Json): (r: PyResult<Hit>)
    ensures r.Success? ==> product.JObj? && Properties(product).Success?
    ensures r.Success? <==> product.JObj? && ItemsReadable(CategoryNames, product) && ItemsReadable(ApplicationNames, product)
    ensures r.Success? ==> r.value.id == Field(product, "id", JNull) && r.value.name == Field(product, "name", JNull)
    ensures r.Success? ==> r.value.description == Field(product, "description", JNull)
    ensures r.Success? ==> (|r.value.properties| == |Properties(product).value|
      && forall i :: 0 <= i < |Properties(product).value| ==>
           r.value.properties[i] == (Field(Properties(product).value[i], "name", JNull), Field(Properties(product).value[i], "items", EmptyArr)))
    ensures r.Success? ==> (ItemsWhere(CategoryNames, product) == Success(r.value.categories)
      && ItemsWhere(ApplicationNames, product) == Success(r.value.applications))
  {
    var id :- Get(product, "id", JNull);
    var ps :- Properties(product);
    var categories :- ItemsWhere(CategoryNames, product);
    var applications :- ItemsWhere(ApplicationNames, product);
    // Every property is a dict by now, so building the entries cannot raise.
    var props := MapAll(ps, PropertyEntry).value;
    Success(Hit(id, Field(product, "name", JNull), Field(product, "description", JNull), categories, applications, props))
  }

  /** Python truthiness of an optional string argument. */
  predicate Given(arg: Option<string>) {
    arg.Some? && |arg.value| > 0
  }

  /** Both filters, stated without the exceptions. */
  predicate Accepts(product: Json, category: Option<string>, keyword: Option<string>) {
    (!Given(category) || CategoryOk(product, category.value))
    && (!Given(keyword) || (KeywordMatch(product, keyword.value).Success? && KeywordMatch(product, keyword.value).value))
  }

  /** One iteration of the loop: both filters (each only when its argument is given),
      then the record of a match. */
  function Step(product: Json, category: Option<string>, keyword: Option<string>): (r: PyResult<Option<Hit>>)
    ensures r.Success? && r.value.Some? ==> Accepts(product, category, keyword) && HitOf(product) == Success(r.value.value)
    ensures r.Success? && Accepts(product, category, keyword) ==> r.value.Some?
    ensures !Given(category) && !Given(keyword) && r.Success? ==> r.value.Some?
    ensures r.Success? <==> ((Given(category) ==> CategoryMatch(product, category.value).Success?)
      && (Given(keyword) ==> KeywordMatch(product, keyword.value).Success?)
      && (Accepts(product, category, keyword) ==> HitOf(product).Success?))
    ensures !Given(category) && !Given(keyword) ==> (r.Success? <==> HitOf(product).Success?)
  {
    var catOk :- if Given(category) then CategoryMatch(product, category.value) else Success(true);
    var kwOk :- if Given(keyword) then KeywordMatch(product, keyword.value) else Success(true);
    if catOk && kwOk then
      var hit :- HitOf(product);
      Success(Some(hit))
    else Success(None)
  }

  function SearchStep(category: Option<string>, keyword: Option<string>): Json -> PyResult<Option<Hit>> {
    product => Step(product, category, keyword)
  }

  function SearchIn(ps: seq<Json>, category: Option<string>, keyword: Option<string>): (r: PyResult<seq<Hit>>)
    ensures r.Success? <==> forall i :: 0 <= i < |ps| ==> Step(ps[i], category, keyword).Success?
  {
    FilterMapAll(ps, SearchStep(category, keyword))
  }

  /** `BrandDataProcessor.search_products`, with the loaded brand payload as a parameter. */
  function SearchProducts(brandData: Option<Json>, category: Option<string>, keyword: Option<string>): (r: PyResult<seq<Hit>>)
    ensures !Loaded(brandData) ==> r == Success([])
    ensures Loaded(brandData) && r.Success? ==>
      Candidates(brandData.value).Success? && r == SearchIn(Candidates(brandData.value).value, category, keyword)
    ensures Loaded(brandData) && Candidates(brandData.value).Success? ==>
      r == SearchIn(Candidates(brandData.value).value, category, keyword)
  {
    if !Loaded(brandData) then Success([])
    else
      var ps :- Candidates(brandData.value);
      SearchIn(ps, category, keyword)
  }

  /** The result is the records of exactly the candidates both filters accept, as an
      order-preserving subsequence of the candidates. */
  lemma SearchExact(ps: seq<Json>, category: Option<string>, keyword: Option<string>) returns (idx: seq<nat>)
    requires SearchIn(ps, category, keyword).Success?
    ensures forall i :: 0 <= i < |ps| && Accepts(ps[i], category, keyword) ==> i in idx
    ensures var r := SearchIn(ps, category, keyword).value;
      && |idx| == |r|
      && (forall k :: 0 <= k < |idx| ==> (idx[k] < |ps| && Accepts(ps[idx[k]], category, keyword)
            && HitOf(ps[idx[k]]) == Success(r[k])))
      && (forall k, l :: 0 <= k < l < |idx| ==> idx[k] < idx[l])
      && (forall i :: 0 <= i < |ps| && Accepts(ps[i], category, keyword) ==>
            HitOf(ps[i]).Success? && HitOf(ps[i]).value in r)
  {
    var f := SearchStep(category, keyword);
    idx := FilterMapUntilErrorOrdered(ps, f);
    var r := SearchIn(ps, category, keyword).value;
    forall k | 0 <= k < |idx|
      ensures idx[k] < |ps| && Accepts(ps[idx[k]], category, keyword) && HitOf(ps[idx[k]]) == Success(r[k])
    {
      assert Step(ps[idx[k]], category, keyword) == Success(Some(r[k]));
    }
    forall i | 0 <= i < |ps| && Accepts(ps[i], category, keyword)
      ensures HitOf(ps[i]).Success? && HitOf(ps[i]).value in r
    {
      assert f(ps[i]) == Step(ps[i], category, keyword);
      FilterMapUntilErrorComplete(ps, f, i);
    }
    assert forall i :: 0 <= i < |ps| && Accepts(ps[i], category, keyword) ==> f(ps[i]) == Step(ps[i], category, keyword);
  }

  /** With no filters, the search succeeds exactly when every candidate's record can be
      built, and then every candidate is returned, in order. */
  lemma SearchUnfilteredKeepsAll(ps: seq<Json>)
    ensures SearchIn(ps, None, None).Success? <==> forall i :: 0 <= i < |ps| ==> HitOf(ps[i]).Success?
    ensures SearchIn(ps, None, None).Success? ==>
      var r := SearchIn(ps, None, None).value;
      |r| == |ps| && forall i :: 0 <= i < |ps| ==> Success(r[i]) == HitOf(ps[i]) && r[i].id == Field(ps[i], "id", JNull)
  {
    if !SearchIn(ps, None, None).Success? {
      return;
    }
    var f := SearchStep(None, None);
    forall i | 0 <= i < |ps| ensures f(ps[i]).Success? && f(ps[i]).value.Some? {
      assert f(ps[i]) == Step(ps[i], None, None);
    }
    FilterMapUntilErrorTotal(ps, f);
    var r := SearchIn(ps, None, None).value;
    forall i | 0 <= i < |ps| ensures Success(r[i]) == HitOf(ps[i]) && r[i].id == Field(ps[i], "id", JNull) {
      assert Step(ps[i], None, None) == Success(Some(r[i]));
    }
  }
}

=== FILE: collect.dfy ===
/** Loop shapes that recur in the source, with the exception behaviour made explicit:
    a loop inside `try` that returns what it has gathered when something raises
    (`CollectUntilError`, `FilterMapUntilError`), a loop or comprehension with no
    `try` around it (`MapAll`, `FilterMapAll`), and a search that breaks at the
    first hit (`FindIndex`, which is also Python's short-circuiting `any`). */
module Collect {
  import opened Wrappers

  /** Builds one output per input until the first input whose step raises. */
  function CollectUntilError<A, B, E>(xs: seq<A>, f: A -> Result<B, E>): (r: seq<B>)
    ensures |r| <= |xs|
    ensures forall i :: 0 <= i < |r| ==> f(xs[i]) == Success(r[i])
    ensures |r| < |xs| ==> f(xs[|r|]).Failure?
    decreases |xs|
  {
    if |xs| == 0 then []
    else
      match f(xs[0])
      case Failure(_) => []
      case Success(y) => [y] + CollectUntilError(xs[1..], f)
  }

  /** Keeps the outputs a step produces (skipping `None`) until the first step that raises. */
  function FilterMapUntilError<A, B, E>(xs: seq<A>, f: A -> Result<Option<B>, E>): (r: seq<B>)
    ensures |r| <= |xs|
    ensures forall k :: 0 <= k < |r| ==> exists i :: 0 <= i < |xs| && f(xs[i]) == Success(Some(r[k]))
    decreases |xs|
  {
    if |xs| == 0 then []
    else
      match f(xs[0])
      case Failure(_) => []
      case Success(None) => FilterMapUntilError(xs[1..], f)
      case Success(Some(y)) => [y] + FilterMapUntilError(xs[1..], f)
  }

  /** Each position moved one step to the right. */
  function Shift(s: seq<nat>): (r: seq<nat>)
    ensures |r| == |s| && forall k :: 0 <= k < |s| ==> r[k] == s[k] + 1
  {
    seq(|s|, k requires 0 <= k < |s| => s[k] + 1)
  }

  /** The input positions whose outputs `FilterMapUntilError` keeps. */
  function Positions<A, B, E>(xs: seq<A>, f: A -> Result<Option<B>, E>): seq<nat>
    decreases |xs|
  {
    if |xs| == 0 then []
    else
      match f(xs[0])
      case Failure(_) => []
      case Success(None) => Shift(Positions(xs[1..], f))
      case Success(Some(_)) => [0] + Shift(Positions(xs[1..], f))
  }

  lemma {:induction false} PositionsOutputs<A, B, E>(xs: seq<A>, f: A -> Result<Option<B>, E>)
    ensures |Positions(xs, f)| == |FilterMapUntilError(xs, f)|
    ensures forall k :: 0 <= k < |Positions(xs, f)| ==>
      Positions(xs, f)[k] < |xs| && f(xs[Positions(xs, f)[k]]) == Success(Some(FilterMapUntilError(xs, f)[k]))
    decreases |xs|
  {
    if |xs| > 0 {
      var rest, out := Positions(xs[1..], f), FilterMapUntilError(xs[1..], f);
      PositionsOutputs(xs[1..], f);
      match f(xs[0])
      case Failure(_) =>
      case Success(None) =>
        forall k | 0 <= k < |rest| ensures xs[Shift(rest)[k]] == xs[1..][rest[k]] { }
      case Success(Some(y)) =>
        var p := [0] + Shift(rest);
        assert FilterMapUntilError(xs, f) == [y] + out;
        forall k | 0 < k < |p| ensures p[k] < |xs| && f(xs[p[k]]) == Success(Some(([y] + out)[k])) {
          assert p[k] == rest[k - 1] + 1;
          assert xs[p[k]] == xs[1..][rest[k - 1]];
        }
    }
  }

  lemma {:induction false} PositionsIncreasing<A, B, E>(xs: seq<A>, f: A -> Result<Option<B>, E>)
    ensures forall k, l :: 0 <= k < l < |Positions(xs, f)| ==> Positions(xs, f)[k] < Positions(xs, f)[l]
    decreases |xs|
  {
    if |xs| > 0 {
      PositionsIncreasing(xs[1..], f);
    }
  }

  /** A position whose step produces a value, with no step up to it raising, is kept. */
  lemma {:induction false} PositionsCompleteAt<A, B, E>(xs: seq<A>, f: A -> Result<Option<B>, E>, i: nat)
    requires i < |xs| && forall j :: 0 <= j <= i ==> f(xs[j]).Success?
    requires f(xs[i]).value.Some?
    ensures i in Positions(xs, f)
    decreases |xs|
  {
    if i > 0 {
      assert f(xs[0]).Success?;
      assert forall j :: 0 <= j < |xs| - 1 ==> xs[1..][j] == xs[j + 1];
      PositionsCompleteAt(xs[1..], f, i - 1);
      var rest := Positions(xs[1..], f);
      var k :| 0 <= k < |rest| && rest[k] == i - 1;
      assert Shift(rest)[k] == i;
    }
  }

  /** No kept position lies at or after a step that raises. */
  lemma {:induction false} PositionsBeforeFailure<A, B, E>(xs: seq<A>, f: A -> Result<Option<B>, E>, k: nat, j: nat)
    requires k < |Positions(xs, f)| && j <= Positions(xs, f)[k]
    ensures j < |xs| && f(xs[j]).Success?
    decreases |xs|
  {
    assert |xs| > 0 && f(xs[0]).Success?;
    if j > 0 {
      var rest := Positions(xs[1..], f);
      var m := if f(xs[0]).value.Some? then k - 1 else k;
      assert 0 <= m < |rest| && Positions(xs, f)[k] == rest[m] + 1;
      PositionsBeforeFailure(xs[1..], f, m, j - 1);
      assert xs[j] == xs[1..][j - 1];
    }
  }

  /** The outputs of `FilterMapUntilError` come from strictly increasing input positions,
      all before the first step that raises; every position before it whose step produces
      a value is among them. So the result is exactly the step's outputs up to the first
      raise, in order. */
  lemma FilterMapUntilErrorOrdered<A, B, E>(xs: seq<A>, f: A -> Result<Option<B>, E>)
    returns (idx: seq<nat>)
    ensures |idx| == |FilterMapUntilError(xs, f)|
    ensures forall k :: 0 <= k < |idx| ==> idx[k] < |xs| && f(xs[idx[k]]) == Success(Some(FilterMapUntilError(xs, f)[k]))
    ensures forall k, l :: 0 <= k < l < |idx| ==> idx[k] < idx[l]
    ensures forall k, j :: 0 <= k < |idx| && 0 <= j <= idx[k] ==> j < |xs| && f(xs[j]).Success?
    ensures forall i :: 0 <= i < |xs| && (forall j :: 0 <= j <= i ==> f(xs[j]).Success?) && f(xs[i]).value.Some? ==> i in idx
    ensures (forall j :: 0 <= j < |xs| ==> f(xs[j]).Success?) ==>
      forall i :: 0 <= i < |xs| && f(xs[i]).value.Some? ==> i in idx
  {
    idx := Positions(xs, f);
    PositionsOutputs(xs, f);
    PositionsIncreasing(xs, f);
    forall k, j | 0 <= k < |idx| && 0 <= j <= idx[k] ensures j < |xs| && f(xs[j]).Success? {
      PositionsBeforeFailure(xs, f, k, j);
    }
    forall i | 0 <= i < |xs| && (forall j :: 0 <= j <= i ==> f(xs[j]).Success?) && f(xs[i]).value.Some?
      ensures i in idx
    {
      PositionsCompleteAt(xs, f, i);
    }
  }

  /** When no step raises and every step produces a value, nothing is dropped. */
  lemma {:induction false} FilterMapUntilErrorTotal<A, B, E>(xs: seq<A>, f: A -> Result<Option<B>, E>)
    requires forall i :: 0 <= i < |xs| ==> f(xs[i]).Success? && f(xs[i]).value.Some?
    ensures |FilterMapUntilError(xs, f)| == |xs|
    ensures forall i :: 0 <= i < |xs| ==> f(xs[i]) == Success(Some(FilterMapUntilError(xs, f)[i]))
    decreases |xs|
  {
    if |xs| > 0 {
      FilterMapUntilErrorTotal(xs[1..], f);
      assert forall i :: 1 <= i < |xs| ==> xs[i] == xs[1..][i - 1];
    }
  }

  /** When no step raises, every output a step produces is kept. */
  lemma {:induction false} FilterMapUntilErrorComplete<A, B, E>(xs: seq<A>, f: A -> Result<Option<B>, E>, i: nat)
    requires forall j :: 0 <= j < |xs| ==> f(xs[j]).Success?
    requires i < |xs| && f(xs[i]).value.Some?
    ensures f(xs[i]).value.value in FilterMapUntilError(xs, f)
    decreases |xs|
  {
    if i > 0 {
      assert forall j :: 0 <= j < |xs| - 1 ==> xs[1..][j] == xs[j + 1];
      FilterMapUntilErrorComplete(xs[1..], f, i - 1);
    }
  }

  /** A comprehension or loop with no `try`: the first step that raises makes the whole thing raise. */
  function MapAll<A, B, E>(xs: seq<A>, f: A -> Result<B, E>): (r: Result<seq<B>, E>)
    ensures r.Success? <==> forall i :: 0 <= i < |xs| ==> f(xs[i]).Success?
    ensures r.Success? ==> |r.value| == |xs| && forall i :: 0 <= i < |xs| ==> f(xs[i]) == Success(r.value[i])
    decreases |xs|
  {
    if |xs| == 0 then Success([])
    else
      match f(xs[0])
      case Failure(e) => Failure(e)
      case Success(y) =>
        match MapAll(xs[1..], f)
        case Failure(e) => Failure(e)
        case Success(ys) =>
          assert forall i :: 1 <= i < |xs| ==> xs[i] == xs[1..][i - 1];
          Success([y] + ys)
  }

  /** A filtering loop with no `try`: all-or-nothing, and when it succeeds it agrees with
      the partial version. */
  function FilterMapAll<A, B, E>(xs: seq<A>, f: A -> Result<Option<B>, E>): (r: Result<seq<B>, E>)
    ensures r.Success? <==> forall i :: 0 <= i < |xs| ==> f(xs[i]).Success?
    ensures r.Success? ==> r.value == FilterMapUntilError(xs, f)
    decreases |xs|
  {
    if |xs| == 0 then Success([])
    else
      match f(xs[0])
      case Failure(e) => Failure(e)
      case Success(o) =>
        match FilterMapAll(xs[1..], f)
        case Failure(e) => Failure(e)
        case Success(ys) =>
          assert forall i :: 1 <= i < |xs| ==> xs[i] == xs[1..][i - 1];
          Success(if o.Some? then [o.value] + ys else ys)
  }

  /** Every element a left-to-right scan reaches, that is every element whose predecessors
      all test false, is tested without raising. */
  predicate ScanSucceeds<A, E>(xs: seq<A>, test: A -> Result<bool, E>) {
    forall i :: 0 <= i < |xs| && (forall j :: 0 <= j < i ==> test(xs[j]) == Success(false)) ==> test(xs[i]).Success?
  }

  /** The position of the first element passing `test`, scanning left to right and
      stopping at the first test that raises. */
  function FindIndex<A, E>(xs: seq<A>, test: A -> Result<bool, E>): (r: Result<Option<nat>, E>)
    ensures r.Success? && r.value.Some? ==>
      r.value.value < |xs| && test(xs[r.value.value]) == Success(true) &&
      forall j :: 0 <= j < r.value.value ==> test(xs[j]) == Success(false)
    ensures r == Success(None) <==> forall j :: 0 <= j < |xs| ==> test(xs[j]) == Success(false)
    ensures r.Failure? ==> exists i :: (0 <= i < |xs| && test(xs[i]).Failure? &&
      forall j :: 0 <= j < i ==> test(xs[j]) == Success(false))
    ensures r.Success? <==> ScanSucceeds(xs, test)
  {
    FindIndexFrom(xs, test, 0)
  }

  function FindIndexFrom<A, E>(xs: seq<A>, test: A -> Result<bool, E>, from: nat): (r: Result<Option<nat>, E>)
    requires from <= |xs|
    requires forall j :: 0 <= j < from ==> test(xs[j]) == Success(false)
    ensures r.Success? && r.value.Some? ==>
      from <= r.value.value < |xs| && test(xs[r.value.value]) == Success(true) &&
      forall j :: 0 <= j < r.value.value ==> test(xs[j]) == Success(false)
    ensures r == Success(None) <==> forall j :: 0 <= j < |xs| ==> test(xs[j]) == Success(false)
    ensures r.Failure? ==> exists i :: (from <= i < |xs| && test(xs[i]).Failure? &&
      forall j :: 0 <= j < i ==> test(xs[j]) == Success(false))
    ensures r.Success? <==> ScanSucceeds(xs, test)
    decreases |xs| - from
  {
    if from == |xs| then Success(None)
    else
      match test(xs[from])
      case Failure(e) => Failure(e)
      case Success(true) => Success(Some(from))
      case Success(false) => FindIndexFrom(xs, test, from + 1)
  }

  /** `FindIndex` with a test that raises exactly where `ok` fails and otherwise answers
      `hit`: the first hit, no hit, or a raise before any hit, in those terms. */
  lemma FindIndexClassified<A, E>(xs: seq<A>, test: A -> Result<bool, E>, ok: A -> bool, hit: A -> bool)
    requires forall i :: 0 <= i < |xs| ==> (test(xs[i]).Success? <==> ok(xs[i]))
    requires forall i :: 0 <= i < |xs| && test(xs[i]).Success? ==> test(xs[i]).value == hit(xs[i])
    ensures FindIndex(xs, test).Success? && FindIndex(xs, test).value.Some? ==>
      var i := FindIndex(xs, test).value.value;
      i < |xs| && ok(xs[i]) && hit(xs[i]) && forall j :: 0 <= j < i ==> ok(xs[j]) && !hit(xs[j])
    ensures FindIndex(xs, test) == Success(None) <==> forall j :: 0 <= j < |xs| ==> ok(xs[j]) && !hit(xs[j])
    ensures FindIndex(xs, test).Failure? <==>
      exists j :: 0 <= j < |xs| && !ok(xs[j]) && forall k :: 0 <= k < j ==> ok(xs[k]) && !hit(xs[k])
  {
    if FindIndex(xs, test).Failure? {
      var j :| 0 <= j < |xs| && test(xs[j]).Failure? && forall k :: 0 <= k < j ==> test(xs[k]) == Success(false);
      assert !ok(xs[j]);
    } else {
      forall j | 0 <= j < |xs| && !ok(xs[j]) ensures exists k :: 0 <= k < j && !(ok(xs[k]) && !hit(xs[k])) {
        assert !(forall k :: 0 <= k < j ==> test(xs[k]) == Success(false));
      }
    }
  }

  /** Python's `any(test(x) for x in xs)`: true at the first hit, raising only if an
      element before the first hit raises. */
  function Any<A, E>(xs: seq<A>, test: A -> Result<bool, E>): (r: Result<bool, E>)
    ensures r == Success(true) <==> exists i :: (0 <= i < |xs| && test(xs[i]) == Success(true) &&
      forall j :: 0 <= j < i ==> test(xs[j]) == Success(false))
    ensures r == Success(false) <==> forall j :: 0 <= j < |xs| ==> test(xs[j]) == Success(false)
    ensures r.Success? <==> ScanSucceeds(xs, test)
  {
    match FindIndex(xs, test)
    case Failure(e) => Failure(e)
    case Success(o) => Success(o.Some?)
  }

  /** Python's `[x for part in parts for x in part]`. */
  function Concat<T(!new)>(parts: seq<seq<T>>): (r: seq<T>)
    ensures forall x :: x in r <==> exists i :: 0 <= i < |parts| && x in parts[i]
    decreases |parts|
  {
    if |parts| == 0 then [] else parts[0] + Concat(parts[1..])
  }

  /** Three parts concatenate to their sum. */
  lemma ConcatThree<T(!new)>(a: seq<T>, b: seq<T>, c: seq<T>)
    ensures Concat([a, b, c]) == a + b + c
  {
    assert [a, b, c][1..] == [b, c];
    assert [b, c][1..] == [c];
    assert [c][1..] == [];
    assert Concat([c]) == c;
    assert Concat([b, c]) == b + c;
    assert Concat([a, b, c]) == a + (b + c);
  }

  /** How many times `x` occurs in `xs`. */
  function Count<T(==)>(xs: seq<T>, x: T): (n: nat)
    ensures n <= |xs|
    ensures n > 0 <==> x in xs
    decreases |xs|
  {
    if |xs| == 0 then 0 else (if xs[0] == x then 1 else 0) + Count(xs[1..], x)
  }

  /** Items gathered by a traversal that may stop early: `complete` is false when the
      traversal raised after gathering `items`. */
  datatype Partial<T> = Partial(items: seq<T>, complete: bool)

  /** Nested loops run one after another inside one `try`: the traversals' items in order,
      up to and including the first traversal that raised. */
  function Chain<T(!new)>(parts: seq<Partial<T>>): (r: Partial<T>)
    ensures r.complete <==> forall i :: 0 <= i < |parts| ==> parts[i].complete
    ensures r.complete ==> r.items == Concat(seq(|parts|, i requires 0 <= i < |parts| => parts[i].items))
    decreases |parts|
  {
    if |parts| == 0 then Partial([], true)
    else if !parts[0].complete then parts[0]
    else
      var rest := Chain(parts[1..]);
      assert forall i :: 1 <= i < |parts| ==> parts[i] == parts[1..][i - 1];
      assert seq(|parts|, i requires 0 <= i < |parts| => parts[i].items)[1..]
        == seq(|parts[1..]|, i requires 0 <= i < |parts[1..]| => parts[1..][i].items);
      Partial(parts[0].items + rest.items, rest.complete)
  }
}

=== FILE: crawl.dfy ===
/** The crawl helpers of the brand parser (combined_brands_parser.py, duplicated in
    src/parser/brand_parser.py): category URL expansion, brand link deduplication, the
    build-token scan of a brand page, the `_next/data` URL, the bounded retry loop and
    the save step. Browser pages and HTTP responses are parameters. */
module Crawl {
  import opened Wrappers
  import opened Json
  import opened Text

  const StaticMarker := "/_next/static/"
  const TokenLength := 40
  const DataUrlPrefix := "https://www.knowde.com/_next/data/"
  const SiteDomain := "knowde.com"
  /** Each category lists its brands on pages 1 to 10. */
  const PagesPerCategory := 10
  /** `_get_hash_from_brand_page` is always called with its default of three attempts. */
  const HashRetries := 3

  // ---------------------------------------------------------------------------
  // Category pages (`_extract_category_links`)
  // ---------------------------------------------------------------------------

  /** An f-string renders a missing `href` as `None`. */
  function HrefText(href: Option<string>): string {
    match href
    case None => "None"
    case Some(s) => s
  }

  /** The listing pages of one category: `/brands`, then `/brands/2` … `/brands/10`. */
  function ExpandCategory(href: Option<string>): (r: seq<string>)
    ensures |r| == PagesPerCategory
    ensures r[0] == HrefText(href) + "/brands"
    ensures forall j :: 1 <= j < PagesPerCategory ==> r[j] == HrefText(href) + "/brands/" + NatToString(j + 1)
  {
    var base := HrefText(href);
    [base + "/brands"] + seq(PagesPerCategory - 1, j requires 0 <= j < PagesPerCategory - 1 => base + "/brands/" + NatToString(j + 2))
  }

  /** The ten listing pages of a category are ten different URLs. */
  lemma ExpandCategoryDistinct(href: Option<string>)
    ensures forall j, k :: 0 <= j < k < PagesPerCategory ==> ExpandCategory(href)[j] != ExpandCategory(href)[k]
  {
    var r := ExpandCategory(href);
    var base := HrefText(href);
    forall j, k | 0 <= j < k < PagesPerCategory ensures r[j] != r[k] {
      if j == 0 {
        assert |r[j]| < |r[k]|;
      } else if k == PagesPerCategory - 1 {
        assert NatToString(10) == "10";
        assert |NatToString(j + 1)| == 1;
        assert |r[j]| < |r[k]|;
      } else {
        assert NatToString(j + 1) == [DigitChar(j + 1)];
        assert NatToString(k + 1) == [DigitChar(k + 1)];
        assert r[j][|r[j]| - 1] != r[k][|r[k]| - 1];
      }
    }
  }

  /** All listing pages, category by category. */
  function ExtractCategoryLinks(hrefs: seq<Option<string>>): (r: seq<string>)
    ensures |r| == PagesPerCategory * |hrefs|
    ensures forall i, j :: 0 <= i < |hrefs| && 0 <= j < PagesPerCategory ==>
      r[PagesPerCategory * i + j] == ExpandCategory(hrefs[i])[j]
    decreases |hrefs|
  {
    if |hrefs| == 0 then []
    else
      var rest := ExtractCategoryLinks(hrefs[1..]);
      ExpandCategory(hrefs[0]) + rest
  }

  // ---------------------------------------------------------------------------
  // Brand links (`collect_unique_brand_links`)
  // ---------------------------------------------------------------------------

  predicate NoDuplicates<T(==)>(xs: seq<T>) {
    forall a, b :: 0 <= a < b < |xs| ==> xs[a] != xs[b]
  }

  /** `l` is the `href` of a "View Brand" anchor on one of the listing pages that loaded.
      `site` maps each page that loads to the hrefs of its anchors; a page outside it
      fails to load or shows no anchor before the wait times out. */
  predicate Scraped(urls: seq<string>, site: map<string, seq<Option<string>>>, l: Option<string>) {
    exists k :: 0 <= k < |urls| && urls[k] in site && l in site[urls[k]]
  }

  lemma ScrapedExtend(urls: seq<string>, i: nat, site: map<string, seq<Option<string>>>, l: Option<string>)
    requires i < |urls|
    ensures Scraped(urls[..i + 1], site, l) <==> Scraped(urls[..i], site, l) || (urls[i] in site && l in site[urls[i]])
  {
    if Scraped(urls[..i + 1], site, l) {
      var k :| 0 <= k < i + 1 && urls[..i + 1][k] in site && l in site[urls[..i + 1][k]];
      if k < i {
        assert urls[..i][k] == urls[k];
      }
    }
    if Scraped(urls[..i], site, l) {
      var k :| 0 <= k < i && urls[..i][k] in site && l in site[urls[..i][k]];
      assert urls[..i + 1][k] == urls[k];
    }
    if urls[i] in site && l in site[urls[i]] {
      assert urls[..i + 1][i] == urls[i];
    }
  }

  /** The brand links of all listing pages, each once, in order of discovery. */
  method CollectUniqueBrandLinks(categoryUrls: seq<string>, site: map<string, seq<Option<string>>>)
    returns (links: seq<Option<string>>)
    ensures NoDuplicates(links)
    ensures forall l :: l in links <==> Scraped(categoryUrls, site, l)
  {
    links := [];
    var i := 0;
    while i < |categoryUrls|
      invariant 0 <= i <= |categoryUrls|
      invariant NoDuplicates(links)
      invariant forall l :: l in links <==> Scraped(categoryUrls[..i], site, l)
    {
      var url := categoryUrls[i];
      if url in site {
        var hrefs := site[url];
        var j := 0;
        while j < |hrefs|
          invariant 0 <= j <= |hrefs|
          invariant NoDuplicates(links)
          invariant forall l :: l in links <==> Scraped(categoryUrls[..i], site, l) || l in hrefs[..j]
        {
          if hrefs[j] !in links {
            links := links + [hrefs[j]];
          }
          assert hrefs[..j + 1] == hrefs[..j] + [hrefs[j]];
          j := j + 1;
        }
        assert hrefs[..j] == hrefs;
      }
      forall l | true ensures Scraped(categoryUrls[..i + 1], site, l) <==> Scraped(categoryUrls[..i], site, l) || (url in site && l in site[url]) {
        ScrapedExtend(categoryUrls, i, site, l);
      }
      i := i + 1;
    }
    assert categoryUrls[..i] == categoryUrls;
  }

  // ---------------------------------------------------------------------------
  // Build token (`_get_hash_from_brand_page`)
  // ---------------------------------------------------------------------------

  predicate IsLowerHex(c: char) {
    '0' <= c <= '9' || 'a' <= c <= 'f'
  }

  /** The pattern `/_next/static/([a-f0-9]{40})/` matches at position `i` of `src`. */
  predicate MatchAt(src: string, i: nat) {
    i + |StaticMarker| + TokenLength + 1 <= |src|
    && src[i..i + |StaticMarker|] == StaticMarker
    && (forall k :: i + |StaticMarker| <= k < i + |StaticMarker| + TokenLength ==> IsLowerHex(src[k]))
    && src[i + |StaticMarker| + TokenLength] == '/'
  }

  function FindMatchFrom(src: string, from: nat): (r: Option<nat>)
    requires forall j: nat :: j < from ==> !MatchAt(src, j)
    ensures r.Some? ==> MatchAt(src, r.value) && forall j: nat :: j < r.value ==> !MatchAt(src, j)
    ensures r.None? ==> forall j: nat :: !MatchAt(src, j)
    decreases |src| - from
  {
    if from + |StaticMarker| + TokenLength + 1 > |src| then None
    else if MatchAt(src, from) then Some(from)
    else FindMatchFrom(src, from + 1)
  }

  /** `hash_pattern.search(src).group(1)`: the 40 hex digits of the leftmost match. */
  function FindToken(src: string): (r: Option<string>)
    ensures r.Some? ==> IsToken(r.value)
  {
    match FindMatchFrom(src, 0)
    case None => None
    case Some(i) => Some(src[i + |StaticMarker|..i + |StaticMarker| + TokenLength])
  }

  /** The token is the capture of the leftmost match, and there is none without a match. */
  lemma FindTokenLeftmost(src: string)
    ensures FindToken(src).Some? ==> exists i: nat :: (MatchAt(src, i)
      && FindToken(src).value == src[i + |StaticMarker|..i + |StaticMarker| + TokenLength]
      && forall j: nat :: j < i ==> !MatchAt(src, j))
    ensures FindToken(src).None? <==> forall j: nat :: !MatchAt(src, j)
  {
    match FindMatchFrom(src, 0)
    case None =>
    case Some(i) =>
      assert MatchAt(src, i);
  }

  /** A brand page's script URLs with a build token in them. */
  lemma FindTokenExample(token: string, tail: string)
    requires |token| == TokenLength && forall k :: 0 <= k < |token| ==> IsLowerHex(token[k])
    ensures FindToken(StaticMarker + token + "/" + tail) == Some(token)
  {
    var src := StaticMarker + token + "/" + tail;
    assert src[..|StaticMarker|] == StaticMarker;
    assert src[|StaticMarker|..|StaticMarker| + TokenLength] == token;
    assert forall k :: |StaticMarker| <= k < |StaticMarker| + TokenLength ==> src[k] == token[k - |StaticMarker|];
    assert MatchAt(src, 0);
  }

  /** A 40-digit lowercase hex token. */
  predicate IsToken(t: string) {
    |t| == TokenLength && forall k :: 0 <= k < |t| ==> IsLowerHex(t[k])
  }

  /** The first script `src` that contains a token yields it. */
  function ScanScripts(srcs: seq<string>): (r: Option<string>)
    ensures r.Some? ==> IsToken(r.value)
    decreases |srcs|
  {
    if |srcs| == 0 then None
    else if FindToken(srcs[0]).Some? then FindToken(srcs[0])
    else ScanScripts(srcs[1..])
  }

  /** The scan yields the token of the first `src` that has one, and nothing when none has. */
  lemma {:induction false} ScanScriptsFirst(srcs: seq<string>)
    ensures ScanScripts(srcs).Some? ==> exists k :: (0 <= k < |srcs| && FindToken(srcs[k]) == ScanScripts(srcs)
      && forall j :: 0 <= j < k ==> FindToken(srcs[j]).None?)
    ensures ScanScripts(srcs).None? <==> forall k :: 0 <= k < |srcs| ==> FindToken(srcs[k]).None?
    decreases |srcs|
  {
    if |srcs| > 0 && FindToken(srcs[0]).None? {
      ScanScriptsFirst(srcs[1..]);
      assert forall k :: 1 <= k < |srcs| ==> srcs[k] == srcs[1..][k - 1];
      if ScanScripts(srcs).Some? {
        var k :| 0 <= k < |srcs[1..]| && FindToken(srcs[1..][k]) == ScanScripts(srcs[1..])
          && forall j :: 0 <= j < k ==> FindToken(srcs[1..][j]).None?;
        assert FindToken(srcs[k + 1]) == ScanScripts(srcs);
      }
    }
  }

  /** One fetch of the brand page: it raised, or it returned a page with these
      `<head>` script `src`s. */
  datatype PageFetch = FetchRaised | PageFetched(scriptSrcs: seq<string>)

  function PageToken(f: PageFetch): (r: Option<string>)
    ensures r.Some? ==> IsToken(r.value)
  {
    match f
    case FetchRaised => None
    case PageFetched(srcs) => ScanScripts(srcs)
  }

  /** The first of attempts `from` … `count - 1` whose token is present. */
  function FirstFound(tokens: nat -> Option<string>, from: nat, count: nat): (r: Option<nat>)
    ensures r.Some? ==> from <= r.value < count && tokens(r.value).Some?
    ensures r.Some? ==> forall a :: from <= a < r.value ==> tokens(a).None?
    ensures r.None? <==> forall a :: from <= a < count ==> tokens(a).None?
    decreases count - from
  {
    if from >= count then None
    else if tokens(from).Some? then Some(from)
    else FirstFound(tokens, from + 1, count)
  }

  /** `_get_hash_from_brand_page(url, max_retries)`: the token of the first attempt that
      finds one; a failed fetch and a page without a token both move on to the next
      attempt; `None` after `maxRetries` attempts without one. */
  function HashFromBrandPage(fetches: nat -> PageFetch, maxRetries: nat): (r: Option<string>)
    ensures r.Some? ==> IsToken(r.value)
    ensures r.Some? ==> exists a :: (0 <= a < maxRetries && PageToken(fetches(a)) == r
      && forall b :: 0 <= b < a ==> PageToken(fetches(b)).None?)
    ensures r.None? <==> forall a :: 0 <= a < maxRetries ==> PageToken(fetches(a)).None?
  {
    var tokens := (a: nat) => PageToken(fetches(a));
    assert forall a: nat :: tokens(a) == PageToken(fetches(a));
    match FirstFound(tokens, 0, maxRetries)
    case None => None
    case Some(a) => PageToken(fetches(a))
  }

  // ---------------------------------------------------------------------------
  // JSON URL and retry loop (`_get_json_data_for_brand`)
  // ---------------------------------------------------------------------------

  /** Position of the first occurrence of `needle` in `s` at or after `from`. */
  function FindFrom(needle: string, s: string, from: nat): (r: Option<nat>)
    requires from <= |s|
    requires forall j: nat :: j < from ==> !IsPrefix(needle, s[j..])
    ensures r.Some? ==> r.value + |needle| <= |s| && IsPrefix(needle, s[r.value..]) && forall j: nat :: j < r.value ==> !IsPrefix(needle, s[j..])
    ensures r.None? ==> forall j: nat :: j <= |s| ==> !IsPrefix(needle, s[j..])
    decreases |s| - from
  {
    if IsPrefix(needle, s[from..]) then Some(from)
    else if from == |s| then None
    else FindFrom(needle, s, from + 1)
  }

  function Find(needle: string, s: string): (r: Option<nat>)
    ensures r.Some? ==> r.value + |needle| <= |s| && IsPrefix(needle, s[r.value..]) && forall j: nat :: j < r.value ==> !IsPrefix(needle, s[j..])
    ensures r.None? ==> forall j: nat :: j <= |s| ==> !IsPrefix(needle, s[j..])
  {
    FindFrom(needle, s, 0)
  }

  /** `brand_url.split('knowde.com')[1]`: the text between the first and the second
      occurrence of the domain (or to the end); no occurrence raises IndexError. */
  function BrandPath(url: string): (r: Result<string, ()>)
    ensures r.Failure? <==> Find(SiteDomain, url).None?
    ensures r.Success? ==>
      var start := Find(SiteDomain, url).value + |SiteDomain|;
      && IsPrefix(r.value, url[start..])
      && (start + |r.value| == |url| || IsPrefix(SiteDomain, url[start + |r.value|..]))
      && Find(SiteDomain, r.value).None?
  {
    match Find(SiteDomain, url)
    case None => Failure(())
    case Some(i) =>
      var rest := url[i + |SiteDomain|..];
      match Find(SiteDomain, rest)
      case None =>
        assert rest[..|rest|] == rest;
        Success(rest)
      case Some(j) =>
        assert rest[..j] + rest[j..] == rest;
        NoMatchInPrefix(SiteDomain, rest, j);
        Success(rest[..j])
  }

  /** A prefix of `s` ending before the first occurrence of `needle` has no occurrence. */
  lemma NoMatchInPrefix(needle: string, s: string, j: nat)
    requires 0 < |needle| && j + |needle| <= |s|
    requires forall i: nat :: i < j ==> !IsPrefix(needle, s[i..])
    ensures Find(needle, s[..j]).None?
  {
    var p := s[..j];
    forall i: nat | i <= |p| ensures !IsPrefix(needle, p[i..]) {
      if i + |needle| <= j {
        assert p[i..][..|needle|] == s[i..][..|needle|];
      }
    }
  }

  /** A match of the domain starts with its first letter. */
  lemma NoLetterNoMatch(s: string, j: nat)
    requires j < |s| && s[j] !in SiteDomain[..1]
    ensures !IsPrefix(SiteDomain, s[j..])
  {
  }

  /** For a brand URL on the site, the path is everything after the domain. */
  lemma BrandPathExample()
    ensures BrandPath("https://www." + SiteDomain + "/stores/acme") == Success("/stores/acme")
  {
    var head := "https://www.";
    var tail := "/stores/acme";
    var url := head + SiteDomain + tail;
    assert 'k' !in head && 'k' !in tail;
    forall j: nat | j < |head| ensures !IsPrefix(SiteDomain, url[j..]) {
      assert url[j] == head[j];
      NoLetterNoMatch(url, j);
    }
    assert url[|head|..][..|SiteDomain|] == SiteDomain;
    assert Find(SiteDomain, url) == Some(|head|);
    var rest := url[|head| + |SiteDomain|..];
    assert rest == tail;
    forall j: nat | j <= |rest| ensures !IsPrefix(SiteDomain, rest[j..]) {
      if j < |rest| {
        NoLetterNoMatch(rest, j);
      }
    }
  }

  /** `https://www.knowde.com/_next/data/{hash}{brand_path}.json`. */
  function JsonUrl(token: string, path: string): string {
    DataUrlPrefix + token + path + ".json"
  }

  /** The response to a JSON request: it raised, or it came back with a status and a body
      (`None` when the body is not valid JSON, so `response.json()` raises). */
  datatype Response = RequestRaised | Response(status: int, body: Option<Json>)

  /** What one attempt of the loop meets: the brand-page fetches of its token lookup, and
      the response the server gives to each URL it may request. */
  datatype Attempt = Attempt(hashFetches: nat -> PageFetch, respond: string -> Response)

  datatype Outcome = NoToken | Retry | Fetched(data: Json)

  /** One iteration of the retry loop. */
  function AttemptOutcome(url: string, att: Attempt): (o: Outcome)
    ensures o.NoToken? <==> HashFromBrandPage(att.hashFetches, HashRetries).None?
    ensures o.Fetched? ==>
      && HashFromBrandPage(att.hashFetches, HashRetries).Some?
      && BrandPath(url).Success?
      && att.respond(JsonUrl(HashFromBrandPage(att.hashFetches, HashRetries).value, BrandPath(url).value))
         == Response(200, Some(o.data))
    ensures forall b: Json :: (HashFromBrandPage(att.hashFetches, HashRetries).Some? && BrandPath(url).Success?
      && att.respond(JsonUrl(HashFromBrandPage(att.hashFetches, HashRetries).value, BrandPath(url).value)) == Response(200, Some(b))
      ==> o == Fetched(b))
    ensures HashFromBrandPage(att.hashFetches, HashRetries).Some? && BrandPath(url).Failure? ==> o == Retry
  {
    match HashFromBrandPage(att.hashFetches, HashRetries)
    case None => NoToken
    case Some(token) =>
      match BrandPath(url)
      case Failure(_) => Retry
      case Success(path) =>
        match att.respond(JsonUrl(token, path))
        case RequestRaised => Retry
        case Response(status, body) =>
          if status == 200 && body.Some? then Fetched(body.value) else Retry
  }

  /** Attempts `0` … `n - 1` all moved on to the next attempt. */
  predicate AllRetried(url: string, env: nat -> Attempt, n: nat) {
    forall a: nat :: a < n ==> AttemptOutcome(url, env(a)).Retry?
  }

  /** `_get_json_data_for_brand(url, max_retries)`: at most `maxRetries` attempts; a missing
      token ends the loop at once with `None`; a 200 response with a JSON body ends it with
      that body; anything else moves on to the next attempt. */
  method GetJsonDataForBrand(url: string, maxRetries: nat, env: nat -> Attempt) returns (data: Option<Json>, attempts: nat)
    ensures attempts <= maxRetries
    ensures data.Some? ==> (0 < attempts && AllRetried(url, env, attempts - 1)
      && AttemptOutcome(url, env(attempts - 1)) == Fetched(data.value))
    ensures data.None? && attempts < maxRetries ==> (0 < attempts && AllRetried(url, env, attempts - 1)
      && AttemptOutcome(url, env(attempts - 1)).NoToken?)
    ensures data.None? && attempts == maxRetries ==> (AllRetried(url, env, attempts)
      || (0 < attempts && AllRetried(url, env, attempts - 1) && AttemptOutcome(url, env(attempts - 1)).NoToken?))
  {
    attempts := 0;
    while attempts < maxRetries
      invariant attempts <= maxRetries
      invariant AllRetried(url, env, attempts)
    {
      var outcome := AttemptOutcome(url, env(attempts));
      attempts := attempts + 1;
      if outcome.NoToken? {
        return None, attempts;
      } else if outcome.Fetched? {
        return Some(outcome.data), attempts;
      }
    }
    data := None;
  }

  // ---------------------------------------------------------------------------
  // Saving (`process_brands` / `process_brand_data`)
  // ---------------------------------------------------------------------------

  /** Position of the last `/` before `end`. */
  function LastSlashBefore(url: string, end: nat): (r: Option<nat>)
    requires end <= |url|
    ensures r.Some? ==> r.value < end && url[r.value] == '/' && forall k :: r.value < k < end ==> url[k] != '/'
    ensures r.None? ==> forall k :: 0 <= k < end ==> url[k] != '/'
    decreases end
  {
    if end == 0 then None
    else if url[end - 1] == '/' then Some(end - 1)
    else LastSlashBefore(url, end - 1)
  }

  /** `brand_url.split('/')[-1]`: the text after the last `/` (the whole URL when it has none). */
  function LastSegment(url: string): (r: string)
    ensures '/' !in r
    ensures |r| <= |url| && r == url[|url| - |r|..]
    ensures |r| < |url| ==> url[|url| - |r| - 1] == '/'
  {
    match LastSlashBefore(url, |url|)
    case None =>
      assert url[|url| - |url|..] == url;
      url
    case Some(p) =>
      var r := url[p + 1..];
      assert forall k :: 0 <= k < |r| ==> r[k] == url[p + 1 + k];
      r
  }

  /** A fetched brand whose JSON is stored: the fetch gave truthy JSON. */
  predicate Saved(f: (string, Option<Json>)) {
    f.1.Some? && Truthy(f.1.value)
  }

  /** One iteration of the save loop. */
  function SaveOne(store: map<string, Json>, f: (string, Option<Json>)): map<string, Json> {
    if Saved(f) then store[LastSegment(f.0) := f.1.value] else store
  }

  /** The save loop over the fetched brands: truthy JSON is stored under the URL's last
      segment, a later brand with the same segment overwriting an earlier one; a brand
      whose fetch gave `None` or falsy JSON is skipped. */
  function ProcessBrands(store: map<string, Json>, fetched: seq<(string, Option<Json>)>): (r: map<string, Json>)
    ensures forall k :: k in store ==> k in r
    ensures forall i :: 0 <= i < |fetched| && Saved(fetched[i]) ==> LastSegment(fetched[i].0) in r
    ensures forall k :: k in r ==> Truthy(r[k]) || (k in store && r[k] == store[k])
    decreases |fetched|
  {
    if |fetched| == 0 then store
    else
      var r := ProcessBrands(SaveOne(store, fetched[0]), fetched[1..]);
      assert forall i :: 1 <= i < |fetched| ==> fetched[i] == fetched[1..][i - 1];
      r
  }

  /** Every name the loop adds is the last segment of a brand it saved. */
  lemma {:induction false} ProcessBrandsAddsOnlySaved(store: map<string, Json>, fetched: seq<(string, Option<Json>)>, k: string)
    requires k in ProcessBrands(store, fetched) && k !in store
    ensures exists i :: 0 <= i < |fetched| && Saved(fetched[i]) && LastSegment(fetched[i].0) == k
    decreases |fetched|
  {
    var next := SaveOne(store, fetched[0]);
    if k in next {
      assert LastSegment(fetched[0].0) == k;
    } else {
      ProcessBrandsAddsOnlySaved(next, fetched[1..], k);
      var i :| 0 <= i < |fetched[1..]| && Saved(fetched[1..][i]) && LastSegment(fetched[1..][i].0) == k;
      assert fetched[i + 1] == fetched[1..][i];
    }
  }

  /** Whether a brand after position `i` is saved under the same name as brand `i`. */
  predicate LaterSavedSame(fetched: seq<(string, Option<Json>)>, i: int)
    requires 0 <= i < |fetched|
  {
    exists j :: i < j < |fetched| && Saved(fetched[j]) && LastSegment(fetched[j].0) == LastSegment(fetched[i].0)
  }

  /** The stored JSON under a name is that of the last saved brand with that name: a later
      save overwrites an earlier one. */
  lemma {:induction false} ProcessBrandsLastWins(store: map<string, Json>, fetched: seq<(string, Option<Json>)>, i: int)
    requires 0 <= i < |fetched| && Saved(fetched[i]) && !LaterSavedSame(fetched, i)
    ensures LastSegment(fetched[i].0) in ProcessBrands(store, fetched)
    ensures ProcessBrands(store, fetched)[LastSegment(fetched[i].0)] == fetched[i].1.value
    decreases |fetched|
  {
    var rest := fetched[1..];
    if i == 0 {
      ProcessBrandsHeadWins(store, fetched);
    } else {
      assert rest[i - 1] == fetched[i];
      assert !LaterSavedSame(rest, i - 1) by {
        forall j | i - 1 < j < |rest| ensures !(Saved(rest[j]) && LastSegment(rest[j].0) == LastSegment(rest[i - 1].0)) {
          assert rest[j] == fetched[j + 1];
        }
      }
      ProcessBrandsLastWins(SaveOne(store, fetched[0]), rest, i - 1);
    }
  }

  /** The first brand's save survives when no later brand is saved under its name. */
  lemma ProcessBrandsHeadWins(store: map<string, Json>, fetched: seq<(string, Option<Json>)>)
    requires 0 < |fetched| && Saved(fetched[0]) && !LaterSavedSame(fetched, 0)
    ensures LastSegment(fetched[0].0) in ProcessBrands(store, fetched)
    ensures ProcessBrands(store, fetched)[LastSegment(fetched[0].0)] == fetched[0].1.value
  {
    var k := LastSegment(fetched[0].0);
    var rest := fetched[1..];
    forall j | 0 <= j < |rest| && Saved(rest[j]) ensures LastSegment(rest[j].0) != k {
      assert rest[j] == fetched[j + 1];
    }
    ProcessBrandsUnwritten(SaveOne(store, fetched[0]), rest, k);
  }

  /** A name no saved brand has keeps what the store held before. */
  lemma {:induction false} ProcessBrandsUnwritten(store: map<string, Json>, fetched: seq<(string, Option<Json>)>, k: string)
    requires forall j :: 0 <= j < |fetched| && Saved(fetched[j]) ==> LastSegment(fetched[j].0) != k
    ensures k in ProcessBrands(store, fetched) <==> k in store
    ensures k in store ==> ProcessBrands(store, fetched)[k] == store[k]
    decreases |fetched|
  {
    if |fetched| > 0 {
      assert forall j :: 1 <= j < |fetched| ==> fetched[1..][j - 1] == fetched[j];
      ProcessBrandsUnwritten(SaveOne(store, fetched[0]), fetched[1..], k);
    }
  }
}

=== FILE: json.dfy ===
/** The JSON documents the scraper downloads and stores, as an inductive datatype.
    Objects keep their members in document order; as with Python's `json.load`,
    a key that occurs twice is bound to its last value. */
module Json {
  import opened Wrappers

  datatype Json =
    | JNull
    | JBool(b: bool)
    | JInt(i: int)
    | JStr(s: string)
    | JArr(items: seq<Json>)
    | JObj(fields: seq<(string, Json)>)

  /** The value bound to `key` in an object's member list (last duplicate wins). */
  function Lookup(fields: seq<(string, Json)>, key: string): (r: Option<Json>)
    ensures r.Some? <==> exists i :: 0 <= i < |fields| && fields[i].0 == key
    ensures r.Some? ==> exists i :: 0 <= i < |fields| && fields[i] == (key, r.value)
    decreases |fields|
  {
    if |fields| == 0 then None
    else if fields[|fields| - 1].0 == key then Some(fields[|fields| - 1].1)
    else Lookup(fields[..|fields| - 1], key)
  }

  predicate HasKey(j: Json, key: string) {
    j.JObj? && Lookup(j.fields, key).Some?
  }

  /** Python's `d.get(key, default)` on a value already known to be a dict;
      on anything else it yields the default (callers check the type first). */
  function Field(j: Json, key: string, default: Json): Json {
    if j.JObj? then Lookup(j.fields, key).GetOr(default) else default
  }

  /** The distinct keys of an object, in order of first occurrence (Python dict order). */
  function Keys(fields: seq<(string, Json)>): (ks: seq<string>)
    ensures forall k :: k in ks <==> exists i :: 0 <= i < |fields| && fields[i].0 == k
    ensures |ks| <= |fields|
    decreases |fields|
  {
    if |fields| == 0 then []
    else
      var rest := Keys(fields[..|fields| - 1]);
      var k := fields[|fields| - 1].0;
      if k in rest then rest else rest + [k]
  }

  /** Python truthiness: `None`, `False`, `0`, and empty strings, lists and dicts are falsy. */
  predicate Truthy(j: Json) {
    match j
    case JNull => false
    case JBool(b) => b
    case JInt(i) => i != 0
    case JStr(s) => |s| > 0
    case JArr(a) => |a| > 0
    case JObj(f) => |f| > 0
  }

  /** Values Python can use as a dict key or set element (lists and dicts are unhashable). */
  predicate Hashable(j: Json) {
    !j.JArr? && !j.JObj?
  }
}

=== FILE: page_scrape.dfy ===
/** The product page scrape done with a browser driver: the page is given as abstract
    data (its content tables, its product-detail anchors and its document anchors),
    and the model computes the structured tables, links and documents the extractor
    records. */
module PageScrape {
  import opened Wrappers
  import opened Text

  /** The first `thead tr` of a table: the texts of its `td` cells and of its `th` cells. */
  datatype HeaderRow = HeaderRow(tdTexts: seq<string>, thTexts: seq<string>)

  /** A `table-content_table` element; `headerRow` is `None` when it has no `thead tr`,
      `bodyRows` holds the `td` texts of each `tbody tr`. */
  datatype TableElement = TableElement(headerRow: Option<HeaderRow>, bodyRows: seq<seq<string>>, captions: seq<string>)

  /** An anchor: its visible text and its `href` attribute, if any. */
  datatype Anchor = Anchor(text: string, href: Option<string>)

  /** A rendered product page. */
  datatype Page = Page(tables: seq<TableElement>, detailLinks: seq<Anchor>, documentLinks: seq<Anchor>)

  datatype Table = Table(name: string, headers: seq<string>, rows: seq<seq<string>>)

  /** What the scrape yields; keys of `links` and `documents` are anchor texts. */
  datatype Scraped = Scraped(tables: seq<Table>, links: map<string, Option<string>>, documents: map<string, Option<string>>)

  const NoScrape := Scraped([], map[], map[])

  function StripAll(cells: seq<string>): (r: seq<string>)
    ensures |r| == |cells|
    ensures forall i :: 0 <= i < |cells| ==> r[i] == Strip(cells[i])
  {
    seq(|cells|, i requires 0 <= i < |cells| => Strip(cells[i]))
  }

  /** Header texts: the `td` cells, or the `th` cells when the row has no `td` cell. */
  function Headers(h: HeaderRow): seq<string> {
    if |h.tdTexts| > 0 then StripAll(h.tdTexts) else StripAll(h.thTexts)
  }

  /** The body rows that have at least one cell, with their cell texts stripped. */
  function BodyRows(rows: seq<seq<string>>): (r: seq<seq<string>>)
    ensures forall k :: 0 <= k < |r| ==> |r[k]| > 0
    ensures forall row :: row in r <==> exists i :: 0 <= i < |rows| && |rows[i]| > 0 && row == StripAll(rows[i])
    ensures |r| <= |rows|
    decreases |rows|
  {
    if |rows| == 0 then []
    else
      var rest := BodyRows(rows[1..]);
      assert forall i :: 1 <= i < |rows| ==> rows[i] == rows[1..][i - 1];
      if |rows[0]| > 0 then [StripAll(rows[0])] + rest else rest
  }

  /** The kept rows keep their document order and multiplicity: the rows of a
      concatenation are the rows of each part, concatenated. */
  lemma {:induction false} BodyRowsAppend(a: seq<seq<string>>, b: seq<seq<string>>)
    ensures BodyRows(a + b) == BodyRows(a) + BodyRows(b)
    decreases |a|
  {
    if |a| == 0 {
      assert a + b == b;
    } else {
      assert (a + b)[0] == a[0];
      assert (a + b)[1..] == a[1..] + b;
      BodyRowsAppend(a[1..], b);
    }
  }

  /** A single row is kept, stripped, iff it has a cell. */
  lemma BodyRowsOne(row: seq<string>)
    ensures BodyRows([row]) == if |row| > 0 then [StripAll(row)] else []
  {
    assert [row][1..] == [];
  }

  function CaptionName(captions: seq<string>): string {
    if |captions| > 0 then Strip(captions[0]) else ""
  }

  /** One table, recorded only if it has headers or rows. */
  function ScrapeTable(t: TableElement): Option<Table>
    requires t.headerRow.Some?
  {
    var headers := Headers(t.headerRow.value);
    var rows := BodyRows(t.bodyRows);
    if |headers| > 0 || |rows| > 0 then Some(Table(CaptionName(t.captions), headers, rows)) else None
  }

  /** Every table has a header row (a table without one makes the scrape raise). */
  predicate AllHeaded(ts: seq<TableElement>) {
    forall i :: 0 <= i < |ts| ==> ts[i].headerRow.Some?
  }

  function ScrapeTables(ts: seq<TableElement>): (r: seq<Table>)
    requires AllHeaded(ts)
    ensures forall t :: t in r <==> exists i :: 0 <= i < |ts| && ScrapeTable(ts[i]) == Some(t)
    decreases |ts|
  {
    if |ts| == 0 then []
    else
      var rest := ScrapeTables(ts[1..]);
      assert forall i :: 1 <= i < |ts| ==> ts[i] == ts[1..][i - 1];
      match ScrapeTable(ts[0])
      case Some(t) => [t] + rest
      case None => rest
  }

  /** The recorded tables keep their document order and multiplicity. */
  lemma {:induction false} ScrapeTablesAppend(a: seq<TableElement>, b: seq<TableElement>)
    requires AllHeaded(a) && AllHeaded(b)
    ensures AllHeaded(a + b)
    ensures ScrapeTables(a + b) == ScrapeTables(a) + ScrapeTables(b)
    decreases |a|
  {
    AllHeadedAppend(a, b);
    if |a| == 0 {
      assert a + b == b;
    } else {
      var ab := a + b;
      assert ab[1..] == a[1..] + b;
      AllHeadedAppend(a[1..], b);
      ScrapeTablesAppend(a[1..], b);
      ScrapeTablesCons(a);
      ScrapeTablesCons(ab);
      assert ab[0] == a[0];
      var h, x, y := Recorded(a[0]), ScrapeTables(a[1..]), ScrapeTables(b);
      assert h + (x + y) == (h + x) + y;
    }
  }

  lemma AllHeadedAppend(a: seq<TableElement>, b: seq<TableElement>)
    requires AllHeaded(a) && AllHeaded(b)
    ensures AllHeaded(a + b) && (|a| > 0 ==> AllHeaded(a[1..]))
  {
    assert forall i :: 0 <= i < |a + b| ==> (a + b)[i] == if i < |a| then a[i] else b[i - |a|];
    assert forall i :: 0 <= i < |a| - 1 ==> a[1..][i] == a[i + 1];
  }

  /** The record of one table, as a list of zero or one tables. */
  function Recorded(t: TableElement): seq<Table>
    requires t.headerRow.Some?
  {
    match ScrapeTable(t)
    case Some(x) => [x]
    case None => []
  }

  /** The first table's record, if any, comes before the rest's. */
  lemma ScrapeTablesCons(ts: seq<TableElement>)
    requires 0 < |ts| && AllHeaded(ts)
    ensures AllHeaded(ts[1..])
    ensures ScrapeTables(ts) == Recorded(ts[0]) + ScrapeTables(ts[1..])
  {
    assert forall i :: 0 <= i < |ts| - 1 ==> ts[1..][i] == ts[i + 1];
  }

  /** A single table is recorded iff it has headers or rows. */
  lemma ScrapeTablesOne(t: TableElement)
    requires t.headerRow.Some?
    ensures ScrapeTables([t]) == if |Headers(t.headerRow.value)| > 0 || |BodyRows(t.bodyRows)| > 0
      then [Table(CaptionName(t.captions), Headers(t.headerRow.value), BodyRows(t.bodyRows))] else []
  {
    assert [t][1..] == [];
  }

  /** Whether some anchor after position `i` carries the same stripped text. */
  predicate LaterSameText(anchors: seq<Anchor>, i: int)
    requires 0 <= i < |anchors|
  {
    exists j :: i < j < |anchors| && Strip(anchors[j].text) == Strip(anchors[i].text)
  }

  /** `result[text.strip()] = href` for each anchor with non-empty stripped text. */
  function AnchorMap(anchors: seq<Anchor>): (m: map<string, Option<string>>)
    ensures forall k :: k in m ==> k != "" && Stripped(k)
    ensures forall i :: 0 <= i < |anchors| && Strip(anchors[i].text) != "" ==> Strip(anchors[i].text) in m
    decreases |anchors|
  {
    if |anchors| == 0 then map[]
    else
      var n := |anchors| - 1;
      var init := anchors[..n];
      var rest := AnchorMap(init);
      var t := Strip(anchors[n].text);
      var m := if t != "" then rest[t := anchors[n].href] else rest;
      assert forall i :: 0 <= i < n && Strip(anchors[i].text) != "" ==> Strip(anchors[i].text) in m by {
        forall i | 0 <= i < n && Strip(anchors[i].text) != "" ensures Strip(anchors[i].text) in m {
          assert init[i] == anchors[i];
        }
      }
      m
  }

  /** Every key is the stripped text of some anchor. */
  lemma {:induction false} AnchorMapKeysFromAnchors(anchors: seq<Anchor>, k: string)
    requires k in AnchorMap(anchors)
    ensures exists i :: 0 <= i < |anchors| && Strip(anchors[i].text) == k
    decreases |anchors|
  {
    var n := |anchors| - 1;
    var init := anchors[..n];
    var t := Strip(anchors[n].text);
    assert AnchorMap(anchors) == if t != "" then AnchorMap(init)[t := anchors[n].href] else AnchorMap(init);
    if k != t || t == "" {
      AnchorMapKeysFromAnchors(init, k);
      var i :| 0 <= i < |init| && Strip(init[i].text) == k;
      assert anchors[i] == init[i];
    }
  }

  /** A text that occurs more than once keeps the `href` of its last anchor. */
  lemma {:induction false} AnchorMapLastWins(anchors: seq<Anchor>, i: int)
    requires 0 <= i < |anchors| && Strip(anchors[i].text) != ""
    requires !LaterSameText(anchors, i)
    ensures AnchorMap(anchors)[Strip(anchors[i].text)] == anchors[i].href
    decreases |anchors|
  {
    var n := |anchors| - 1;
    var init := anchors[..n];
    var t := Strip(anchors[n].text);
    if i == n {
      assert AnchorMap(anchors) == AnchorMap(init)[t := anchors[n].href];
    } else {
      assert init[i] == anchors[i];
      assert t != Strip(init[i].text);
      forall j | i < j < n ensures Strip(init[j].text) != Strip(init[i].text) {
        assert init[j] == anchors[j];
      }
      AnchorMapLastWins(init, i);
      assert AnchorMap(anchors) == if t != "" then AnchorMap(init)[t := anchors[n].href] else AnchorMap(init);
    }
  }

  /** The scrape of one page. A failed navigation, a page without content tables (the
      wait for one times out) or a table without a header row raises inside the scrape,
      and the source then returns the all-empty result. */
  function Scrape(page: Option<Page>): (r: Scraped)
    ensures page.None? ==> r == NoScrape
    ensures page.Some? && |page.value.tables| == 0 ==> r == NoScrape
    ensures page.Some? && (exists i :: 0 <= i < |page.value.tables| && page.value.tables[i].headerRow.None?) ==> r == NoScrape
    ensures forall t :: t in r.tables ==> |t.headers| > 0 || |t.rows| > 0
    ensures forall t :: t in r.tables ==> forall k :: 0 <= k < |t.rows| ==> |t.rows[k]| > 0
    ensures forall k :: k in r.links ==> k != "" && Stripped(k)
    ensures forall k :: k in r.documents ==> k != "" && Stripped(k)
    ensures page.Some? && |page.value.tables| > 0 && AllHeaded(page.value.tables) ==>
      r == Scraped(ScrapeTables(page.value.tables), AnchorMap(page.value.detailLinks), AnchorMap(page.value.documentLinks))
  {
    match page
    case None => NoScrape
    case Some(p) =>
      if |p.tables| == 0 then NoScrape
      else if exists i :: 0 <= i < |p.tables| && p.tables[i].headerRow.None? then NoScrape
      else Scraped(ScrapeTables(p.tables), AnchorMap(p.detailLinks), AnchorMap(p.documentLinks))
  }

  /** A page that loads, has content tables and header rows everywhere keeps exactly the
      tables with headers or rows (headers taken from `td` cells, else from `th` cells)
      and exactly the texts of the anchors with non-empty text. */
  lemma ScrapeKeepsContent(p: Page)
    requires |p.tables| > 0
    requires forall i :: 0 <= i < |p.tables| ==> p.tables[i].headerRow.Some?
    ensures var r := Scrape(Some(p));
      (forall i :: 0 <= i < |p.tables| ==>
        var h := p.tables[i].headerRow.value;
        var rows := BodyRows(p.tables[i].bodyRows);
        var headers := if |h.tdTexts| > 0 then StripAll(h.tdTexts) else StripAll(h.thTexts);
        (|headers| > 0 || |rows| > 0) ==> Table(CaptionName(p.tables[i].captions), headers, rows) in r.tables)
      && (forall i :: 0 <= i < |p.detailLinks| && Strip(p.detailLinks[i].text) != "" ==> Strip(p.detailLinks[i].text) in r.links)
      && (forall i :: 0 <= i < |p.documentLinks| && Strip(p.documentLinks[i].text) != "" ==> Strip(p.documentLinks[i].text) in r.documents)
    ensures var r := Scrape(Some(p));
      && (forall t :: t in r.tables ==> exists i :: 0 <= i < |p.tables| && ScrapeTable(p.tables[i]) == Some(t))
      && (forall k :: k in r.links ==> exists i :: 0 <= i < |p.detailLinks| && Strip(p.detailLinks[i].text) == k)
      && (forall k :: k in r.documents ==> exists i :: 0 <= i < |p.documentLinks| && Strip(p.documentLinks[i].text) == k)
  {
    var r := Scrape(Some(p));
    assert r.tables == ScrapeTables(p.tables);
    forall i | 0 <= i < |p.tables|
      ensures var h := p.tables[i].headerRow.value;
        var rows := BodyRows(p.tables[i].bodyRows);
        var headers := if |h.tdTexts| > 0 then StripAll(h.tdTexts) else StripAll(h.thTexts);
        (|headers| > 0 || |rows| > 0) ==> Table(CaptionName(p.tables[i].captions), headers, rows) in r.tables
    {
      var h := p.tables[i].headerRow.value;
      assert Headers(h) == if |h.tdTexts| > 0 then StripAll(h.tdTexts) else StripAll(h.thTexts);
    }
    forall k | k in r.links ensures exists i :: 0 <= i < |p.detailLinks| && Strip(p.detailLinks[i].text) == k {
      AnchorMapKeysFromAnchors(p.detailLinks, k);
    }
    forall k | k in r.documents ensures exists i :: 0 <= i < |p.documentLinks| && Strip(p.documentLinks[i].text) == k {
      AnchorMapKeysFromAnchors(p.documentLinks, k);
    }
  }
}

=== FILE: product_extractor.dfy ===
/** `ProductExtractor` (src/processor/product_extractor.py): turns a stored brand
    payload into one canonical record per product. The products sit in the first
    `dehydratedState` query whose `state.data` has `products`; brand-level properties
    are collected from the content blocks of every query's `details`; with a browser
    driver each product page is scraped for tables, links and documents. */
module ProductExtractor {
  import opened Wrappers
  import opened Json
  import opened Text
  import opened PyOps
  import opened Collect
  import opened BrandPayload
  import opened PageScrape

  /** The pages a browser driver can render, by URL; a URL outside the map fails to load. */
  type Browser = map<string, Page>

  /** The record `_process_product` builds. `summary` is `None` where the source stores
      `null` (the product has no `summary` key). */
  datatype Product = Product(
    id: Json,
    brand: string,
    name: Json,
    slug: Json,
    uuid: Json,
    description: Json,
    companyName: Json,
    companySlug: Json,
    companyId: Json,
    summary: Option<map<Json, Json>>,
    productUrl: string,
    logoUrl: Json,
    bannerUrl: Json,
    properties: map<Json, Json>,
    brandProperties: map<Json, seq<Json>>,
    tables: seq<Table>,
    links: map<string, Option<string>>,
    documents: map<string, Option<string>>)

  const FiltersBlock := "ContentBlockType.FiltersContentBlock"
  const GroupFilterBlock := "ContentBlockType.GroupFilterContentBlock"
  const StoreUrlPrefix := "https://www.knowde.com/stores/"

  // ---------------------------------------------------------------------------
  // Brand properties (`_extract_brand_properties`)
  // ---------------------------------------------------------------------------

  /** `for block in section.get('content_blocks', [])`. */
  function SectionBlocks(section: Json): Partial<Json> {
    match Get(section, "content_blocks", EmptyArr)
    case Failure(_) => Partial([], false)
    case Success(cb) =>
      match Iter(cb)
      case Failure(_) => Partial([], false)
      case Success(bs) => Partial(bs, true)
  }

  /** The sections of `query['state']['data']['details']`, or none when the query lacks
      `state`, `data` or `details`. */
  function DetailSections(query: Json): PyResult<seq<Json>> {
    var hasState :- Contains(query, "state");
    if !hasState then Success([])
    else
      var state :- Subscript(query, "state");
      var hasData :- Contains(state, "data");
      if !hasData then Success([])
      else
        var data :- Subscript(state, "data");
        var hasDetails :- Contains(data, "details");
        if !hasDetails then Success([])
        else
          var details :- Subscript(data, "details");
          Iter(details)
  }

  function QueryBlocks(query: Json): Partial<Json> {
    match DetailSections(query)
    case Failure(_) => Partial([], false)
    case Success(sections) => Chain(seq(|sections|, i requires 0 <= i < |sections| => SectionBlocks(sections[i])))
  }

  /** Every content block the nested loops visit before the traversal raises. */
  function BrandBlocks(queries: Json): Partial<Json> {
    match Iter(queries)
    case Failure(_) => Partial([], false)
    case Success(qs) => Chain(seq(|qs|, i requires 0 <= i < |qs| => QueryBlocks(qs[i])))
  }

  /** `f.get('filter_name')`. */
  function FilterName(f: Json): PyResult<Json> {
    Get(f, "filter_name", JNull)
  }

  /** `[v for v in values if v]`. */
  function TruthyOnly(values: seq<Json>): (r: seq<Json>)
    ensures forall k :: 0 <= k < |r| ==> Truthy(r[k])
    ensures forall v :: v in r <==> v in values && Truthy(v)
    ensures |r| <= |values|
    decreases |values|
  {
    if |values| == 0 then []
    else if Truthy(values[0]) then [values[0]] + TruthyOnly(values[1..])
    else TruthyOnly(values[1..])
  }

  /** Filtering distributes over concatenation, so the kept values stay in input order
      and keep their multiplicity. */
  lemma {:induction false} TruthyOnlyAppend(a: seq<Json>, b: seq<Json>)
    ensures TruthyOnly(a + b) == TruthyOnly(a) + TruthyOnly(b)
    decreases |a|
  {
    if |a| == 0 {
      assert a + b == b;
    } else {
      assert (a + b)[0] == a[0];
      assert (a + b)[1..] == a[1..] + b;
      TruthyOnlyAppend(a[1..], b);
    }
  }

  /** A single value is kept iff it is truthy. */
  lemma TruthyOnlyOne(v: Json)
    ensures TruthyOnly([v]) == if Truthy(v) then [v] else []
  {
    assert [v][1..] == [];
  }

  /** One group of a group-filter block: its header's name (if it has a `header_filter`),
      then its filters' names. */
  function GroupValues(group: Json): PyResult<seq<Json>> {
    var hasHeader :- Contains(group, "header_filter");
    var header :- if hasHeader then
        (var h :- Subscript(group, "header_filter");
         var n :- FilterName(h);
         Success([n]))
      else Success([]);
    var fs :- Get(group, "filters", EmptyArr);
    var filters :- Iter(fs);
    var names :- MapAll(filters, FilterName);
    Success(header + names)
  }

  /** The assignment one content block makes to the brand properties, if any. */
  function BlockEntry(block: Json): (r: PyResult<Option<(Json, seq<Json>)>>)
    ensures !block.JObj? ==> r.Failure?
    ensures block.JObj? && !Truthy(Field(block, "key", JNull)) ==> r == Success(None)
    ensures block.JObj? && Field(block, "type", JNull) != JStr(FiltersBlock) && Field(block, "type", JNull) != JStr(GroupFilterBlock)
      ==> r == Success(None)
    ensures r.Success? && r.value.Some? ==>
      r.value.value.0 == Field(block, "key", JNull) && Truthy(r.value.value.0) && Hashable(r.value.value.0)
      && forall k :: 0 <= k < |r.value.value.1| ==> Truthy(r.value.value.1[k])
  {
    var key :- Get(block, "key", JNull);
    if !Truthy(key) then Success(None)
    else
      var ty := Field(block, "type", JNull);
      if ty == JStr(FiltersBlock) then
        var fs := Field(block, "filters", EmptyArr);
        var filters :- Iter(fs);
        var names :- MapAll(filters, FilterName);
        if !Hashable(key) then Failure(TypeError) else Success(Some((key, TruthyOnly(names))))
      else if ty == JStr(GroupFilterBlock) then
        var gs := Field(block, "group_filters", EmptyArr);
        var groups :- Iter(gs);
        var perGroup :- MapAll(groups, GroupValues);
        if !Hashable(key) then Failure(TypeError) else Success(Some((key, TruthyOnly(Concat(perGroup)))))
      else Success(None)
  }

  /** A filter block whose filters are dicts maps its key to the truthy filter names,
      in order. */
  lemma FiltersBlockNames(block: Json, filters: seq<Json>)
    requires block.JObj? && Truthy(Field(block, "key", JNull)) && Hashable(Field(block, "key", JNull))
    requires Field(block, "type", JNull) == JStr(FiltersBlock)
    requires Field(block, "filters", EmptyArr) == JArr(filters)
    requires forall i :: 0 <= i < |filters| ==> filters[i].JObj?
    ensures BlockEntry(block).Success? && BlockEntry(block).value.Some?
    ensures BlockEntry(block).value.value.1
      == TruthyOnly(seq(|filters|, i requires 0 <= i < |filters| => Field(filters[i], "filter_name", JNull)))
    ensures forall v :: v in BlockEntry(block).value.value.1 <==>
      Truthy(v) && exists i :: 0 <= i < |filters| && Field(filters[i], "filter_name", JNull) == v
  {
    var names := MapAll(filters, FilterName);
    assert names.Success?;
    assert forall i :: 0 <= i < |filters| ==> names.value[i] == Field(filters[i], "filter_name", JNull);
    assert names.value == seq(|filters|, i requires 0 <= i < |filters| => Field(filters[i], "filter_name", JNull));
  }

  /** A group-filter block whose groups are dicts with dict filters (and a dict header,
      where present) maps its key to, group by group, the header name followed by the
      filter names, with falsy values dropped. */
  lemma GroupBlockValues(block: Json, groups: seq<Json>)
    requires block.JObj? && Truthy(Field(block, "key", JNull)) && Hashable(Field(block, "key", JNull))
    requires Field(block, "type", JNull) == JStr(GroupFilterBlock)
    requires Field(block, "group_filters", EmptyArr) == JArr(groups)
    requires forall i :: 0 <= i < |groups| ==> WellFormedGroup(groups[i])
    ensures BlockEntry(block).Success? && BlockEntry(block).value.Some?
    ensures BlockEntry(block).value.value.1 == TruthyOnly(Concat(seq(|groups|, i requires 0 <= i < |groups| => GroupNames(groups[i]))))
  {
    var per := MapAll(groups, GroupValues);
    forall i | 0 <= i < |groups| ensures GroupValues(groups[i]) == Success(GroupNames(groups[i])) {
      GroupValuesWellFormed(groups[i]);
    }
    assert per.Success?;
    assert per.value == seq(|groups|, i requires 0 <= i < |groups| => GroupNames(groups[i]));
  }

  /** A group whose header (if any) and filters are dicts. */
  predicate WellFormedGroup(g: Json) {
    g.JObj?
    && (HasKey(g, "header_filter") ==> Field(g, "header_filter", JNull).JObj?)
    && Field(g, "filters", EmptyArr).JArr?
    && forall k :: 0 <= k < |Field(g, "filters", EmptyArr).items| ==> Field(g, "filters", EmptyArr).items[k].JObj?
  }

  /** The names a well-formed group contributes, header first. */
  function GroupNames(g: Json): seq<Json>
    requires WellFormedGroup(g)
  {
    var header := if HasKey(g, "header_filter") then [Field(Field(g, "header_filter", JNull), "filter_name", JNull)] else [];
    var fs := Field(g, "filters", EmptyArr).items;
    header + seq(|fs|, k requires 0 <= k < |fs| => Field(fs[k], "filter_name", JNull))
  }

  lemma GroupValuesWellFormed(g: Json)
    requires WellFormedGroup(g)
    ensures GroupValues(g) == Success(GroupNames(g))
  {
    var fs := Field(g, "filters", EmptyArr).items;
    var names := MapAll(fs, FilterName);
    assert names.Success?;
    assert names.value == seq(|fs|, k requires 0 <= k < |fs| => Field(fs[k], "filter_name", JNull));
  }

  /** Applies the blocks' assignments in order, keeping what was assigned before the first
      block that raises. */
  function ApplyBlocks(blocks: seq<Json>, acc: map<Json, seq<Json>>): (r: map<Json, seq<Json>>)
    ensures forall k :: k in r ==> k in acc || (Truthy(k) && Hashable(k))
    ensures forall k :: k in acc ==> k in r
    decreases |blocks|
  {
    if |blocks| == 0 then acc
    else
      match BlockEntry(blocks[0])
      case Failure(_) => acc
      case Success(None) => ApplyBlocks(blocks[1..], acc)
      case Success(Some(kv)) => ApplyBlocks(blocks[1..], acc[kv.0 := kv.1])
  }

  /** Whether some block after position `i` assigns the same key as block `i`. */
  predicate LaterSameKey(blocks: seq<Json>, i: int)
    requires 0 <= i < |blocks|
    requires BlockEntry(blocks[i]).Success? && BlockEntry(blocks[i]).value.Some?
  {
    exists j :: i < j < |blocks| && BlockEntry(blocks[j]).Success? && BlockEntry(blocks[j]).value.Some?
      && BlockEntry(blocks[j]).value.value.0 == BlockEntry(blocks[i]).value.value.0
  }

  /** Every block is processed without raising. */
  predicate NoBlockRaises(blocks: seq<Json>) {
    forall j :: 0 <= j < |blocks| ==> BlockEntry(blocks[j]).Success?
  }

  /** The first block that raises ends the loop: the result is what the blocks before it
      assigned. */
  lemma {:induction false} ApplyBlocksStopsAtFailure(blocks: seq<Json>, acc: map<Json, seq<Json>>, f: nat)
    requires f < |blocks| && BlockEntry(blocks[f]).Failure? && NoBlockRaises(blocks[..f])
    ensures ApplyBlocks(blocks, acc) == ApplyBlocks(blocks[..f], acc)
    decreases f
  {
    if f > 0 {
      assert BlockEntry(blocks[0]).Success? by { assert blocks[..f][0] == blocks[0]; }
      var before := blocks[1..][..f - 1];
      assert NoBlockRaises(before) by {
        forall j | 0 <= j < f - 1 ensures BlockEntry(before[j]).Success? {
          assert before[j] == blocks[..f][j + 1];
        }
      }
      assert blocks[..f][1..] == before;
      var next := match BlockEntry(blocks[0]).value
        case None => acc
        case Some(kv) => acc[kv.0 := kv.1];
      ApplyBlocksStopsAtFailure(blocks[1..], next, f - 1);
    }
  }

  /** With no block raising, a key assigned by block `i` and by no later block holds
      block `i`'s list: later assignments overwrite earlier ones. */
  lemma {:induction false} ApplyBlocksLastWins(blocks: seq<Json>, acc: map<Json, seq<Json>>, i: int)
    requires 0 <= i < |blocks| && NoBlockRaises(blocks) && BlockEntry(blocks[i]).value.Some?
    requires !LaterSameKey(blocks, i)
    ensures var kv := BlockEntry(blocks[i]).value.value;
      kv.0 in ApplyBlocks(blocks, acc) && ApplyBlocks(blocks, acc)[kv.0] == kv.1
    decreases |blocks|
  {
    var next := match BlockEntry(blocks[0]).value
      case None => acc
      case Some(kv) => acc[kv.0 := kv.1];
    assert ApplyBlocks(blocks, acc) == ApplyBlocks(blocks[1..], next);
    if i == 0 {
      ApplyBlocksUnassigned(blocks[1..], next, BlockEntry(blocks[0]).value.value.0);
    } else {
      assert NoBlockRaises(blocks[1..]) by {
        forall j | 0 <= j < |blocks| - 1 ensures BlockEntry(blocks[1..][j]).Success? {
          assert blocks[1..][j] == blocks[j + 1];
        }
      }
      assert blocks[1..][i - 1] == blocks[i];
      assert !LaterSameKey(blocks[1..], i - 1) by {
        forall j | i - 1 < j < |blocks| - 1 ensures blocks[1..][j] == blocks[j + 1] { }
      }
      ApplyBlocksLastWins(blocks[1..], next, i - 1);
    }
  }

  /** A key that no block assigns keeps the value it had before the loop. */
  lemma {:induction false} ApplyBlocksUnassigned(blocks: seq<Json>, acc: map<Json, seq<Json>>, k: Json)
    requires NoBlockRaises(blocks)
    requires forall j :: 0 <= j < |blocks| && BlockEntry(blocks[j]).value.Some? ==> BlockEntry(blocks[j]).value.value.0 != k
    ensures k in ApplyBlocks(blocks, acc) <==> k in acc
    ensures k in acc ==> ApplyBlocks(blocks, acc)[k] == acc[k]
    decreases |blocks|
  {
    if |blocks| > 0 {
      var next := match BlockEntry(blocks[0]).value
        case None => acc
        case Some(kv) => acc[kv.0 := kv.1];
      assert forall j :: 0 <= j < |blocks| - 1 ==> blocks[1..][j] == blocks[j + 1];
      ApplyBlocksUnassigned(blocks[1..], next, k);
    }
  }

  /** A block without a truthy key leaves the brand properties unchanged. */
  lemma KeylessBlockSkipped(block: Json, rest: seq<Json>, acc: map<Json, seq<Json>>)
    requires block.JObj? && !Truthy(Field(block, "key", JNull))
    ensures ApplyBlocks([block] + rest, acc) == ApplyBlocks(rest, acc)
  {
    assert ([block] + rest)[1..] == rest;
  }

  /** `_extract_brand_properties(queries)`: never raises; on an error it returns what it
      had assigned so far. */
  function BrandProperties(queries: Json): (r: map<Json, seq<Json>>)
    ensures forall k :: k in r ==> Truthy(k) && Hashable(k)
  {
    ApplyBlocks(BrandBlocks(queries).items, map[])
  }

  /** The brand properties hold, under each key, the list of the last visited block that
      assigns it, provided no visited block raises. */
  lemma BrandPropertiesLastWins(queries: Json, i: int)
    requires var blocks := BrandBlocks(queries).items;
      0 <= i < |blocks| && NoBlockRaises(blocks) && BlockEntry(blocks[i]).value.Some? && !LaterSameKey(blocks, i)
    ensures var kv := BlockEntry(BrandBlocks(queries).items[i]).value.value;
      kv.0 in BrandProperties(queries) && BrandProperties(queries)[kv.0] == kv.1
  {
    ApplyBlocksLastWins(BrandBlocks(queries).items, map[], i);
  }

  /** A key no visited block assigns is absent from the brand properties. */
  lemma BrandPropertiesOnlyAssigned(queries: Json, k: Json)
    requires var blocks := BrandBlocks(queries).items;
      NoBlockRaises(blocks)
      && forall j :: 0 <= j < |blocks| && BlockEntry(blocks[j]).value.Some? ==> BlockEntry(blocks[j]).value.value.0 != k
    ensures k !in BrandProperties(queries)
  {
    ApplyBlocksUnassigned(BrandBlocks(queries).items, map[], k);
  }

  // ---------------------------------------------------------------------------
  // One product (`_process_product`)
  // ---------------------------------------------------------------------------

  function ProductUrl(product: Json): string {
    StoreUrlPrefix + Str(Field(product, "company_slug", JNull)) + "/products/" + Str(Field(product, "slug", JNull))
  }

  /** The scrape a driver yields for a URL; no driver means no scrape at all. */
  function ScrapeFor(driver: Option<Browser>, url: string): Scraped {
    match driver
    case None => NoScrape
    case Some(browser) => Scrape(if url in browser then Some(browser[url]) else None)
  }

  /** `_process_product`: `None` for a falsy product or one whose properties or summary
      raise (the handler returns None); a truthy non-dict makes the handler itself raise,
      which escapes to the caller. */
  function ProcessProduct(product: Json, brandName: string, brandProps: map<Json, seq<Json>>, driver: Option<Browser>)
    : (r: PyResult<Option<Product>>)
    ensures !Truthy(product) ==> r == Success(None)
    ensures Truthy(product) && !product.JObj? ==> r.Failure?
    ensures product.JObj? ==> r.Success?
    ensures r.Success? && r.value.Some? ==>
      var p := r.value.value;
      && p.brand == brandName
      && p.id == Field(product, "id", JNull)
      && p.productUrl == "https://www.knowde.com/stores/" + Str(Field(product, "company_slug", JNull))
                         + "/products/" + Str(Field(product, "slug", JNull))
      && p.brandProperties == brandProps
      && (p.summary.Some? <==> HasKey(product, "summary"))
      && product.JObj? && SummaryMap(product) == Success(p.summary)
      && NameItemsMap(Field(product, "properties", EmptyArr)) == Success(p.properties)
    ensures Truthy(product) && product.JObj? && NameItemsMap(Field(product, "properties", EmptyArr)).Success? && SummaryMap(product).Success?
      ==> r.Success? && r.value.Some?
    ensures driver.None? && r.Success? && r.value.Some? ==>
      r.value.value.tables == [] && r.value.value.links == map[] && r.value.value.documents == map[]
  {
    if !Truthy(product) then Success(None)
    else if !product.JObj? then Failure(AttributeError)
    else
      match NameItemsMap(Field(product, "properties", EmptyArr))
      case Failure(_) => Success(None)
      case Success(props) =>
        match SummaryMap(product)
        case Failure(_) => Success(None)
        case Success(summary) =>
          var url := ProductUrl(product);
          var scraped := ScrapeFor(driver, url);
          Success(Some(Product(
            id := Field(product, "id", JNull),
            brand := brandName,
            name := Field(product, "name", JNull),
            slug := Field(product, "slug", JNull),
            uuid := Field(product, "uuid", JNull),
            description := Field(product, "description", JNull),
            companyName := Field(product, "company_name", JNull),
            companySlug := Field(product, "company_slug", JNull),
            companyId := Field(product, "company_id", JNull),
            summary := summary,
            productUrl := url,
            logoUrl := Field(product, "logo_url", JNull),
            bannerUrl := Field(product, "banner_url", JNull),
            properties := props,
            brandProperties := brandProps,
            tables := scraped.tables,
            links := scraped.links,
            documents := scraped.documents)))
  }

  // ---------------------------------------------------------------------------
  // The whole brand (`extract_products_from_brand`)
  // ---------------------------------------------------------------------------

  /** `brand_data['pageProps']['dehydratedState']['queries']`. */
  function Queries(brandData: Json): PyResult<Json> {
    var pageProps :- Subscript(brandData, "pageProps");
    var dehydrated :- Subscript(pageProps, "dehydratedState");
    Subscript(dehydrated, "queries")
  }

  /** Whether a query has `state`, `state.data` and `products` in it (raising on odd shapes). */
  function HasProducts(query: Json): PyResult<bool> {
    var hasState :- Contains(query, "state");
    if !hasState then Success(false)
    else
      var state :- Subscript(query, "state");
      var hasData :- Contains(state, "data");
      if !hasData then Success(false)
      else
        var data :- Subscript(state, "data");
        Contains(data, "products")
  }

  /** The position of the products query: the first query that has products. Queries after
      it are never looked at, and a query before it that raises ends the search. */
  function FindProductsQuery(qs: seq<Json>): (r: PyResult<Option<nat>>)
    ensures r.Success? && r.value.Some? ==>
      r.value.value < |qs| && HasProducts(qs[r.value.value]) == Success(true)
      && forall j :: 0 <= j < r.value.value ==> HasProducts(qs[j]) == Success(false)
    ensures r == Success(None) <==> forall j :: 0 <= j < |qs| ==> HasProducts(qs[j]) == Success(false)
  {
    FindIndex(qs, HasProducts)
  }

  /** The raw products under `products_query['state']['data']['products']['data']`;
      empty when there is no products query, no `data`, or a falsy list. */
  function ProductsOfQueries(queries: Json): PyResult<seq<Json>> {
    var qs :- Iter(queries);
    var found :- FindProductsQuery(qs);
    if found.None? || !Truthy(qs[found.value]) then Success([])
    else
      var q := qs[found.value];
      var state :- Subscript(q, "state");
      var data :- Subscript(state, "data");
      var products :- Subscript(data, "products");
      var hasData :- Contains(products, "data");
      if !hasData then Success([])
      else
        var all :- Subscript(products, "data");
        if !Truthy(all) then Success([]) else Iter(all)
  }

  /** The raw products the extraction loop visits (none when anything before the loop raises). */
  function RawProducts(brandData: Option<Json>): seq<Json> {
    if !Loaded(brandData) then []
    else
      match Queries(brandData.value)
      case Failure(_) => []
      case Success(queries) =>
        match ProductsOfQueries(queries)
        case Failure(_) => []
        case Success(ps) => ps
  }

  function BrandPropertiesOf(brandData: Option<Json>): map<Json, seq<Json>> {
    if !Loaded(brandData) then map[]
    else
      match Queries(brandData.value)
      case Failure(_) => map[]
      case Success(queries) => BrandProperties(queries)
  }

  /** `extract_products_from_brand`: the processed products, in order, skipping the ones
      processing turns into `None` and stopping at the first one whose processing raises. */
  function ExtractProductsFromBrand(brandName: string, brandData: Option<Json>, driver: Option<Browser>): (r: seq<Product>)
    ensures !Loaded(brandData) ==> r == []
    ensures |r| <= |RawProducts(brandData)|
    ensures forall k :: 0 <= k < |r| ==> r[k].brand == brandName
  {
    var props := BrandPropertiesOf(brandData);
    var ps := RawProducts(brandData);
    var r := FilterMapUntilError(ps, p => ProcessProduct(p, brandName, props, driver));
    assert forall k :: 0 <= k < |r| ==> r[k].brand == brandName by {
      forall k | 0 <= k < |r| ensures r[k].brand == brandName {
        var i :| 0 <= i < |ps| && ProcessProduct(ps[i], brandName, props, driver) == Success(Some(r[k]));
      }
    }
    r
  }

  /** The extracted products are exactly the processed raw products up to the first one
      whose processing raises, in input order, skipping those processed to `None`: every
      kept product comes from a position before that raise, and every product before it
      that is processed to a record is kept. */
  lemma ExtractOrdered(brandName: string, brandData: Option<Json>, driver: Option<Browser>) returns (idx: seq<nat>)
    ensures var r := ExtractProductsFromBrand(brandName, brandData, driver);
      var ps := RawProducts(brandData);
      var props := BrandPropertiesOf(brandData);
      && |idx| == |r|
      && (forall k :: 0 <= k < |idx| ==>
            (idx[k] < |ps| && ProcessProduct(ps[idx[k]], brandName, props, driver) == Success(Some(r[k]))))
      && (forall k, l :: 0 <= k < l < |idx| ==> idx[k] < idx[l])
      && (forall k, j :: 0 <= k < |idx| && 0 <= j <= idx[k] ==>
            j < |ps| && ProcessProduct(ps[j], brandName, props, driver).Success?)
      && (forall i ::
            (0 <= i < |ps| && (forall j :: 0 <= j <= i ==> ProcessProduct(ps[j], brandName, props, driver).Success?)
             && ProcessProduct(ps[i], brandName, props, driver).value.Some?) ==> i in idx)
  {
    var props := BrandPropertiesOf(brandData);
    idx := FilterMapUntilErrorOrdered(RawProducts(brandData), p => ProcessProduct(p, brandName, props, driver));
  }

  /** When every raw product is a dict whose properties and summary are well formed, no
      product is dropped. */
  lemma ExtractKeepsWellFormed(brandName: string, brandData: Option<Json>, driver: Option<Browser>)
    requires forall i :: 0 <= i < |RawProducts(brandData)| ==>
      var p := RawProducts(brandData)[i];
      Truthy(p) && p.JObj? && NameItemsMap(Field(p, "properties", EmptyArr)).Success?
      && (HasKey(p, "summary") ==> NameItemsMap(Field(p, "summary", EmptyArr)).Success?)
    ensures |ExtractProductsFromBrand(brandName, brandData, driver)| == |RawProducts(brandData)|
  {
    var props := BrandPropertiesOf(brandData);
    FilterMapUntilErrorTotal(RawProducts(brandData), p => ProcessProduct(p, brandName, props, driver));
  }
}

=== FILE: pyops.dfy ===
/** The Python operations the source applies to loaded JSON, with the exceptions
    they raise when the value has the wrong shape. */
module PyOps {
  import opened Wrappers
  import opened Json
  import opened Text

  /** The exception kinds the modelled code can raise or catch. */
  datatype PyError = KeyError | TypeError | AttributeError | IndexError

  type PyResult<T> = Result<T, PyError>

  /** `d.get(key, default)`: only dicts have `.get`. */
  function Get(d: Json, key: string, default: Json): (r: PyResult<Json>)
    ensures r.Success? <==> d.JObj?
    ensures r.Success? && HasKey(d, key) ==> Some(r.value) == Lookup(d.fields, key)
    ensures r.Success? && !HasKey(d, key) ==> r.value == default
  {
    if d.JObj? then Success(Field(d, key, default)) else Failure(AttributeError)
  }

  /** `d[key]` with a string key. */
  function Subscript(d: Json, key: string): (r: PyResult<Json>)
    ensures r.Success? <==> HasKey(d, key)
    ensures r.Success? ==> Some(r.value) == Lookup(d.fields, key)
  {
    match d
    case JObj(f) => (match Lookup(f, key) case Some(v) => Success(v) case None => Failure(KeyError))
    case _ => Failure(TypeError)
  }

  /** `key in container` for a string key: dict membership, list membership or substring. */
  function Contains(container: Json, key: string): PyResult<bool> {
    match container
    case JObj(f) => Success(Lookup(f, key).Some?)
    case JArr(a) => Success(JStr(key) in a)
    case JStr(s) => Success(IsSubstring(key, s))
    case _ => Failure(TypeError)
  }

  /** The values a Python `for` loop visits: list items, dict keys, or one-character strings. */
  function Iter(j: Json): PyResult<seq<Json>> {
    match j
    case JArr(a) => Success(a)
    case JObj(f) =>
      var ks := Keys(f);
      Success(seq(|ks|, i requires 0 <= i < |ks| => JStr(ks[i])))
    case JStr(s) => Success(seq(|s|, i requires 0 <= i < |s| => JStr([s[i]])))
    case _ => Failure(TypeError)
  }

  /** `len(j)` counts exactly what a loop over `j` visits. */
  function Len(j: Json): (r: PyResult<nat>)
    ensures r.Success? <==> Iter(j).Success?
    ensures r.Success? ==> r.value == |Iter(j).value|
  {
    match j
    case JArr(a) => Success(|a|)
    case JObj(f) => Success(|Keys(f)|)
    case JStr(s) => Success(|s|)
    case _ => Failure(TypeError)
  }

  /** `s.lower()`: only strings have it. */
  function LowerJson(j: Json): PyResult<string> {
    if j.JStr? then Success(Lower(j.s)) else Failure(AttributeError)
  }

  /** `str(j)`, which is also what an f-string inserts. Lists and dicts are rendered
      in repr style without escaping quotes inside strings. */
  function Str(j: Json): string {
    match j
    case JStr(s) => s
    case JArr(_) => Repr(j)
    case JObj(_) => Repr(j)
    case _ => ScalarStr(j)
  }

  function ScalarStr(j: Json): string {
    match j
    case JBool(b) => if b then "True" else "False"
    case JInt(i) => IntToString(i)
    case _ => "None"
  }

  function Repr(j: Json): string {
    match j
    case JStr(s) => "'" + s + "'"
    case JArr(a) => "[" + Join(", ", seq(|a|, i requires 0 <= i < |a| => Repr(a[i]))) + "]"
    case JObj(f) =>
      "{" + Join(", ", seq(|f|, i requires 0 <= i < |f| => "'" + f[i].0 + "': " + Repr(f[i].1))) + "}"
    case _ => ScalarStr(j)
  }
}

=== FILE: section_extractors.dfy ===
/** The two standalone extractors kept next to the tests (tests/extract_test_products.py
    and tests/test_product_extractor.py). Both read products from three sections of
    `pageProps` — most viewed, featured, then the full product list — and build one
    record per product; they differ in the fields they copy and in how they save. */
module SectionExtractors {
  import opened Wrappers
  import opened Json
  import opened PyOps
  import opened Collect
  import opened BrandPayload

  /** A product record as the two extractors build it. `brand` is set only by the
      test extractor class; `documents` and `extras` are filled only by the script. */
  datatype SectionProduct = SectionProduct(
    id: Json,
    brand: Option<string>,
    name: Json,
    slug: Json,
    description: Json,
    companyName: Json,
    companySlug: Json,
    logoUrl: Json,
    bannerUrl: Json,
    properties: map<Json, Json>,
    summary: Option<map<Json, Json>>,
    documents: Option<Json>,
    extras: map<string, Json>)

  /** The optional fields the script copies when present. */
  const AdditionalFields: set<string> := {"manufacturer", "specifications", "features", "applications", "certifications"}

  // ---------------------------------------------------------------------------
  // The product stream
  // ---------------------------------------------------------------------------

  function IterPartial(j: Json): Partial<Json> {
    match Iter(j)
    case Failure(_) => Partial([], false)
    case Success(xs) => Partial(xs, true)
  }

  /** The products the two nested loops visit. The three section lists are looked up
      before the loop (an error there yields no products); a section that cannot be
      iterated ends the loop after the products of the sections before it. */
  function Candidates(brandData: Json): seq<Json> {
    var stream := (
      var pageProps :- PageProps(brandData);
      var mv :- SectionData(pageProps, MostViewed);
      var fe :- SectionData(pageProps, Featured);
      var pr :- SectionData(pageProps, ProductsKey);
      Success(Chain([IterPartial(mv), IterPartial(fe), IterPartial(pr)])));
    match stream
    case Failure(_) => []
    case Success(p) => p.items
  }

  /** A section that is missing, or a dict whose `data` is missing or a list. */
  predicate WellFormedSection(pageProps: Json, section: string)
    requires pageProps.JObj?
  {
    var s := Field(pageProps, section, EmptyObj);
    s.JObj? && Field(s, "data", EmptyArr).JArr?
  }

  /** The products listed under a well-formed section (none when it is missing). */
  function SectionList(pageProps: Json, section: string): seq<Json>
    requires pageProps.JObj? && WellFormedSection(pageProps, section)
  {
    Field(Field(pageProps, section, EmptyObj), "data", EmptyArr).items
  }

  /** With a dict brand payload and well-formed sections, the stream is the three sections
      concatenated in the fixed order; a missing `pageProps` or section contributes nothing. */
  lemma CandidatesConcat(brandData: Json)
    requires brandData.JObj?
    requires var pp := Field(brandData, "pageProps", EmptyObj);
      pp.JObj? && WellFormedSection(pp, MostViewed) && WellFormedSection(pp, Featured) && WellFormedSection(pp, ProductsKey)
    ensures var pp := Field(brandData, "pageProps", EmptyObj);
      Candidates(brandData) == SectionList(pp, MostViewed) + SectionList(pp, Featured) + SectionList(pp, ProductsKey)
  {
    var pp := Field(brandData, "pageProps", EmptyObj);
    var parts := [IterPartial(Field(Field(pp, MostViewed, EmptyObj), "data", EmptyArr)),
                  IterPartial(Field(Field(pp, Featured, EmptyObj), "data", EmptyArr)),
                  IterPartial(Field(Field(pp, ProductsKey, EmptyObj), "data", EmptyArr))];
    var items := seq(|parts|, i requires 0 <= i < |parts| => parts[i].items);
    assert Chain(parts).items == Concat(items);
    assert items == [parts[0].items, parts[1].items, parts[2].items];
    ConcatThree(parts[0].items, parts[1].items, parts[2].items);
  }

  /** A brand payload that is not a dict, or a dict without `pageProps`, yields no products. */
  lemma NoPagePropsNoCandidates(brandData: Json)
    requires !brandData.JObj? || !HasKey(brandData, "pageProps")
    ensures Candidates(brandData) == []
  {
    if brandData.JObj? {
      assert Field(EmptyObj, MostViewed, EmptyObj) == EmptyObj;
      var parts := [IterPartial(EmptyArr), IterPartial(EmptyArr), IterPartial(EmptyArr)];
      var items := seq(|parts|, i requires 0 <= i < |parts| => parts[i].items);
      assert Chain(parts).items == Concat(items);
      assert Concat(items[2..]) == items[2] + Concat(items[3..]);
      assert Concat(items[1..]) == items[1] + Concat(items[2..]);
    }
  }

  // ---------------------------------------------------------------------------
  // Building records
  // ---------------------------------------------------------------------------

  /** The fields both extractors build; raising when the product is not a dict or its
      properties or summary cannot be rebuilt. */
  function BaseRecord(product: Json): (r: PyResult<SectionProduct>)
    ensures r.Success? <==> (product.JObj? && NameItemsMap(Field(product, "properties", EmptyArr)).Success?
      && SummaryMap(product).Success?)
  {
    if !product.JObj? then Failure(AttributeError)
    else
      var props :- NameItemsMap(Field(product, "properties", EmptyArr));
      var summary :- SummaryMap(product);
      Success(SectionProduct(
        id := Field(product, "id", JNull),
        brand := None,
        name := Field(product, "name", JNull),
        slug := Field(product, "slug", JNull),
        description := Field(product, "description", JNull),
        companyName := Field(product, "company_name", JNull),
        companySlug := Field(product, "company_slug", JNull),
        logoUrl := Field(product, "logo_url", JNull),
        bannerUrl := Field(product, "banner_url", JNull),
        properties := props,
        summary := summary,
        documents := None,
        extras := map[]))
  }

  /** The additional fields a dict product carries, copied verbatim. */
  function Extras(product: Json): (m: map<string, Json>)
    requires product.JObj?
    ensures forall f :: f in m <==> f in AdditionalFields && HasKey(product, f)
    ensures forall f :: f in m ==> Some(m[f]) == Lookup(product.fields, f)
  {
    map f | f in AdditionalFields && HasKey(product, f) :: Field(product, f, JNull)
  }

  /** The script's record: the shared fields, plus `documents` and the additional fields. */
  function ScriptRecord(product: Json): (r: PyResult<SectionProduct>)
    ensures r.Success? ==> ScriptBuiltFrom(r.value, product)
  {
    var base :- BaseRecord(product);
    Success(base.(
      documents := if HasKey(product, "documents") then Some(Field(product, "documents", JNull)) else None,
      extras := Extras(product)))
  }

  /** The test class's record: the shared fields, plus the brand name. */
  function ClassRecord(product: Json, brandName: string): PyResult<SectionProduct> {
    var base :- BaseRecord(product);
    Success(base.(brand := Some(brandName)))
  }

  /** What the records of input product `p` carry, whichever extractor built them. */
  predicate BuiltFrom(rec: SectionProduct, p: Json) {
    p.JObj?
    && rec.id == Field(p, "id", JNull)
    && rec.name == Field(p, "name", JNull)
    && NameItemsMap(Field(p, "properties", EmptyArr)) == Success(rec.properties)
    && (rec.summary.Some? <==> HasKey(p, "summary"))
    && (rec.summary.Some? ==> NameItemsMap(Field(p, "summary", EmptyArr)) == Success(rec.summary.value))
  }

  /** What a script record of input product `p` carries: the shared fields, `documents`
      exactly when the product has it, and exactly the additional fields it has. */
  ghost predicate ScriptBuiltFrom(rec: SectionProduct, p: Json) {
    && BuiltFrom(rec, p)
    && (rec.documents.Some? <==> HasKey(p, "documents"))
    && (rec.documents.Some? ==> Some(rec.documents.value) == Lookup(p.fields, "documents"))
    && (forall f :: f in rec.extras <==> f in AdditionalFields && HasKey(p, f))
    && (forall f :: f in rec.extras ==> Some(rec.extras[f]) == Lookup(p.fields, f))
  }

  /** `extract_products_from_brand_data` of the script: one record per product, in stream
      order, until the first product whose record raises. */
  function ExtractScriptProducts(brandData: Json): (r: seq<SectionProduct>)
    ensures |r| <= |Candidates(brandData)|
    ensures forall i :: 0 <= i < |r| ==> ScriptBuiltFrom(r[i], Candidates(brandData)[i])
    ensures |r| < |Candidates(brandData)| ==> ScriptRecord(Candidates(brandData)[|r|]).Failure?
  {
    CollectUntilError(Candidates(brandData), ScriptRecord)
  }

  /** `TestProductExtractor.extract_products_from_brand_data`: the same stream, every
      record carrying the brand name. */
  function ExtractClassProducts(brandData: Json, brandName: string): (r: seq<SectionProduct>)
    ensures |r| <= |Candidates(brandData)|
    ensures forall i :: 0 <= i < |r| ==> BuiltFrom(r[i], Candidates(brandData)[i]) && r[i].brand == Some(brandName)
    ensures |r| < |Candidates(brandData)| ==> ClassRecord(Candidates(brandData)[|r|], brandName).Failure?
  {
    CollectUntilError(Candidates(brandData), p => ClassRecord(p, brandName))
  }

  /** A product the shared builder accepts. */
  predicate Buildable(p: Json) {
    p.JObj? && NameItemsMap(Field(p, "properties", EmptyArr)).Success? && SummaryMap(p).Success?
  }

  /** Nothing is filtered: when every product is buildable there is one record per
      product, so the count is the sum of the section lengths. */
  lemma ExtractKeepsAll(brandData: Json, brandName: string)
    requires forall i :: 0 <= i < |Candidates(brandData)| ==> Buildable(Candidates(brandData)[i])
    ensures |ExtractScriptProducts(brandData)| == |Candidates(brandData)|
    ensures |ExtractClassProducts(brandData, brandName)| == |Candidates(brandData)|
  {
    var c := Candidates(brandData);
    assert forall i :: 0 <= i < |c| ==> ScriptRecord(c[i]).Success? && ClassRecord(c[i], brandName).Success? by {
      forall i | 0 <= i < |c| ensures ScriptRecord(c[i]).Success? && ClassRecord(c[i], brandName).Success? {
        assert Buildable(c[i]);
        assert BaseRecord(c[i]).Success?;
      }
    }
    // Each collection stops only at a record that raises, and none does.
  }

  // ---------------------------------------------------------------------------
  // Saving
  // ---------------------------------------------------------------------------

  /** The script's save loop for one brand: a record is written, under its `id`, only when
      the id is truthy; a later record with the same id overwrites the file. */
  function SaveScriptProducts(store: map<string, SectionProduct>, products: seq<SectionProduct>): (r: map<string, SectionProduct>)
    ensures forall k :: k in store ==> k in r
    ensures forall i :: 0 <= i < |products| && Truthy(products[i].id) ==> Str(products[i].id) in r
    ensures forall k :: k in r && k !in store ==> exists i :: 0 <= i < |products| && Truthy(products[i].id) && Str(products[i].id) == k
    decreases |products|
  {
    if |products| == 0 then store
    else
      var p := products[0];
      var next := if Truthy(p.id) then store[Str(p.id) := p] else store;
      var r := SaveScriptProducts(next, products[1..]);
      assert forall i :: 1 <= i < |products| ==> products[i] == products[1..][i - 1];
      r
  }

  /** Whether a record after position `i` is written under the same id as record `i`. */
  predicate LaterSameId(products: seq<SectionProduct>, i: int)
    requires 0 <= i < |products|
  {
    exists j :: i < j < |products| && Truthy(products[j].id) && Str(products[j].id) == Str(products[i].id)
  }

  /** The file under an id holds the last record written with that id. */
  lemma {:induction false} SaveScriptProductsLastWins(store: map<string, SectionProduct>, products: seq<SectionProduct>, i: int)
    requires 0 <= i < |products| && Truthy(products[i].id) && !LaterSameId(products, i)
    ensures Str(products[i].id) in SaveScriptProducts(store, products)
    ensures SaveScriptProducts(store, products)[Str(products[i].id)] == products[i]
    decreases |products|
  {
    var p := products[0];
    var next := if Truthy(p.id) then store[Str(p.id) := p] else store;
    var rest := products[1..];
    assert SaveScriptProducts(store, products) == SaveScriptProducts(next, rest);
    if i == 0 {
      forall j | 0 <= j < |rest| && Truthy(rest[j].id) ensures Str(rest[j].id) != Str(p.id) {
        assert rest[j] == products[j + 1];
      }
      SaveScriptProductsUnwritten(next, rest, Str(p.id));
    } else {
      assert rest[i - 1] == products[i];
      assert !LaterSameId(rest, i - 1) by {
        forall j | i - 1 < j < |rest| ensures !(Truthy(rest[j].id) && Str(rest[j].id) == Str(rest[i - 1].id)) {
          assert rest[j] == products[j + 1];
        }
      }
      SaveScriptProductsLastWins(next, rest, i - 1);
    }
  }

  /** An id no record is written under keeps the file it had before. */
  lemma {:induction false} SaveScriptProductsUnwritten(store: map<string, SectionProduct>, products: seq<SectionProduct>, k: string)
    requires forall j :: 0 <= j < |products| && Truthy(products[j].id) ==> Str(products[j].id) != k
    ensures k in SaveScriptProducts(store, products) <==> k in store
    ensures k in store ==> SaveScriptProducts(store, products)[k] == store[k]
    decreases |products|
  {
    if |products| > 0 {
      var p := products[0];
      var next := if Truthy(p.id) then store[Str(p.id) := p] else store;
      assert forall j :: 1 <= j < |products| ==> products[1..][j - 1] == products[j];
      SaveScriptProductsUnwritten(next, products[1..], k);
    }
  }

  /** A record with a falsy id is never written. */
  lemma FalsyIdNotSaved(store: map<string, SectionProduct>, p: SectionProduct)
    requires !Truthy(p.id)
    ensures SaveScriptProducts(store, [p]) == store
  {
  }

  /** `TestProductExtractor.save_product`: files are keyed by the brand directory and the
      file name; nothing is written for a falsy record or one without `id` or `brand`. */
  function SaveProduct(store: map<(string, string), Json>, product: Json): (r: PyResult<map<(string, string), Json>>)
    ensures !Truthy(product) ==> r == Success(store)
    ensures product.JObj? && (!HasKey(product, "id") || !HasKey(product, "brand")) ==> r == Success(store)
    ensures r.Success? && r.value != store ==>
      HasKey(product, "id") && HasKey(product, "brand") && Field(product, "brand", JNull).JStr?
      && r.value == store[(Field(product, "brand", JNull).s, Str(Field(product, "id", JNull)) + ".json") := product]
  {
    if !Truthy(product) then Success(store)
    else
      var hasId :- Contains(product, "id");
      var hasBrand :- Contains(product, "brand");
      if !hasId || !hasBrand then Success(store)
      else
        var brand :- Subscript(product, "brand");
        // `product['brand']` succeeded, so the product is a dict holding `id` too.
        var id := Field(product, "id", JNull);
        if !brand.JStr? then Failure(TypeError)
        else Success(store[(brand.s, Str(id) + ".json") := product])
  }

  /** A dict record with both keys and a string brand is written under its brand and id. */
  lemma SaveProductWrites(store: map<(string, string), Json>, product: Json)
    requires product.JObj? && HasKey(product, "id") && HasKey(product, "brand") && Field(product, "brand", JNull).JStr?
    ensures SaveProduct(store, product) ==
      Success(store[(Field(product, "brand", JNull).s, Str(Field(product, "id", JNull)) + ".json") := product])
  {
  }
}

=== FILE: task_queue.dfy ===
/** The brand work queue of src/queue/task_queue.py: a Redis list `brands_queue` used
    as a FIFO, and a Redis set `processed_brands` that only grows. */
module TaskQueue {
  import opened Wrappers

  datatype BrandQueue = BrandQueue(queue: seq<string>, processed: set<string>)

  /** `enqueue_brand_for_processing`: append to the tail unless already processed. Being
      in the queue already does not stop a second copy. */
  function Enqueue(q: BrandQueue, brand: string): (r: BrandQueue)
    ensures r.processed == q.processed
    ensures brand !in q.processed <==> r.queue == q.queue + [brand]
    ensures brand in q.processed <==> r == q
  {
    if brand in q.processed then q
    else
      assert |q.queue + [brand]| != |q.queue|;
      q.(queue := q.queue + [brand])
  }

  /** `get_next_brand`: pop the head; a non-empty name is marked processed and returned.
      An empty name is popped but, being falsy, neither returned nor marked. */
  function Dequeue(q: BrandQueue): (r: (Option<string>, BrandQueue))
    ensures |q.queue| == 0 ==> r == (None, q)
    ensures |q.queue| > 0 ==> r.1.queue == q.queue[1..]
    ensures r.0.Some? <==> |q.queue| > 0 && q.queue[0] != ""
    ensures r.0.Some? ==> r.0.value == q.queue[0] && r.1.processed == q.processed + {q.queue[0]}
    ensures r.0.None? ==> r.1.processed == q.processed
  {
    if |q.queue| == 0 then (None, q)
    else
      var brand := q.queue[0];
      var rest := q.(queue := q.queue[1..]);
      if brand != "" then (Some(brand), rest.(processed := q.processed + {brand}))
      else (None, rest)
  }

  /** A call on the queue. */
  datatype Op = EnqueueOp(brand: string) | DequeueOp

  function Apply(q: BrandQueue, op: Op): BrandQueue {
    match op
    case EnqueueOp(b) => Enqueue(q, b)
    case DequeueOp => Dequeue(q).1
  }

  /** The state after a sequence of calls; the processed set only grows along the way. */
  function Run(q: BrandQueue, ops: seq<Op>): (r: BrandQueue)
    ensures q.processed <= r.processed
    ensures forall b :: b in r.processed && b !in q.processed ==> exists i :: 0 <= i < |ops| && ops[i].DequeueOp?
    decreases |ops|
  {
    if |ops| == 0 then q
    else
      var next := Apply(q, ops[0]);
      var r := Run(next, ops[1..]);
      assert forall i :: 1 <= i < |ops| ==> ops[i] == ops[1..][i - 1];
      r
  }

  /** A brand becomes processed only by being the head a dequeue pops: for every brand the
      calls add to the processed set, some call is a dequeue made while that brand was at
      the head of the queue. */
  lemma {:induction false} RunAddsOnlyDequeuedHeads(q: BrandQueue, ops: seq<Op>, b: string)
    requires b in Run(q, ops).processed && b !in q.processed
    ensures exists i :: 0 <= i < |ops| && ops[i].DequeueOp? && |Run(q, ops[..i]).queue| > 0 && Run(q, ops[..i]).queue[0] == b
    decreases |ops|
  {
    var next := Apply(q, ops[0]);
    assert Run(q, ops[..0]) == q;
    if b !in next.processed {
      RunAddsOnlyDequeuedHeads(next, ops[1..], b);
      var i :| 0 <= i < |ops[1..]| && ops[1..][i].DequeueOp? && |Run(next, ops[1..][..i]).queue| > 0
        && Run(next, ops[1..][..i]).queue[0] == b;
      assert ops[..i + 1][1..] == ops[1..][..i];
      assert Run(q, ops[..i + 1]) == Run(next, ops[1..][..i]);
      assert ops[i + 1] == ops[1..][i];
    }
  }

  /** Once a brand is processed, enqueueing it after any further calls changes nothing. */
  lemma ProcessedBrandNeverRequeued(q: BrandQueue, ops: seq<Op>, brand: string)
    requires brand in q.processed
    ensures Enqueue(Run(q, ops), brand) == Run(q, ops)
  {
  }

  /** An unprocessed brand enqueued twice sits in the queue twice. */
  lemma DuplicateEnqueue(q: BrandQueue, brand: string)
    requires brand !in q.processed
    ensures Enqueue(Enqueue(q, brand), brand).queue == q.queue + [brand, brand]
  {
  }

  /** Dequeueing after enqueueing into a non-empty queue yields the same as dequeueing
      first: the new brand waits behind the old head. */
  lemma EnqueueKeepsHead(q: BrandQueue, brand: string)
    requires |q.queue| > 0
    ensures Dequeue(Enqueue(q, brand)).0 == Dequeue(q).0
  {
  }

  /** Brands come out in the order they went in: enqueueing unprocessed, non-empty brands
      behind the current entries and dequeueing everything returns them last, in order. */
  lemma Fifo(q: BrandQueue, brands: seq<string>)
    requires forall i :: 0 <= i < |brands| ==> brands[i] != "" && brands[i] !in q.processed
    ensures DrainAll(EnqueueAll(q, brands), |q.queue| + |brands|)[|q.queue|..] == seq(|brands|, i requires 0 <= i < |brands| => Some(brands[i]))
  {
    EnqueueAllAppends(q, brands);
    DrainAllReturnsQueue(EnqueueAll(q, brands), |q.queue| + |brands|);
  }

  function EnqueueAll(q: BrandQueue, brands: seq<string>): BrandQueue
    decreases |brands|
  {
    if |brands| == 0 then q else EnqueueAll(Enqueue(q, brands[0]), brands[1..])
  }

  /** The results of `n` consecutive dequeues. */
  function DrainAll(q: BrandQueue, n: nat): (r: seq<Option<string>>)
    ensures |r| == n
    decreases n
  {
    if n == 0 then [] else [Dequeue(q).0] + DrainAll(Dequeue(q).1, n - 1)
  }

  lemma {:induction false} EnqueueAllAppends(q: BrandQueue, brands: seq<string>)
    requires forall i :: 0 <= i < |brands| ==> brands[i] !in q.processed
    ensures EnqueueAll(q, brands) == BrandQueue(q.queue + brands, q.processed)
    decreases |brands|
  {
    if |brands| > 0 {
      var next := Enqueue(q, brands[0]);
      assert forall i :: 0 <= i < |brands[1..]| ==> brands[1..][i] == brands[i + 1];
      EnqueueAllAppends(next, brands[1..]);
      assert next.queue + brands[1..] == q.queue + brands;
    }
  }

  /** Draining returns the queue's entries in order, with `None` for empty names. */
  lemma {:induction false} DrainAllReturnsQueue(q: BrandQueue, n: nat)
    requires n <= |q.queue|
    ensures |DrainAll(q, n)| == n
    ensures forall i :: 0 <= i < n ==> DrainAll(q, n)[i] == (if q.queue[i] == "" then None else Some(q.queue[i]))
    decreases n
  {
    if n > 0 {
      var next := Dequeue(q).1;
      DrainAllReturnsQueue(next, n - 1);
      assert forall i :: 1 <= i < n ==> next.queue[i - 1] == q.queue[i];
    }
  }
}

=== FILE: text.dfy ===
/** String operations the source takes from Python's `str`: `lower`, `strip`,
    substring search, `join` and integer formatting. */
module Text {

  /** ASCII case folding; `str.lower` on non-ASCII letters is not modelled. */
  function LowerChar(c: char): char {
    if 'A' <= c <= 'Z' then (c as int + 32) as char else c
  }

  function Lower(s: string): (r: string)
    ensures |r| == |s|
    ensures forall i :: 0 <= i < |s| ==> r[i] == LowerChar(s[i])
  {
    seq(|s|, i requires 0 <= i < |s| => LowerChar(s[i]))
  }

  /** The ASCII characters for which Python's `str.isspace` holds. */
  predicate IsSpace(c: char) {
    c == ' ' || 9 <= c as int <= 13 || 28 <= c as int <= 31
  }

  function TrimLeft(s: string): (r: string)
    ensures |r| <= |s|
    ensures |r| > 0 ==> !IsSpace(r[0])
    decreases |s|
  {
    if |s| > 0 && IsSpace(s[0]) then TrimLeft(s[1..]) else s
  }

  function TrimRight(s: string): (r: string)
    ensures |r| <= |s|
    ensures |r| > 0 ==> r[0] == s[0] && !IsSpace(r[|r| - 1])
    decreases |s|
  {
    if |s| > 0 && IsSpace(s[|s| - 1]) then TrimRight(s[..|s| - 1]) else s
  }

  /** A string with no leading or trailing whitespace. */
  predicate Stripped(s: string) {
    |s| == 0 || (!IsSpace(s[0]) && !IsSpace(s[|s| - 1]))
  }

  /** Python's `s.strip()`: drops leading and trailing whitespace and nothing else. */
  function Strip(s: string): (r: string)
    ensures Stripped(r)
    ensures |r| <= |s|
  {
    TrimRight(TrimLeft(s))
  }

  predicate IsPrefix(p: string, s: string) {
    |p| <= |s| && s[..|p|] == p
  }

  /** Python's `needle in hay` on two strings. */
  predicate IsSubstring(needle: string, hay: string)
    decreases |hay|
  {
    IsPrefix(needle, hay) || (|hay| > 0 && IsSubstring(needle, hay[1..]))
  }

  /** Python's `sep.join(parts)`. */
  function Join(sep: string, parts: seq<string>): string
    decreases |parts|
  {
    if |parts| == 0 then ""
    else if |parts| == 1 then parts[0]
    else parts[0] + sep + Join(sep, parts[1..])
  }

  function DigitChar(d: nat): char
    requires d < 10
  {
    "0123456789"[d]
  }

  /** Decimal rendering of a natural number, as Python's `str(n)`. */
  function NatToString(n: nat): (r: string)
    ensures |r| > 0
    ensures forall i :: 0 <= i < |r| ==> '0' <= r[i] <= '9'
    decreases n
  {
    if n < 10 then [DigitChar(n)] else NatToString(n / 10) + [DigitChar(n % 10)]
  }

  function IntToString(i: int): string {
    if i < 0 then "-" + NatToString(-i) else NatToString(i)
  }
}

=== FILE: wrappers.dfy ===
/** Option and Result, the failure-compatible datatypes used throughout the model.
    A Python exception that the source lets escape becomes a `Failure`. */
module Wrappers {

  datatype Option<+T> = None | Some(value: T) {

    predicate IsFailure() {
      None?
    }

    function PropagateFailure<U>(): Option<U>
      requires None?
    {
      None
    }

    function Extract(): T
      requires Some?
    {
      value
    }

    function GetOr(default: T): T {
      match this
      case Some(v) => v
      case None => default
    }
  }

  datatype Result<+R, +E> = Success(value: R) | Failure(error: E) {

    predicate IsFailure() {
      Failure?
    }

    function PropagateFailure<U>(): Result<U, E>
      requires Failure?
    {
      Failure(error)
    }

    function Extract(): R
      requires Success?
    {
      value
    }
  }
}
